=== FILE: README.md ===
# Domus core, modelled in Dafny

Domus is a property-management application. Landlords list properties and
tenants are attached to them. Either side opens maintenance tickets, and the
participants talk in chats. This project models the core of Domus as pure
Dafny functions over immutable data.

## Backend (Express routes over Mongoose models)

- **Stores.** Each MongoDB collection is a sequence. `findById` and `findOne` become first-match searches.
- **Users.** The user schema (`UserModel`):
  - email normalisation (trim, then lower-case);
  - role cast and default;
  - the save hook that hashes a modified password;
  - the public profile, which hides the secrets.
- **Properties.** The property schema (`PropertyModel`):
  - enums and price defaults;
  - the active-tenant scan;
  - `calculateAverageRating`.
- **Maintenance tickets.** The ticket schema (`MaintenanceModel`):
  - priority, status and category enums;
  - the `addNote`, `updateStatus` and `assign` instance methods.
- **Chats.** The chat schema (`ChatModel`):
  - messages with read receipts;
  - `addMessage`, `markAsRead` and `getUnreadCount`;
  - the `findOrCreateDirectChat` static.
- **Middleware.** The authentication middleware (`AuthMiddleware`) covers the bearer token, `auth`, `checkRole` and `verifyPropertyAccess`.
- **Routes.** The routers for authentication (`AuthRoutes`), properties (`PropertyRoutes`), maintenance (`MaintenanceRoutes`) and chat (`ChatRoutes`).
  - Every route is a function from the stores, the caller and the request to an `Outcome`.
  - An `Outcome` is either `Ok(value)` or `Fail(status, error message)`.

## Frontend

- **Validators.** The form validators of `src/utils/validation.js` (`Validation`). Their regular expressions are written as character-class patterns (`Pattern`).
- **Form hook.** The `useForm` hook (`UseForm`): the rule order of `validateField`, `validateForm` and the state transitions.
- **CSV checks.** The CSV required-field checks (`CsvParser`).
- **Template tool.** Placeholder substitution in the message-template tool (`AiTools`).
- **Global state.** The `appReducer` of the application context (`AppReducer`).
- **Persisted store.** The persisted zustand store (`Store`).

## What the source does at runtime, and how the model treats it

- **Validator chains.** The `express-validator` chains on the routes are never consulted: no route calls `validationResult`.
  - Only their sanitizers take effect: `trim()` and `normalizeEmail()`.
  - What a route really accepts is therefore decided by Mongoose when it casts the values and validates the document on save.
  - The model states these parts of that decision:
    - `required`, `enum` (top-level and nested), `min`/`max` and `minlength`, with lengths counted in UTF-16 code units as JavaScript counts them;
    - the element casts of list paths: `[String]` lists (attachments included), `{ url, caption }` image lists and seeded tenancies;
    - the casts of nested objects (`preferences`, `cost`, `specifications`, `availability`), covering their numbers, Booleans, dates and enums (the `Casts` module).
  - A failed cast or check becomes whatever status the route's `catch` answers.
  - Values are stored as the request gave them. The casts that convert or reshape a value are listed under "Left out".
  - The model follows that runtime behaviour: a checking chain adds nothing.
- **Effects are parameters.** These enter the model as parameters:
  - the clock;
  - freshly generated ids;
  - JWT signing and verification;
  - bcrypt hashing and comparison;
  - `normalizeEmail`;
  - the JavaScript number, date and URL parsers.
- **Errors before a match.** A lookup that dereferences a missing referenced document before it reaches a match throws a `TypeError`. An example is `tenant.user.toString()` on a tenancy without a user. The model represents this as the `Throws` outcome of a scan and answers the status of the route's `catch`.

## Model

| member | source | states |
|---|---|---|
| `Common.ParseRole` | backend/src/models/User.js:27-31 | A role string parses exactly when it names one of the three roles, and then names that role. |
| `UserModel.StoredEmail` | backend/src/models/User.js:5-11 | The stored email has no ASCII upper-case letter and is no longer than the input. It is empty exactly when the input is all whitespace. |
| `UserModel.StoredEmailIdempotent` | backend/src/models/User.js:5-11 | Storing an already stored email changes nothing (trim and lower-case are idempotent together). |
| `UserModel.TrimmedIsFixed` | backend/src/models/User.js:17-26 | A string without leading or trailing whitespace is unchanged by the schema trim. |
| `UserModel.LowerKeepsWhitespace` | backend/src/models/User.js:9-10 | Lower-casing neither creates nor removes whitespace and is idempotent per character. |
| `UserModel.DefaultPreferencesOk` | backend/src/models/User.js:51-61 | The default preferences (both notifications on, light theme) pass the schema's own Boolean casts and theme enum. |
| `UserModel.CastRole` | backend/src/models/User.js:27-31 | An absent role defaults to tenant. A given role is accepted exactly when it is one of landlord, tenant or admin, and is stored as given. |
| `UserModel.NewUser` | backend/src/models/User.js:4-64 | A new user holds the stored email and trimmed names. It is unverified, has no tokens, no properties, no phone and no last login. |
| `UserModel.Valid` | backend/src/models/User.js:4-61 | What the schema demands on save: a valid user has an email, and a modified password at least six UTF-16 units long, so at least three characters. Its preferences pass the theme enum and the notification Boolean casts. |
| `UserModel.Save` | backend/src/models/User.js:66-77 | The save succeeds exactly when the schema accepts the user (`UserModel.Valid`). Only the password can change, and it is hashed exactly when it was modified. A schema failure is a 500 here. |
| `UserModel.SaveHashesOnce` | backend/src/models/User.js:67-68 | Saving again without touching the password stores the same document, so a hash is never hashed twice. |
| `UserModel.GetPublicProfile` | backend/src/models/User.js:85-92 | The profile carries every field of the user except the four secrets. |
| `UserModel.ProfileHidesSecrets` | backend/src/models/User.js:86-91 | The profile does not depend on the password, the verification token, the reset token or its expiry. |
| `UserModel.ProfileKeepsTheRest` | backend/src/models/User.js:85-92 | Two users with the same secrets have the same profile exactly when they are the same user. |
| `PropertyModel.ParseKind` | backend/src/models/Property.js:13-17 | A property type parses exactly when it is one of the five enum values, and then names that value. |
| `PropertyModel.ParseStatus` | backend/src/models/Property.js:40-44 | A property status parses exactly when it is one of the four enum values, and then names that value. |
| `PropertyModel.ParseTenancyStatus` | backend/src/models/Property.js:56-60 | A tenancy status parses exactly when it is active, pending or ended, and then names that value. |
| `PropertyModel.CastTenancy` | backend/src/models/Property.js:50-62 | A listed tenancy keeps the named user (none when not named), its dates (null when absent) and the named status, which defaults to pending. It gets the generated id. |
| `PropertyModel.WithPriceDefaults` | backend/src/models/Property.js:25-29 | Currency and period are added with the defaults USD and monthly only when absent. Every given price key is kept. |
| `PropertyModel.PriceDefaultsValid` | backend/src/models/Property.js:25-29 | A price with a numeric amount and no currency or period passes the schema once the defaults are applied. |
| `PropertyModel.ActiveTenantScan` | backend/src/middleware/auth.js:54-57 | The scan matches only if some tenancy is active for the user, finds no match only if none is, and throws only on a tenancy without a user. When every tenancy names a user it never throws. |
| `PropertyModel.Values` | backend/src/models/Property.js:131 | The rating values in rating order. |
| `PropertyModel.CalculateAverageRating` | backend/src/models/Property.js:129-134 | No ratings gives 0 and leaves the property unchanged. Otherwise the stored average times the count equals the sum of the ratings. |
| `PropertyModel.SumAppend` | backend/src/models/Property.js:131 | The sum of concatenated ratings is the sum of the parts. |
| `PropertyModel.SumPermutation` | backend/src/models/Property.js:131 | Reordering the ratings does not change their sum. |
| `PropertyModel.AverageIgnoresOrder` | backend/src/models/Property.js:129-134 | Two properties whose ratings are permutations of each other get the same average. |
| `PropertyModel.SumBounds` | backend/src/models/Property.js:106-110 | Ratings within 1..5 sum to between the count and five times the count. |
| `PropertyModel.AverageInRange` | backend/src/models/Property.js:106-134 | With at least one rating, all within 1..5, the average lies within 1..5. |
| `PropertyModel.FindProperty` | backend/src/routes/properties.js:56-64 | `findById`: the first property with the id, or none exactly when no property has it. |
| `AuthMiddleware.BearerToken` | backend/src/middleware/auth.js:7-11 | A missing header gives no token. So does a header whose token is empty after removing the first `Bearer `. A header without `Bearer ` is used whole. |
| `AuthMiddleware.BearerRoundTrip` | backend/src/middleware/auth.js:7 | A non-empty token sent as `Bearer <token>` is recovered exactly. |
| `AuthMiddleware.Authenticate` | backend/src/middleware/auth.js:5-26 | The caller is authenticated exactly when there is a token, it verifies, and it names an existing user. That user is the result. Every failure is the same 401. |
| `AuthMiddleware.CheckRole` | backend/src/middleware/auth.js:28-37 | The request passes exactly when the caller's role is among the allowed roles, and otherwise gets the 403 with its fixed message. |
| `AuthMiddleware.HasPropertyAccess` | backend/src/middleware/auth.js:48-58 | The landlord always has access, and so does a user the middleware's tenant scan matches. When every tenancy names a user, access is exactly landlord or scan match. |
| `AuthMiddleware.VerifyPropertyAccess` | backend/src/middleware/auth.js:39-68 | An unknown property gives 404. Access is granted only to the landlord or an active tenant of the first property with the id. A 403 means neither. A throwing tenant scan gives 500. |
| `AuthMiddleware.PropertyAccessIff` | backend/src/middleware/auth.js:47-64 | When every tenancy names a user, access is granted exactly to the landlord and the active tenants, and refused with 403 otherwise. |
| `AuthRoutes.FindByEmail` | backend/src/routes/auth.js:24 | `findOne({email})`: a user with that email, or none exactly when no user has it. |
| `AuthRoutes.Register` | backend/src/routes/auth.js:11-66 | A taken (normalised) email gives 400. Otherwise registration succeeds exactly when the new user passes the schema. It then appends one user with the stored email, the requested role, the hashed password and the verification token, and returns the token and the profile. |
| `AuthRoutes.Registrant` | backend/src/routes/auth.js:30-44 | The user built for a registration carries the key, role, password, id and verification token given. It passes the schema exactly when the email is non-empty, both names are non-blank and the password has at least six characters. |
| `AuthRoutes.RegisterKeepsEmailsUnique` | backend/src/routes/auth.js:23-27 | If stored emails were unique before a registration, they are unique after it. |
| `AuthRoutes.AppendFreshEmail` | backend/src/models/User.js:8 | Appending a user whose email nobody has keeps the emails unique. |
| `AuthRoutes.RegisterAdmitsAdmin` | backend/src/routes/auth.js:17 | The registration route as written creates an admin account when the body asks for one. |
| `AuthRoutes.RegisterChecked` | backend/src/routes/auth.js:17 | The corrected registration refuses with 400 any role other than landlord or tenant (including none). Otherwise it behaves as the route does. |
| `AuthRoutes.RegisterCheckedNeverAdmin` | backend/src/routes/auth.js:17 | The corrected registration never creates an admin. |
| `AuthRoutes.Login` | backend/src/routes/auth.js:69-109 | Login succeeds exactly when the email is known, the password matches and the user still passes the schema. An unknown email or a wrong password gives the same 401. On success only the matched user's last login changes, and the token and profile are returned. |
| `AuthRoutes.LoginFailuresIndistinguishable` | backend/src/routes/auth.js:80-88 | An unknown email and a known email with a wrong password get identical answers. |
| `AuthRoutes.Verify` | backend/src/routes/auth.js:112-134 | Verification succeeds exactly when the token decodes to an id, the user with that id holds the token, and the user still passes the schema. That user becomes verified and loses the token, and nobody else changes. Every failure is the same 400. |
| `AuthRoutes.FindHolder` | backend/src/routes/auth.js:117-120 | `findOne({_id, verificationToken})`: a user with that id holding that token, or none exactly when no user matches both. |
| `AuthRoutes.VerifySingleUse` | backend/src/routes/auth.js:117-127 | When verification tokens are distinct, a token that verified once fails a second time. |
| `AuthRoutes.Forgot` | backend/src/routes/auth.js:137-167 | A reset request succeeds exactly when the email is known and the user passes the schema; an unknown email gives 404. On success the user gets the reset token with expiry now + 3600000 ms, and nothing else changes. |
| `AuthRoutes.FindOpener` | backend/src/routes/auth.js:177-180 | The user holding the reset token with an expiry later than now, or none exactly when no user qualifies. |
| `AuthRoutes.Reset` | backend/src/routes/auth.js:170-196 | Without a holder of an unexpired token the answer is 400. On success the holder's password is hashed, the reset token and expiry are cleared, and nobody else changes. |
| `AuthRoutes.ResetSingleUse` | backend/src/routes/auth.js:186-189 | When reset tokens are distinct, a token that reset a password once fails a second time. |
| `AuthRoutes.ResetWithinTheHour` | backend/src/routes/auth.js:155-157 | A token issued by forgot-password resets the password at any time less than an hour later. |
| `AuthRoutes.ResetOnlyHolder` | backend/src/routes/auth.js:177-183 | For the only holder of a token, the reset succeeds exactly when now is before the expiry. |
| `AuthRoutes.CastName` | backend/src/models/User.js:17-26 | A name update is accepted exactly when it is a non-blank string, and is stored trimmed. |
| `AuthRoutes.CastPhone` | backend/src/models/User.js:32-35 | A phone update is accepted when it is a string (stored trimmed) or null (cleared). |
| `AuthRoutes.PatchMe` | backend/src/routes/auth.js:204-220 | A key outside firstName, lastName, phone and preferences gives 400 Invalid updates. Otherwise the update succeeds exactly when every value casts: names as non-blank text, the phone as text or null, preferences with Boolean notification flags and a light or dark theme. Only the named fields change. |
| `AuthRoutes.PatchMeKeepsValid` | backend/src/routes/auth.js:213-216 | A successful profile update of a valid user leaves a valid user, and preferences that met their schema still do. |
| `AuthRoutes.PatchMeRefusesBadPreferences` | backend/src/models/User.js:51-61 | A theme outside light and dark, or a notification flag that is not Boolean-castable, makes the profile update a 400. |
| `AuthRoutes.PatchMeEmpty` | backend/src/routes/auth.js:204-216 | An empty update returns the user unchanged. |
| `Paging.TotalPages` | backend/src/routes/properties.js:47 | `Math.ceil(total / limit)`: for a positive limit, the least page count whose pages hold every item. For a negative limit it is the matching non-positive count. A zero limit gives NaN for no items and Infinity otherwise. |
| `Paging.PageCountBounds` | backend/src/routes/maintenance.js:57 | For a positive limit the page count is zero exactly when there are no items, and never exceeds the number of items. |
| `Paging.ItemOnSomePage` | backend/src/routes/maintenance.js:48-57 | With a positive limit, every item's page number lies between 1 and the page count. |
| `PropertyRoutes.Keep` | backend/src/routes/properties.js:25-26 | A query parameter contributes a condition exactly when it is truthy, and then unchanged. |
| `PropertyRoutes.KeepNumber` | backend/src/routes/properties.js:33-34 | A numeric parameter contributes exactly when truthy, converted by `Number`. |
| `PropertyRoutes.BuildQuery` | backend/src/routes/properties.js:23-34 | A price condition exists exactly when either bound is given. Each bound exists exactly when given. Type, status and city conditions exist exactly when given. |
| `PropertyRoutes.PriceFilterMeaning` | backend/src/routes/properties.js:28-32 | An amount passes the price filter exactly when it is at least the given minimum and at most the given maximum. |
| `PropertyRoutes.MergeDetails` | backend/src/routes/properties.js:132 | Every updatable detail key in the body replaces the stored value. Other stored details are kept, and nothing else is added. |
| `PropertyRoutes.PatchProperty` | backend/src/routes/properties.js:109-137 | A key outside the twelve updatable ones gives 400 Invalid updates. Otherwise the update succeeds exactly when every value passes the schema: the enums, the address and price objects, numeric specifications with a parking kind from its enum, date-castable availability, `{ url, caption }` images and lists of strings. The named fields are replaced. |
| `PropertyRoutes.PatchEmptyIsIdentity` | backend/src/routes/properties.js:125-134 | An empty update returns the property unchanged. |
| `PropertyRoutes.PatchKeepsNullPrice` | backend/src/models/Property.js:25-29 | A price update whose currency and period are `null` succeeds and stores the price as given: a `String` path takes `null` and the period enum passes it. |
| `PropertyRoutes.UpdateProperty` | backend/src/routes/properties.js:105-139 | Access failures are passed on. On success only the addressed property is replaced, by its patched version. |
| `PropertyRoutes.Sanitize` | backend/src/routes/properties.js:77-84 | The sanitizers trim the title, the description and the address parts, and leave every other key as it is. |
| `PropertyRoutes.Build` | backend/src/routes/properties.js:91-94 | A new property gets the caller as landlord and the new id. It holds the tenancies the body lists, cast entry by entry, and no ratings and average 0. Its status is the given one or available. It keeps exactly the body's detail keys. |
| `PropertyRoutes.NewProperty` | backend/src/routes/properties.js:89-100 | Creation succeeds exactly when the required fields are present, every field passes the schema and every listed tenancy casts, and otherwise answers 400. The new property holds the listed tenancies. |
| `PropertyRoutes.SeedTenancies` | backend/src/models/Property.js:50-62 | A body without `tenants` seeds none. Otherwise there is one tenancy per listed entry, in order, each the cast of that entry. |
| `PropertyRoutes.SeededActiveTenantHasAccess` | backend/src/routes/properties.js:91-94 | A user the create body lists as an active tenant passes the property access rule on the new property. |
| `PropertyRoutes.NewPropertyIgnoresBodyLandlord` | backend/src/routes/properties.js:91-94 | A landlord named in the body is overridden by the caller. |
| `PropertyRoutes.CreateProperty` | backend/src/routes/properties.js:73-102 | Only landlords and admins may create (403 otherwise). For them creation succeeds exactly when the new property is accepted. A success appends exactly one property owned by the caller. |
| `PropertyRoutes.DeleteProperty` | backend/src/routes/properties.js:142-153 | Access failures are passed on, and granted access always leads to success. On success exactly one property, the addressed one, is removed. |
| `PropertyRoutes.DeleteRemovesExactly` | backend/src/routes/properties.js:142-153 | With unique ids, what remains after a delete is exactly the properties with other ids. |
| `PropertyRoutes.AddTenant` | backend/src/routes/properties.js:156-183 | Access failures are passed on. Otherwise the request succeeds exactly when both dates cast (400 otherwise). One active tenancy with the given user and dates is appended to the addressed property. |
| `PropertyRoutes.AddTenantGrantsAccess` | backend/src/routes/properties.js:165-176 | The user a new tenancy names passes the access rule on the updated property. When every earlier tenancy names a user, the access check lets that user through. |
| `PropertyRoutes.FindTenancy` | backend/src/routes/properties.js:191 | `tenants.id(...)`: a tenancy with that id, or none exactly when no tenancy has it. |
| `PropertyRoutes.EndTenancy` | backend/src/routes/properties.js:196 | Only the addressed tenancy changes, and its status becomes ended. |
| `PropertyRoutes.RemoveTenant` | backend/src/routes/properties.js:186-204 | Access failures are passed on. An unknown tenancy gives 404, and a found one always leads to success, where the tenancy is ended, not deleted. |
| `PropertyRoutes.RemoveTenantRevokesAccess` | backend/src/routes/properties.js:186-204 | After a successful removal, a user who is not the landlord and holds no other active tenancy on the property no longer passes the access rule. |
| `PropertyRoutes.EndTenancyIdempotent` | backend/src/routes/properties.js:196 | Ending a tenancy twice is the same as ending it once. |
| `PropertyRoutes.EndedTenantLosesAccess` | backend/src/middleware/auth.js:54-57 | A user who is not the landlord and whose only tenancy is ended has no property access. |
| `PropertyRoutes.HasRated` | backend/src/routes/properties.js:221-223 | True exactly when some rating is by the caller. |
| `PropertyRoutes.CastRating` | backend/src/models/Property.js:106-110 | A number rating is accepted exactly when it lies within the schema's 1..5 bounds. |
| `PropertyRoutes.Rate` | backend/src/routes/properties.js:229-235 | One rating is appended. The stored average times the new count equals the sum, and nothing else changes. |
| `PropertyRoutes.AddRating` | backend/src/routes/properties.js:207-243 | An unknown property gives 404 and a second rating by the same user gives 400. The rating succeeds exactly when the property exists, the caller has not rated it and the value casts, and then appends the caller's rating and recomputes the average. |
| `PropertyRoutes.AddRatingKeepsInvariants` | backend/src/routes/properties.js:220-236 | For the number ratings the model accepts, a successful rating preserves one rating per user and ratings within 1..5, and leaves the average within [1, 5]. A `null` rating, which the source stores, is outside this statement. |
| `PropertyRoutes.RateKeepsInvariants` | backend/src/routes/properties.js:229-235 | Appending a valid rating by a new rater keeps one rating per user, the range and the average. |
| `PropertyRoutes.AppendNewRater` | backend/src/routes/properties.js:221-229 | A rating by a user who has not rated keeps one rating per user and the 1..5 range. |
| `MaintenanceModel.ParsePriority` | backend/src/models/Maintenance.js:27-31 | A priority parses exactly when it is one of the four enum values, and then names that value. |
| `MaintenanceModel.ParseTicketStatus` | backend/src/models/Maintenance.js:32-36 | A status parses exactly when it is pending, in-progress, completed or cancelled, and then names that value. |
| `MaintenanceModel.ParseCategory` | backend/src/models/Maintenance.js:37-50 | A category parses exactly when it is one of the eight enum values, and then names that value. |
| `MaintenanceModel.AddNote` | backend/src/models/Maintenance.js:99-105 | One note by the author, stamped now, is appended at the end of the log, and nothing else changes. |
| `MaintenanceModel.UpdateStatus` | backend/src/models/Maintenance.js:108-115 | The update succeeds exactly when the status is in the enum (400 otherwise) and sets it. The completion date is set to now only for completed, and otherwise kept. A note records the change. |
| `MaintenanceModel.ShownId` | backend/src/models/Maintenance.js:120 | A present assignee is shown as its id. |
| `MaintenanceModel.Assign` | backend/src/models/Maintenance.js:118-122 | The assignee is replaced and a note records it. Nothing else changes. |
| `MaintenanceModel.HistoryIsAppendOnly` | backend/src/models/Maintenance.js:99-122 | Over any sequence of method calls the note log only grows at its end, by at most one note per call. A completion date once set stays set. Id, property and requester never change. |
| `MaintenanceModel.CompletionIsStamped` | backend/src/models/Maintenance.js:108-112 | After any history, an update to completed leaves the ticket completed and stamped with that time. |
| `MaintenanceModel.ApplyAllSnoc` | backend/src/models/Maintenance.js:99-122 | Running a history with one more call is running the history, then the call. |
| `MaintenanceRoutes.FindTicket` | backend/src/routes/maintenance.js:68 | A ticket with that id, or none exactly when no ticket has it. |
| `MaintenanceRoutes.Locate` | backend/src/routes/maintenance.js:256-270 | An unknown ticket or property gives 404, and a caller the rule refuses gives 403. Success means the rule allows the caller on that ticket and property. |
| `MaintenanceRoutes.AssignIsStricter` | backend/src/routes/maintenance.js:268-270 | Whoever may assign may also access. A requester or assignee who is neither admin nor landlord may access but not assign. |
| `MaintenanceRoutes.GetTicket` | backend/src/routes/maintenance.js:66-98 | An unknown ticket gives 404. A success returns that ticket, to a caller allowed by the participant rule. |
| `MaintenanceRoutes.GetFollowsAccessRule` | backend/src/routes/maintenance.js:84-88 | When the property and users exist, viewing succeeds exactly for admins, the landlord, the requester and the assignee. |
| `MaintenanceRoutes.MergeExtras` | backend/src/routes/maintenance.js:206 | Every supplied extra key replaces the stored value. Other extras are kept, and nothing else is added. |
| `MaintenanceRoutes.CopyFields` | backend/src/routes/maintenance.js:206 | Each supplied field replaces the stored one (the title trimmed, the enums parsed). Every other field is unchanged. |
| `MaintenanceRoutes.PatchTicket` | backend/src/routes/maintenance.js:163-214 | Access failures are passed on, and a key outside the nine gives 400. Otherwise the update succeeds exactly when every value passes the schema: the enums, a cost object with a numeric amount and a pending, approved or paid status, `{ url, caption }` images and attachments as a list of strings. Only the addressed ticket changes. |
| `MaintenanceRoutes.NestedTicketValuesChecked` | backend/src/models/Maintenance.js:57-88 | A cost status outside pending, approved and paid is refused, and so is an attachment given as an object. A paid cost with a numeric amount is accepted. |
| `MaintenanceRoutes.CopyFieldsKeepsExtrasOk` | backend/src/routes/maintenance.js:206 | An accepted update keeps every stored extra (date, cost, images, attachments) within the schema. |
| `MaintenanceRoutes.PatchStatusLeavesNoTrace` | backend/src/routes/maintenance.js:206-207 | A status written through the general update adds no note and sets no completion date. |
| `MaintenanceRoutes.PatchEmptyIsIdentity` | backend/src/routes/maintenance.js:188-207 | An empty update leaves the ticket unchanged. |
| `MaintenanceRoutes.PostNote` | backend/src/routes/maintenance.js:217-249 | Access failures are passed on. Otherwise exactly one note by the caller, with the trimmed content, is appended to the addressed ticket. |
| `MaintenanceRoutes.TrimContent` | backend/src/routes/maintenance.js:219 | The sanitizer trims present content, and absent content stays absent. |
| `MaintenanceRoutes.AssignTicket` | backend/src/routes/maintenance.js:252-278 | Only admins and the landlord may assign (403 or 404 otherwise). A success sets the assignee and records it in a note. |
| `MaintenanceRoutes.ChangeStatus` | backend/src/routes/maintenance.js:281-313 | Access failures are passed on. For a string status, the change succeeds exactly when access holds and the status is in the enum, and then applies `updateStatus` to the addressed ticket. |
| `MaintenanceRoutes.StatusRouteAcceptsOnlyEnum` | backend/src/routes/maintenance.js:283-307 | Of the string statuses, only the four enum values get through the status route. |
| `MaintenanceRoutes.SanitizeTicket` | backend/src/routes/maintenance.js:104-106 | The title and description are trimmed, and every other key is left as it is. |
| `MaintenanceRoutes.NewTicket` | backend/src/routes/maintenance.js:140-143 | A new ticket has the new id, the property and the caller as requester. Priority and status default to medium and pending. It has no notes and no completion date, and every extra it stores is within the schema. |
| `MaintenanceRoutes.BodyProperty` | backend/src/routes/maintenance.js:122-125 | The property the body names, looked up by id, exists only when named as a string. |
| `MaintenanceRoutes.PrepareTicket` | backend/src/routes/maintenance.js:120-145 | An unknown property gives 404. A throwing tenant scan gives 400, and a caller who is neither landlord nor active tenant gives 403. The ticket must pass the schema (400). |
| `MaintenanceRoutes.CreateTicketAsWritten` | backend/src/routes/maintenance.js:145-158 | As written: the ticket is saved, then a caller who is not the landlord meets the un-imported `User` and gets 400 with the ticket already stored. |
| `MaintenanceRoutes.AsWrittenStoresButRefuses` | backend/src/routes/maintenance.js:145-153 | For every accepted request by someone other than the landlord, the written route stores one ticket and still answers 400. |
| `MaintenanceRoutes.CreateTicket` | backend/src/routes/maintenance.js:101-160 | Corrected: creation succeeds exactly when the request is accepted, with the caller as requester. Every failure is the one the checks produce. |
| `MaintenanceRoutes.CreateReportsWhatItStores` | backend/src/routes/maintenance.js:145-158 | The corrected route stores a ticket exactly when it reports one, and stores exactly the reported ticket. |
| `MaintenanceRoutes.RequesterIsCaller` | backend/src/routes/maintenance.js:140-143 | A requester named in the body never overrides the caller. |
| `MaintenanceRoutes.OwnedIds` | backend/src/routes/maintenance.js:40-41 | Exactly the ids of the properties the user owns. |
| `MaintenanceRoutes.BuildTicketQuery` | backend/src/routes/maintenance.js:24-42 | Truthy parameters become conditions. A tenant is always restricted to their own requests and a landlord to their own properties, whatever the query says. |
| `MaintenanceRoutes.Select` | backend/src/routes/maintenance.js:44 | `find(query)`: exactly the tickets matching every condition. |
| `MaintenanceRoutes.Window` | backend/src/routes/maintenance.js:48-49 | `skip(s).limit(n)`: consecutive items from position s. At most n of them when n is non-zero (its magnitude when negative). Short of the end only when the limit is reached. |
| `MaintenanceRoutes.ListTickets` | backend/src/routes/maintenance.js:11-63 | A negative skip gives 500. Otherwise the page is the window of the scoped query, and the totals are the query's count and its page count. |
| `MaintenanceRoutes.ListedItemsMatch` | backend/src/routes/maintenance.js:44-50 | Every listed item is a stored ticket matching the scoped query. |
| `MaintenanceRoutes.TenantSeesOwnRequests` | backend/src/routes/maintenance.js:33-36 | A tenant only ever sees tickets they requested. |
| `MaintenanceRoutes.LandlordSeesOwnProperties` | backend/src/routes/maintenance.js:38-42 | A landlord only ever sees tickets on properties they own. |
| `MaintenanceRoutes.PagesCoverResult` | backend/src/routes/maintenance.js:44-57 | With a positive limit, every ticket the query selects appears on the page its position falls on. |
| `ChatModel.Unread` | backend/src/models/Chat.js:115-119 | The unread count never exceeds the number of messages. |
| `ChatModel.UnreadZeroIff` | backend/src/models/Chat.js:115-119 | Nothing is unread exactly when the user has a receipt on every message. |
| `ChatModel.UnreadCount` | backend/src/models/Chat.js:115-119 | The count is at most the number of messages, and zero exactly when the user has read all of them. |
| `ChatModel.UnreadSnoc` | backend/src/models/Chat.js:116-118 | One more message adds one to the count exactly when the user has not read it. |
| `ChatModel.AddMessage` | backend/src/models/Chat.js:85-96 | Sending succeeds exactly when the content is not blank and every attachment casts to a string (400 otherwise). It appends one message with the trimmed content, read by the sender only, and sets the last-message time. |
| `ChatModel.AddMessageUnread` | backend/src/models/Chat.js:85-96 | After sending, the sender's unread count is unchanged and every other user's grows by one. |
| `ChatModel.ReadOne` | backend/src/models/Chat.js:100-109 | A message the user has read is unchanged. Otherwise one receipt for the user is added. |
| `ChatModel.MarkAsRead` | backend/src/models/Chat.js:99-112 | Each message gains the user's receipt if missing, and nothing else in the chat changes. |
| `ChatModel.MarkAsReadClears` | backend/src/models/Chat.js:99-119 | After marking as read, the user's unread count is zero. |
| `ChatModel.MarkAsReadIdempotent` | backend/src/models/Chat.js:99-112 | Marking as read a second time, at any time, changes nothing. |
| `ChatModel.ReadOneKeepsOthers` | backend/src/models/Chat.js:104-109 | Adding one user's receipt does not change whether another user has read the message. |
| `ChatModel.UnreadOthers` | backend/src/models/Chat.js:99-119 | One user's reading leaves every other user's unread count as it was. |
| `ChatModel.MarkAsReadKeepsOthers` | backend/src/models/Chat.js:99-119 | Marking as read for one user leaves another user's unread count unchanged. |
| `ChatModel.FindDirectChat` | backend/src/models/Chat.js:123-131 | A direct chat with both users as participants, or none exactly when there is no such chat. |
| `ChatModel.FindUser` | backend/src/models/Chat.js:138-141 | `User.findById`: a user with that id, or none exactly when there is none. |
| `ChatModel.FindOrCreateDirectChat` | backend/src/models/Chat.js:122-157 | Corrected: an existing direct chat is returned unchanged. Otherwise, if both users exist, one direct chat between them with their roles is created, and if not the answer is 400 Users not found. |
| `ChatModel.DirectChatIsReused` | backend/src/models/Chat.js:123-135 | Asking again for the same pair returns the chat from the first call and stores nothing new. |
| `ChatModel.FindOrCreateDirectChatAsWritten` | backend/src/models/Chat.js:133-141 | As written: an existing chat is returned, and otherwise the un-imported `User` makes the call fail with 400. |
| `ChatModel.DirectChatNeverCreatedAsWritten` | backend/src/models/Chat.js:137-156 | The written static never stores a chat. Where the corrected one creates a chat, the written one fails. |
| `ChatRoutes.FindChat` | backend/src/routes/chat.js:37 | A chat with that id, or none exactly when no chat has it. |
| `ChatRoutes.ListChats` | backend/src/routes/chat.js:11-32 | Exactly the active chats the user takes part in are listed, each with the user's unread count. |
| `ChatRoutes.Gate` | backend/src/routes/chat.js:205-217 | An unknown chat gives 404, and a caller who is not a participant gives 403. Success is exactly participation. |
| `ChatRoutes.ParticipantScan` | backend/src/routes/chat.js:48-50 | The populated participant scan matches only a participant and finds no match only for an outsider. It throws only when a participant's user is missing, and never when all exist. |
| `ChatRoutes.GetChat` | backend/src/routes/chat.js:35-63 | An unknown chat gives 404, an outsider 403, and a failed populate 500. On success the chat is returned after being marked as read by the caller. |
| `ChatRoutes.GetChatIff` | backend/src/routes/chat.js:47-57 | When every participant's user exists, viewing succeeds exactly for participants. |
| `ChatRoutes.SendMessage` | backend/src/routes/chat.js:197-230 | Gate failures are passed on. Sending succeeds exactly when the content is present and not blank and any attachments all cast to strings. It appends the message to the addressed chat only. |
| `ChatRoutes.MarkRead` | backend/src/routes/chat.js:233-257 | Gate failures are passed on. A success marks every message of the addressed chat as read by the caller. |
| `ChatRoutes.Archive` | backend/src/routes/chat.js:260-286 | Gate failures are passed on. A success makes the addressed chat inactive and changes nothing else. |
| `ChatRoutes.OutsidersAreTurnedAway` | backend/src/routes/chat.js:211-217 | A caller outside an existing chat gets 403 from sending, marking read and archiving, and cannot view it. |
| `ChatRoutes.ArchivedChatIsNotListed` | backend/src/routes/chat.js:13-16 | An archived chat disappears from everyone's list, and every other listed chat stays listed. |
| `ChatRoutes.ChatTitle` | backend/src/routes/chat.js:122 | A non-blank given title is used trimmed. Otherwise the fallback title is used. |
| `ChatRoutes.ActiveTenancies` | backend/src/routes/chat.js:112-113 | Exactly the active tenancies. |
| `ChatRoutes.ActiveTenanciesAppend` | backend/src/routes/chat.js:112-116 | Filtering concatenated tenancies is concatenating the filtered parts. |
| `ChatRoutes.TenantParticipants` | backend/src/routes/chat.js:112-116 | One tenant participant per active tenancy, in order. |
| `ChatRoutes.PropertyParticipants` | backend/src/routes/chat.js:107-116 | The participants exist exactly when every active tenancy names a user. They are the landlord, then the active tenants. |
| `ChatRoutes.CreatePropertyChat` | backend/src/routes/chat.js:81-134 | An unknown property gives 404, a throwing scan 400 and an outsider 403. A success stores one property chat holding the landlord and the active tenants. |
| `ChatRoutes.PropertyChatMembers` | backend/src/routes/chat.js:107-116 | When every tenancy names a user, a user is a member of the property chat exactly when they are the landlord or an active tenant. |
| `ChatRoutes.CreateMaintenanceChatAsWritten` | backend/src/routes/chat.js:145 | As written: the un-imported `Maintenance` makes every request fail with 400. |
| `ChatRoutes.MaintenanceParticipants` | backend/src/routes/chat.js:165-172 | The landlord and the requester come first. The assignee is added as a third participant exactly when it names an existing user. |
| `ChatRoutes.CreateMaintenanceChat` | backend/src/routes/chat.js:137-194 | Corrected: an unknown ticket gives 404. A success stores one maintenance chat with the ticket's participants, linked to the ticket and its property. |
| `ChatRoutes.MaintenanceChatNeverCreatedAsWritten` | backend/src/routes/chat.js:145-194 | Wherever the corrected route creates a chat, the written one answers 400. |
| `ChatRoutes.MaintenanceChatFollowsAccessRule` | backend/src/routes/chat.js:154-163 | When the referenced documents exist, creation succeeds exactly for the callers the ticket's participant rule admits. |
| `Validation.ValidateRequired` | src/utils/validation.js:17-22 | The check always carries the required message. |
| `Validation.RequiredFailsIff` | src/utils/validation.js:19 | A value fails required exactly when it is null, undefined or text that trims to nothing. |
| `Validation.ValidateMinLength` | src/utils/validation.js:24-29 | Passes exactly for non-empty text whose JavaScript length (UTF-16 code units) is at least the minimum. Text with at least that many characters always passes. |
| `Validation.ValidateMaxLength` | src/utils/validation.js:31-36 | Passes exactly for non-empty text whose JavaScript length (UTF-16 code units) is at most the maximum. Passing text never has more characters than that. |
| `Text.Utf16Length` | src/utils/validation.js:25-27 | The JavaScript `length` of a string lies between its character count and twice that. It is zero only for the empty string and equals the character count when no character lies outside the Basic Multilingual Plane. |
| `Validation.IsEmailIff` | src/utils/validation.js:2 | The executable email test agrees with the regular expression's shape: a local part, `@`, a domain, a dot and a suffix, none holding whitespace or `@`. |
| `Validation.ValidateEmail` | src/utils/validation.js:1-7 | Passes exactly for the email shape, with the fixed message. |
| `Validation.ValidatePhone` | src/utils/validation.js:9-15 | Passes exactly for at least ten characters, all digits, whitespace, `-`, `+`, `(` or `)`. |
| `Validation.PhoneExtends` | src/utils/validation.js:10 | A valid phone stays valid when more phone characters are appended. |
| `Validation.ValidatePostcode` | src/utils/validation.js:61-68 | The check always carries the postcode message. |
| `Validation.PostcodeShape` | src/utils/validation.js:63-65 | Passes exactly for three letters or digits, one whitespace character, then four letters or digits, in either case. |
| `Validation.PostcodeIgnoresCase` | src/utils/validation.js:65 | Upper- or lower-casing a postcode does not change the verdict. |
| `Validation.ValidateIban` | src/utils/validation.js:107-114 | The check always carries the IBAN message. |
| `Validation.IbanShape` | src/utils/validation.js:109-111 | Passes exactly when, without whitespace, the text is IE, 2 digits, 4 upper-case letters and 14 digits. |
| `Validation.IbanIgnoresWhitespace` | src/utils/validation.js:111 | Inserting whitespace anywhere does not change the IBAN verdict. |
| `Validation.ValidateVat` | src/utils/validation.js:116-123 | The check always carries the VAT message. |
| `Validation.VatShape` | src/utils/validation.js:118-120 | Passes exactly when, without whitespace, the text is IE, 7 digits and one upper-case letter. |
| `Validation.VatIgnoresWhitespace` | src/utils/validation.js:120 | Inserting whitespace anywhere does not change the VAT verdict. |
| `Validation.MissingCriteria` | src/utils/validation.js:71-84 | No criterion is missing exactly when the password is strong, its length counted in UTF-16 code units. |
| `Validation.WithTrailingCommas` | src/utils/validation.js:80-84 | A non-empty list of criteria ends with a comma. |
| `Validation.DropLastComma` | src/utils/validation.js:88 | Dropping the last character of the comma-terminated list gives the comma-separated list. |
| `Validation.ValidatePassword` | src/utils/validation.js:70-90 | Valid exactly for a strong password (8+ UTF-16 code units, upper, lower, digit, special), and then the message is empty. Otherwise the message lists exactly the missing criteria, comma-separated. |
| `UseForm.Gate` | src/hooks/useForm.js:22-80 | A check after `required` runs only when the value is truthy. |
| `UseForm.Steps` | src/hooks/useForm.js:17-80 | Thirteen checks with `required` first. For a falsy value no other check runs. |
| `UseForm.FailedMessages` | src/hooks/useForm.js:15-80 | At most one message per check. |
| `UseForm.FirstFailed` | src/hooks/useForm.js:82 | No message exactly when no check fails. Otherwise the first message is that of a failing check preceded only by passing ones. |
| `UseForm.ValidateField` | src/hooks/useForm.js:11-13 | A field without rules has no error. |
| `UseForm.FieldErrorIsFirstFailure` | src/hooks/useForm.js:11-83 | For a ruled field, no error exactly when every check passes. Otherwise the error is the message of the earliest failing check in source order. |
| `UseForm.FalsyOnlyRequired` | src/hooks/useForm.js:17-80 | A falsy value can only fail `required`. |
| `UseForm.ValidateForm` | src/hooks/useForm.js:85-100 | The error map holds exactly the ruled fields with an error, with that error. The form is valid exactly when no ruled field has one. |
| `UseForm.Initial` | src/hooks/useForm.js:5-9 | The hook starts with the given values, no errors, nothing touched, not submitting and not valid. |
| `UseForm.Revalidate` | src/hooks/useForm.js:102-104 | Re-validation sets the errors and verdict from the current values and touches nothing else. |
| `UseForm.HandleChange` | src/hooks/useForm.js:106-112 | Only the target's value changes: `checked` for a checkbox, the text otherwise. |
| `UseForm.HandleBlur` | src/hooks/useForm.js:114-125 | The field becomes touched and gets its own error (or none). Other errors and all values are kept. |
| `UseForm.Reset` | src/hooks/useForm.js:142-147 | Back to the initial state, apart from the verdict, which is kept. |
| `UseForm.SetFieldValue` | src/hooks/useForm.js:149-154 | Only the named value changes. |
| `UseForm.SetFieldError` | src/hooks/useForm.js:156-161 | Only the named error changes. |
| `UseForm.HandleSubmit` | src/hooks/useForm.js:127-140 | The values are submitted exactly when every ruled field passes, and unchanged. Afterwards submission is over and the verdict matches. |
| `CsvParser.MissingFacts` | src/utils/csvParser.js:30-34 | The field-by-field scan of a row names exactly the fields the row lacks, each once when the declared fields are distinct, and never more than there are fields. |
| `CsvParser.MissingAppend` | src/utils/csvParser.js:30-34 | Scanning a field list split anywhere gives the scan of the first part followed by the scan of the second. |
| `CsvParser.Message` | src/utils/csvParser.js:32 | The message starts with "Row " and a digit of the row number, and ends with the field name in double quotes. |
| `CsvParser.RowErrors` | src/utils/csvParser.js:30-34 | Exactly the required fields absent or empty in the row are reported, each once when the fields are distinct. |
| `CsvParser.RowErrorsInFieldOrder` | src/utils/csvParser.js:30-34 | A row's errors follow the declared field order: for a field list split anywhere, the errors are those of the first part followed by those of the second, and a single field yields its error exactly when the row lacks it. |
| `CsvParser.DataErrors` | src/utils/csvParser.js:28-35 | Errors come in row order with 1-based rows. An error is reported exactly for each row lacking a required field. |
| `CsvParser.DataErrorsByRow` | src/utils/csvParser.js:29-35 | Read row by row, the report holds each row's errors exactly as that row's field loop produced them, so in declared field order. |
| `CsvParser.ValidateRows` | src/utils/csvParser.js:37-40 | Valid exactly when there are no errors. There is one message per missing field, in the order of `DataErrors`: rows ascending, and within a row the declared field order (see `DataErrorsByRow` and `RowErrorsInFieldOrder`). |
| `CsvParser.CompleteRowsValid` | src/utils/csvParser.js:28-40 | Rows carrying every required field are valid. |
| `CsvParser.MissingFieldReported` | src/utils/csvParser.js:31-33 | A missing field makes the data invalid and is reported with its 1-based row. |
| `CsvParser.ValidIff` | src/utils/csvParser.js:28-40 | Valid exactly when every row carries every required field. |
| `CsvParser.ValidatePropertyCsv` | src/utils/csvParser.js:17-41 | Valid exactly when every row has address, city, state, zipCode, rent, bedrooms and bathrooms. |
| `CsvParser.ValidateTenantCsv` | src/utils/csvParser.js:43-65 | Valid exactly when every row has firstName, lastName, email, phone and propertyId. |
| `AiTools.Template` | src/components/ai-tools/AITools.jsx:7-11 | The three templates (arrears, complaint, lease), addressed through `[Tenant Name]` and signed with `[Landlord Name]`. |
| `AiTools.Substitute` | src/components/ai-tools/AITools.jsx:35 | A key with a non-empty value becomes that value; otherwise the placeholder is kept as it is. |
| `AiTools.ReplaceVariables` | src/components/ai-tools/AITools.jsx:34-36 | Every character of the result comes from the text or from some variable's value. |
| `AiTools.CloseBracket` | src/components/ai-tools/AITools.jsx:35 | The lazy `(.*?)\]` ends at the first `]` that no line terminator precedes, and fails when a line break comes first. |
| `AiTools.CloseBracketFirst` | src/components/ai-tools/AITools.jsx:35 | With no `]` or line break before a `]`, the lazy match ends there. |
| `AiTools.EmptyVariablesKeepText` | src/components/ai-tools/AITools.jsx:34-36 | With no variables filled in, the text is unchanged. |
| `AiTools.NoBracketUnchanged` | src/components/ai-tools/AITools.jsx:34-36 | Text with no `[` is never changed. |
| `AiTools.PlaceholderReplaced` | src/components/ai-tools/AITools.jsx:35 | `[key]` becomes the key's non-empty value or stays as it is. The rest of the text is processed independently. |
| `AiTools.InitialIsArrearsSelected` | src/components/ai-tools/AITools.jsx:15-17 | The tool opens in the state that choosing the arrears template produces: that template shown, no variables. |
| `AiTools.HandleSelect` | src/components/ai-tools/AITools.jsx:19-24 | Selecting a template shows it bare, with every variable cleared. |
| `AiTools.HandleVariableChange` | src/components/ai-tools/AITools.jsx:26-32 | Only the named variable changes. |
| `AiTools.Placeholders` | src/components/ai-tools/AITools.jsx:65 | Every match is a bracketed placeholder. |
| `AiTools.VariableNamesAsWritten` | src/components/ai-tools/AITools.jsx:65-66 | As written: one input per placeholder, named by slicing the array index. |
| `AiTools.AsWrittenNamesEmpty` | src/components/ai-tools/AITools.jsx:65-66 | Below a hundred placeholders, every input is named "". |
| `AiTools.AsWrittenCounterexample` | src/components/ai-tools/AITools.jsx:65-66 | For "[Tenant Name]" the written inputs are named [""] where the key is "Tenant Name". |
| `AiTools.VariableNames` | src/components/ai-tools/AITools.jsx:65-66 | Corrected: each name, bracketed again, is exactly the placeholder it stands for. |
| `AiTools.NamedInputFillsPlaceholder` | src/components/ai-tools/AITools.jsx:26-35 | Typing a non-empty value under a placeholder's key makes that placeholder show the value. |
| `AppReducer.SliceKeyInjective` | src/context/AppContext.jsx:14-29 | Distinct collections have distinct loading and error keys. |
| `AppReducer.InitialState` | src/context/AppContext.jsx:5-30 | Every list is empty, every loading flag false and every error null. |
| `AppReducer.Settle` | src/context/AppContext.jsx:55-173 | Replacing a collection clears that collection's loading flag and error and leaves the other collections alone. |
| `AppReducer.ReplaceById` | src/context/AppContext.jsx:72-74 | Every item with the payload's id becomes the payload, and the others are kept in place. |
| `AppReducer.RemoveById` | src/context/AppContext.jsx:81 | Filtering never lengthens the list. |
| `AppReducer.RemoveByIdMembers` | src/context/AppContext.jsx:81 | Exactly the items with another id survive. |
| `AppReducer.RemoveByIdAppend` | src/context/AppContext.jsx:81 | Filtering a concatenation is concatenating the filtered parts, so order is kept. |
| `AppReducer.RemoveAbsentId` | src/context/AppContext.jsx:81 | A list without the id is left as it is. |
| `AppReducer.Reduce` | src/context/AppContext.jsx:32-185 | Each action changes only its own part of the state. Unknown actions change nothing. Collection actions clear their own flags only. |
| `AppReducer.DeleteKeepsOrder` | src/context/AppContext.jsx:78-84 | Deleting keeps the other properties in their order. |
| `AppReducer.DeleteAbsentIsNoop` | src/context/AppContext.jsx:78-84 | Deleting an id no property has changes no property. |
| `AppReducer.AddThenDelete` | src/context/AppContext.jsx:62-84 | Adding then deleting an item's id removes it, together with any earlier item of that id. |
| `Store.InitialStore` | src/store/index.js:8-30 | No user, empty lists, sidebar open, light theme. |
| `Store.SetUser` | src/store/index.js:9 | Only the user changes. |
| `Store.SetProperties` | src/store/index.js:13 | Only the properties change. |
| `Store.AddProperty` | src/store/index.js:14-16 | One property is appended, and nothing else changes. |
| `Store.SetMaintenanceRequests` | src/store/index.js:20 | Only the requests change. |
| `Store.AddMaintenanceRequest` | src/store/index.js:21-23 | One request is appended, and nothing else changes. |
| `Store.SetSidebarOpen` | src/store/index.js:27 | Only the sidebar flag changes. |
| `Store.ToggleDarkMode` | src/store/index.js:31 | Only the theme flips. |
| `Store.ToggleTwice` | src/store/index.js:31 | Toggling twice restores the state. |
| `Store.Partialize` | src/store/index.js:35-38 | Exactly the user and the theme are persisted. |
| `Store.Rehydrate` | src/store/index.js:33-38 | Rehydration restores the user and theme and keeps the rest. |
| `Store.PersistRoundTrip` | src/store/index.js:33-38 | Persisting and reloading restores the user and theme. The lists and sidebar come back at their initial values. |
| `Store.PartializeIgnoresOthers` | src/store/index.js:35-38 | Two states persist identically exactly when their user and theme agree. |

## Left out

- I/O is not modelled:
  - sending verification and reset emails;
  - Socket.IO notifications;
  - HTTP parsing;
  - the clipboard;
  - `console` output.
  The model keeps only the state changes and responses.
- Sort orders (`sort({createdAt: -1})`, `sort({lastMessage: -1})`) are not modelled. Collections are taken to be held in the order the route sorts them.
- Casting malformed ObjectIds and dates, which Mongoose turns into a CastError (500 or 400), is not modelled. Ids are plain strings, and a date is any string or number.
- Mongoose's converting casts are not modelled. The model checks that a value casts and stores it as given:
  - At the top level and in `address` and `price`, a number or Boolean given for a text path is refused. Mongoose would store its text.
  - Inside lists and nested objects such a value is accepted (`Casts.StringCastable`) but kept as a number or Boolean.
  - A numeric string given for a number path (`"3"` for `bedrooms`, say) is refused. Mongoose would convert it.
  - A single value given for a list path is refused. Mongoose would wrap it into a one-element list.
  - Keys that a nested object or list element does not declare are kept. Mongoose drops them in strict mode.
  - The defaults of a nested object given in a request (`cost.currency` USD, `cost.status` pending) are not applied.
- Password hashing, JWT signing and verification, and `normalizeEmail` are parameters. Their own algorithms are not modelled.
- The property list route (properties.js:9-53) is modelled only by its query (`PropertyRoutes.BuildQuery`) and its page count (`Paging.TotalPages`). Matching the case-insensitive `RegExp` built from the city parameter would need a model of JavaScript regular expressions.
- `validateNumber`, `validateDate`, `validateAmount` and `validateURL` rest on JavaScript's number, date and URL parsing. They enter `UseForm` as given predicates.
- `parseCSV` (the Papa Parse call) is not modelled: its rows are the input of `CsvParser`.
- The AI template copy button (clipboard and alert) and the "Save as Template" button are not modelled; the button has no handler.
- `src/utils/openai.js`, `src/hooks/useApi.js`, `backend/src/middleware/monitoring.js` and `backend/src/index.js` are not part of this model.
- The `useApp` hook and the provider's `setLoading`/`setError` helpers are not modelled separately. They dispatch the `SET_LOADING`/`SET_ERROR` actions, which `AppReducer.Reduce` models.
- `MaintenanceModel.UpdateStatus` takes the status as a string, so an absent body status (`undefined`) is not modelled.
- The `userId` of the direct-chat route is taken to be present.
- The notes and completion date given in the body of a ticket create are dropped.
- A `null` sent for a top-level optional enum is treated as a wrong kind, not as a clearing of the field. This holds for updates and for creates. A `null` inside a nested object (the price currency and period, the cost status, the parking kind) passes, as in the source. The members affected on create and on the status route are listed next.
- MaintenanceRoutes.PrepareTicket: a `null` priority, status or assignedTo in the body is refused. The source stores it, because its enum validators pass `null`.
- MaintenanceRoutes.ChangeStatus: the status is a string. A `null` or absent body status is not modelled. The source stores it, with a note "Status updated to null" (or "undefined"), and answers 200.
- MaintenanceRoutes.StatusRouteAcceptsOnlyEnum: holds for string statuses only. A `null` or absent status gets through in the source.
- PropertyRoutes.CastRating: a `null` rating is refused. The source stores it with 201, since the min/max validators pass `null` and no `required` applies. `calculateAverageRating` then adds it as 0, so a property whose only rating is `null` gets average 0.
- PropertyRoutes.AddRating: refuses the `null` rating, as `PropertyRoutes.CastRating` does.
- PropertyRoutes.AddRatingKeepsInvariants: stated for number ratings only. In the source a `null` rating is stored, and the 1..5 range of ratings and average is not kept.
- UseForm.Steps: values are text or Booleans; a number value (a form initialised with `new Date().getFullYear()`, say) is not modelled. A truthy non-string sent to the postcode, IBAN or VAT check throws in JavaScript (`toUpperCase` or `replace` is called on it); the model judges its text form instead.
- AiTools.Substitute: a key naming a member that every JavaScript object inherits (`toString`, `constructor`, `__proto__` and the like) reads that member when no own value is set, so "[toString]" renders as the function's source text. The model keeps such placeholders as they are.
- AiTools.ReplaceVariables: the same inherited keys as `AiTools.Substitute`.
- AiTools.EmptyVariablesKeepText: holds except for placeholders naming inherited members, as `AiTools.Substitute` describes.
- AiTools.PlaceholderReplaced: the same exception as `AiTools.Substitute`.
- UserModel.StoredEmail: lower-cases ASCII letters only. JavaScript's `toLowerCase` maps every letter and can lengthen a string ("İ" becomes two code units), so the length bound holds of the model only.
- Text.ToUpper: maps ASCII letters only; JavaScript's `toUpperCase` maps every letter and can lengthen a string ("ß" becomes "SS").
- Text.ToLower: maps ASCII letters only, for the same reason.
- Validation.PostcodeShape: upper-cases ASCII letters only, so a postcode that becomes valid only through a non-ASCII mapping ("ßA 1234", upper-cased to "SSA 1234") is refused here and accepted in JavaScript.
- Validation.PostcodeIgnoresCase: holds for the ASCII case mapping the model uses, not for JavaScript's full mapping.
- AuthRoutes.PatchMe: names and phone given as numbers or Booleans are refused, and preferences are stored as given, as the converting-casts line describes.
- AuthRoutes.PatchMeKeepsValid: stated for the same casts as `AuthRoutes.PatchMe`.
- PropertyRoutes.PatchProperty: numeric strings, numbers given as text and single values given as lists follow the converting-casts line.
- PropertyRoutes.UpdateProperty: the same casts as `PropertyRoutes.PatchProperty`.
- PropertyRoutes.Build: the body's `ratings`, `averageRating`, `documents`, `maintenance`, `location` and `_id` are not stored; the new property has no ratings and average 0. The source stores them: ratings checked against the 1–5 bounds, documents as a list of strings, the location type against its one-value enum.
- PropertyRoutes.NewProperty: the same keys as `PropertyRoutes.Build` are left out. An explicit top-level `null` status is refused, while the source stores it (an enum validator passes `null`). A `null` price currency or period is accepted and stored, as in the source.
- PropertyRoutes.CreateProperty: the same as `PropertyRoutes.NewProperty`.
- PropertyModel.CastTenancy: an explicit `null` status is stored as pending. Mongoose keeps the `null`, since a default applies only to an absent value.
- MaintenanceRoutes.PatchTicket: the cost, images and attachments follow the converting-casts line.
- MaintenanceRoutes.NewTicket: a `null` priority, status or assignedTo is refused, as for `MaintenanceRoutes.PrepareTicket`. The ticket always gets the generated id. A body `_id` would be used by the source, and a clash with a stored id would fail the save. The extras follow the converting-casts line.
- MaintenanceRoutes.CreateTicketAsWritten: the same as `MaintenanceRoutes.NewTicket`, `null` values included.
- MaintenanceRoutes.CreateTicket: the same as `MaintenanceRoutes.NewTicket`, `null` values included.
- ChatModel.AddMessage: takes the attachments as a list. A single value, which Mongoose would wrap, is not modelled, and numbers are kept as given.
- ChatRoutes.SendMessage: the same as `ChatModel.AddMessage`.
- ChatModel.Unread: its own contract states only the bound; the exact meaning (zero exactly when everything is read) is stated by `ChatModel.UnreadZeroIff` and `ChatModel.UnreadCount`.
- AppReducer.RemoveById: its own contract states only the length bound; membership and order are stated by `RemoveByIdMembers` and `RemoveByIdAppend`.
- UseForm.ValidateField: its own contract states only the no-rules case; the first-failure rule is stated by `UseForm.FieldErrorIsFirstFailure`.
- UseForm.FailedMessages: its own contract states only the length bound; which messages it holds is stated by `UseForm.FirstFailed`.
- Validation.ValidateRequired: its own contract states only the message; the verdict is stated by `Validation.RequiredFailsIff`.
- Validation.ValidatePostcode: its own contract states only the message; the verdict is stated by `Validation.PostcodeShape`, for the ASCII case mapping.
- Validation.ValidateIban: its own contract states only the message; the verdict is stated by `Validation.IbanShape`.
- Validation.ValidateVat: its own contract states only the message; the verdict is stated by `Validation.VatShape`.
- Validation.WithTrailingCommas: its own contract states only the final comma; the message it builds is stated by `Validation.DropLastComma`.
- AiTools.Placeholders: its own contract states only the bracket shape of each match; the replacement behaviour is stated by `AiTools.PlaceholderReplaced`.
- MaintenanceModel.ShownId: its own contract covers only a present assignee; an absent one is shown as "undefined", as a template literal shows it.
- The rating route's `isInt({min: 1, max: 5})` chain is never enforced, so `PropertyRoutes.CastRating` accepts any number in 1..5 that the schema's min/max admit, non-integers such as 4.5 included.

## Findings

| source | as written | input that shows it | evidently intended | confidence | as-written member | corrected member |
|---|---|---|---|---|---|---|
| backend/src/routes/auth.js:17 | the `isIn(['landlord','tenant'])` chain is never enforced, so the schema enum admits "admin" | register with role "admin" creates an admin account | self-registration only as landlord or tenant | high, not executed | `AuthRoutes.RegisterAdmitsAdmin` | `AuthRoutes.RegisterCheckedNeverAdmin` |
| src/components/ai-tools/AITools.jsx:65-66 | `Object.keys(matches)` yields the indices "0", "1", …, whose `slice(1, -1)` is "" | template "[Tenant Name]" renders one input named "" | one input per placeholder key, e.g. "Tenant Name" | high, not executed | `AiTools.AsWrittenCounterexample` | `AiTools.VariableNames` |
| backend/src/routes/maintenance.js:148-153 | `User` is used without being imported, after the ticket is saved | a tenant's valid request stores the ticket and answers 400 | notify the landlord and answer 201 | high, not executed | `MaintenanceRoutes.AsWrittenStoresButRefuses` | `MaintenanceRoutes.CreateReportsWhatItStores` |
| backend/src/models/Chat.js:138-141 | `User` is used without being imported | two users with no direct chat yet get 400 instead of a new chat | create the direct chat between existing users | high, not executed | `ChatModel.DirectChatNeverCreatedAsWritten` | `ChatModel.FindOrCreateDirectChat` |
| backend/src/routes/chat.js:145 | `Maintenance` is used without being imported | any request to create a maintenance chat answers 400 | create the chat for the ticket's participants | high, not executed | `ChatRoutes.MaintenanceChatNeverCreatedAsWritten` | `ChatRoutes.CreateMaintenanceChat` |

=== FILE: ai_tools.dfy ===
/** The message-template tool: placeholder substitution (`replaceVariables`),
    template selection, and the variable inputs derived from a template. */
module AiTools {

  import opened Common
  import opened Text

  datatype TemplateKey = Arrears | Complaint | Lease

  /** The three message templates, each addressed through the `[Tenant Name]`
      placeholder and signed with `[Landlord Name]`. */
  function Template(k: TemplateKey): string
  {
    match k
    case Arrears =>
      "Dear [Tenant Name],\n\nThis is a notice that your rent is overdue. Please arrange payment within the next 7 days to avoid RTB action.\n\nRegards,\n[Landlord Name]"
    case Complaint =>
      "Dear [Tenant Name],\n\nWe've received a complaint regarding [Issue]. Please respond or address this within 3 days.\n\nSincerely,\n[Landlord Name]"
    case Lease =>
      "Dear [Tenant Name],\n\nPlease find enclosed your lease renewal terms. Let us know if you have any questions.\n\nBest,\n[Landlord Name]"
  }

  /** Where the lazy `(.*?)\]` that starts at `from` ends: the first `]` at or
      after `from`, provided no line terminator comes before it (`.` does not
      match one). */
  function CloseBracket(text: string, from: nat): (r: Option<nat>)
    ensures r.Some? ==> from <= r.value < |text| && text[r.value] == ']'
    ensures r.Some? ==> forall k :: from <= k < r.value ==> text[k] != ']' && !IsLineTerminator(text[k])
    ensures r.None? ==> forall k :: from <= k < |text| && text[k] == ']' ==>
      exists m :: from <= m < k && IsLineTerminator(text[m])
    decreases |text| - from
  {
    if from >= |text| then None
    else if text[from] == ']' then Some(from)
    else if IsLineTerminator(text[from]) then None
    else CloseBracket(text, from + 1)
  }

  /** Some variable's value holds `c`. */
  predicate FromVariable(c: char, vars: map<string, string>)
  {
    exists k :: k in vars && c in vars[k]
  }

  /** The replacement callback: `variables[key] || match`. */
  function Substitute(key: string, placeholder: string, vars: map<string, string>): (r: string)
    ensures key in vars && vars[key] != "" ==> r == vars[key]
    ensures r == placeholder || (key in vars && r == vars[key] && r != "")
  {
    if key in vars && vars[key] != "" then vars[key] else placeholder
  }

  /** `text.replace(/\[(.*?)\]/g, ...)`: scanning left to right, each `[` that
      starts a match is replaced together with its key and `]`, and the scan
      resumes after the `]`; any other character is copied. */
  function ReplaceVariables(text: string, vars: map<string, string>): (r: string)
    ensures forall i :: 0 <= i < |r| ==> r[i] in text || FromVariable(r[i], vars)
    decreases |text|
  {
    if text == [] then []
    else if text[0] == '[' then
      match CloseBracket(text, 1)
      case Some(j) => Substitute(text[1..j], text[..j + 1], vars) + ReplaceVariables(text[j + 1..], vars)
      case None => [text[0]] + ReplaceVariables(text[1..], vars)
    else [text[0]] + ReplaceVariables(text[1..], vars)
  }

  /** With no variables filled in, every placeholder is kept as it is. */
  lemma {:induction false} EmptyVariablesKeepText(text: string)
    ensures ReplaceVariables(text, map[]) == text
    decreases |text|
  {
    if text != [] {
      if text[0] == '[' && CloseBracket(text, 1).Some? {
        var j := CloseBracket(text, 1).value;
        EmptyVariablesKeepText(text[j + 1..]);
        assert text[..j + 1] + text[j + 1..] == text;
      } else {
        EmptyVariablesKeepText(text[1..]);
        assert [text[0]] + text[1..] == text;
      }
    }
  }

  /** Text with no `[` is never changed. */
  lemma {:induction false} NoBracketUnchanged(text: string, vars: map<string, string>)
    requires '[' !in text
    ensures ReplaceVariables(text, vars) == text
    decreases |text|
  {
    if text != [] {
      assert text[0] != '[';
      NoBracketUnchanged(text[1..], vars);
      assert [text[0]] + text[1..] == text;
    }
  }

  /** A placeholder `[key]` whose key holds no `]` and no line break is replaced
      by the key's value when that value is non-empty, and kept otherwise; the
      rest of the text is processed independently. */
  lemma PlaceholderReplaced(key: string, rest: string, vars: map<string, string>)
    requires ']' !in key
    requires forall i :: 0 <= i < |key| ==> !IsLineTerminator(key[i])
    ensures ReplaceVariables("[" + key + "]" + rest, vars) ==
      (if key in vars && vars[key] != "" then vars[key] else "[" + key + "]") + ReplaceVariables(rest, vars)
  {
    var text := "[" + key + "]" + rest;
    var j := |key| + 1;
    assert text[j] == ']';
    forall k | 1 <= k < j ensures text[k] != ']' && !IsLineTerminator(text[k])
    {
      assert text[k] == key[k - 1];
    }
    assert CloseBracket(text, 1) == Some(j) by {
      CloseBracketFirst(text, 1, j);
    }
    assert text[1..j] == key;
    assert text[..j + 1] == "[" + key + "]";
    assert text[j + 1..] == rest;
  }

  /** The lazy match ends at the first `]` when nothing before it breaks the line. */
  lemma {:induction false} CloseBracketFirst(text: string, from: nat, j: nat)
    requires from <= j < |text| && text[j] == ']'
    requires forall k :: from <= k < j ==> text[k] != ']' && !IsLineTerminator(text[k])
    ensures CloseBracket(text, from) == Some(j)
    decreases j - from
  {
    if from < j {
      CloseBracketFirst(text, from + 1, j);
    }
  }

  /** The tool's state: the selected template, the editable output, and the
      variable values typed in. */
  datatype ToolState = ToolState(selected: TemplateKey, output: string, variables: map<string, string>)

  function InitialTool(): ToolState
  {
    ToolState(Arrears, Template(Arrears), map[])
  }

  /** The tool opens as if the arrears template had just been chosen, from
      whatever state. */
  lemma InitialIsArrearsSelected(s: ToolState)
    ensures InitialTool() == HandleSelect(s, Arrears)
  {
  }

  /** `handleSelect`: the output becomes the chosen template and every variable
      is cleared, so the displayed text is the bare template. */
  function HandleSelect(s: ToolState, k: TemplateKey): (t: ToolState)
    ensures t.selected == k && t.output == Template(k) && t.variables == map[]
    ensures ReplaceVariables(t.output, t.variables) == Template(k)
  {
    EmptyVariablesKeepText(Template(k));
    ToolState(k, Template(k), map[])
  }

  /** `handleVariableChange`: only the named variable changes. */
  function HandleVariableChange(s: ToolState, name: string, value: string): (t: ToolState)
    ensures t.variables.Keys == s.variables.Keys + {name} && t.variables[name] == value
    ensures forall k :: k in s.variables && k != name ==> t.variables[k] == s.variables[k]
    ensures t.selected == s.selected && t.output == s.output
  {
    s.(variables := s.variables[name := value])
  }

  // ---------------------------------------------------------------- variable inputs

  /** `template.match(/\[(.*?)\]/g)`: every matched placeholder, brackets included. */
  function Placeholders(text: string): (ps: seq<string>)
    ensures forall i :: 0 <= i < |ps| ==> |ps[i]| >= 2 && ps[i][0] == '[' && ps[i][|ps[i]| - 1] == ']'
    decreases |text|
  {
    if text == [] then []
    else if text[0] == '[' then
      match CloseBracket(text, 1)
      case Some(j) => [text[..j + 1]] + Placeholders(text[j + 1..])
      case None => Placeholders(text[1..])
    else Placeholders(text[1..])
  }

  /** `s.slice(1, -1)`. */
  function Inner(s: string): string
  {
    if |s| >= 2 then s[1..|s| - 1] else ""
  }

  /** The input names the component renders, as written:
      `Object.keys(matches).map(match => match.slice(1, -1))` slices the array
      indices "0", "1", ... instead of the placeholders. */
  function VariableNamesAsWritten(template: string): (names: seq<string>)
    ensures |names| == |Placeholders(template)|
  {
    var ps := Placeholders(template);
    seq(|ps|, i requires 0 <= i < |ps| => Inner(NatToString(i)))
  }

  /** With fewer than a hundred placeholders every rendered input is named "",
      so what is typed never reaches a placeholder key that is non-empty. */
  lemma AsWrittenNamesEmpty(template: string, i: nat)
    requires i < |VariableNamesAsWritten(template)| && i < 100
    ensures VariableNamesAsWritten(template)[i] == ""
  {
    if i >= 10 {
      assert NatToString(i) == NatToString(i / 10) + ['0' + (i % 10) as char];
    }
  }

  /** Concretely: the template "[Tenant Name]" gets one input named "" where the
      placeholder's key is "Tenant Name". */
  lemma AsWrittenCounterexample()
    ensures VariableNamesAsWritten("[Tenant Name]") == [""]
    ensures VariableNames("[Tenant Name]") == ["Tenant Name"]
  {
    var t := "[Tenant Name]";
    assert CloseBracket(t, 1) == Some(12) by { CloseBracketFirst(t, 1, 12); }
    assert t[0] == '[' && t[..13] == t && t[13..] == [];
    assert Placeholders(t) == [t[..13]] + Placeholders(t[13..]);
    assert Inner(t) == t[1..12] == "Tenant Name";
  }

  /** The evidently intended input names: each placeholder without its brackets. */
  function VariableNames(template: string): (names: seq<string>)
    ensures |names| == |Placeholders(template)|
    ensures forall i :: 0 <= i < |names| ==> "[" + names[i] + "]" == Placeholders(template)[i]
  {
    var ps := Placeholders(template);
    seq(|ps|, i requires 0 <= i < |ps| => Inner(ps[i]))
  }

  /** Typing a non-empty value into the input for a placeholder's key makes that
      placeholder show the value. */
  lemma NamedInputFillsPlaceholder(key: string, rest: string, vars: map<string, string>, value: string)
    requires ']' !in key
    requires forall i :: 0 <= i < |key| ==> !IsLineTerminator(key[i])
    requires value != ""
    ensures ReplaceVariables("[" + key + "]" + rest, vars[key := value]) ==
      value + ReplaceVariables(rest, vars[key := value])
  {
    PlaceholderReplaced(key, rest, vars[key := value]);
  }
}

=== FILE: app_reducer.dfy ===
/** The client-side global state and its reducer (`appReducer`). Every
    collection action touches its own list and its own `loading`/`error`
    entries and nothing else. */
module AppReducer {

  import opened Common

  /** A record held in a client-side list; only its `id` matters to the reducer. */
  datatype Item = Item(id: Json, body: Json)

  /** The six collections that have loading and error flags. */
  datatype Slice = Properties | Maintenance | Inventory | Budget | Calendar | Chat

  function SliceKey(s: Slice): string
  {
    match s
    case Properties => "properties"
    case Maintenance => "maintenance"
    case Inventory => "inventory"
    case Budget => "budget"
    case Calendar => "calendar"
    case Chat => "chat"
  }

  lemma SliceKeyInjective(s: Slice, t: Slice)
    ensures SliceKey(s) == SliceKey(t) <==> s == t
  {
  }

  datatype AppState = AppState(
    properties: seq<Item>, maintenance: seq<Item>, inventory: seq<Item>,
    budget: seq<Item>, calendar: seq<Item>, chat: seq<Item>, templates: seq<Item>,
    user: Json,
    loading: map<string, Json>,
    error: map<string, Json>)

  function InitialState(): (s: AppState)
    ensures forall sl: Slice :: List(s, sl) == [] && SliceKey(sl) in s.loading && s.loading[SliceKey(sl)] == JBool(false)
    ensures forall sl: Slice :: SliceKey(sl) in s.error && s.error[SliceKey(sl)] == JNull
    ensures s.user == JNull && s.templates == []
  {
    var keys := {"properties", "maintenance", "inventory", "budget", "calendar", "chat"};
    AppState([], [], [], [], [], [], [], JNull,
      map k | k in keys :: JBool(false),
      map k | k in keys :: JNull)
  }

  function List(st: AppState, s: Slice): seq<Item>
  {
    match s
    case Properties => st.properties
    case Maintenance => st.maintenance
    case Inventory => st.inventory
    case Budget => st.budget
    case Calendar => st.calendar
    case Chat => st.chat
  }

  /** Replaces one list and clears that slice's loading flag and error. */
  function Settle(st: AppState, s: Slice, xs: seq<Item>): (r: AppState)
    ensures List(r, s) == xs
    ensures forall t :: t != s ==> List(r, t) == List(st, t)
    ensures r.loading == st.loading[SliceKey(s) := JBool(false)]
    ensures r.error == st.error[SliceKey(s) := JNull]
    ensures r.user == st.user && r.templates == st.templates
  {
    var st' := st.(loading := st.loading[SliceKey(s) := JBool(false)],
                   error := st.error[SliceKey(s) := JNull]);
    match s
    case Properties => st'.(properties := xs)
    case Maintenance => st'.(maintenance := xs)
    case Inventory => st'.(inventory := xs)
    case Budget => st'.(budget := xs)
    case Calendar => st'.(calendar := xs)
    case Chat => st'.(chat := xs)
  }

  /** `list.map(p => p.id === x.id ? x : p)`. */
  function ReplaceById(xs: seq<Item>, x: Item): (r: seq<Item>)
    ensures |r| == |xs|
    ensures forall i :: 0 <= i < |xs| ==> r[i] == if xs[i].id == x.id then x else xs[i]
  {
    seq(|xs|, i requires 0 <= i < |xs| => if xs[i].id == x.id then x else xs[i])
  }

  /** `list.filter(p => p.id !== id)`. */
  function RemoveById(xs: seq<Item>, id: Json): (r: seq<Item>)
    ensures |r| <= |xs|
  {
    if xs == [] then []
    else RemoveById(xs[..|xs| - 1], id) + (if xs[|xs| - 1].id == id then [] else [xs[|xs| - 1]])
  }

  /** Exactly the items of another id survive. */
  lemma {:induction false} RemoveByIdMembers(xs: seq<Item>, id: Json)
    ensures forall x :: x in RemoveById(xs, id) <==> x in xs && x.id != id
  {
    if xs != [] {
      RemoveByIdMembers(xs[..|xs| - 1], id);
      assert xs == xs[..|xs| - 1] + [xs[|xs| - 1]];
    }
  }

  /** Removal works piecewise, so the survivors keep their relative order. */
  lemma {:induction false} RemoveByIdAppend(xs: seq<Item>, ys: seq<Item>, id: Json)
    ensures RemoveById(xs + ys, id) == RemoveById(xs, id) + RemoveById(ys, id)
    decreases |ys|
  {
    if ys == [] {
      assert xs + ys == xs;
    } else {
      var n := |ys|;
      var zs := xs + ys;
      assert zs[..|zs| - 1] == xs + ys[..n - 1];
      assert zs[|zs| - 1] == ys[n - 1];
      RemoveByIdAppend(xs, ys[..n - 1], id);
      var tail := if ys[n - 1].id == id then [] else [ys[n - 1]];
      assert RemoveById(zs, id) == RemoveById(xs + ys[..n - 1], id) + tail;
      assert RemoveById(ys, id) == RemoveById(ys[..n - 1], id) + tail;
    }
  }

  /** A list with no item of that id is left as it is. */
  lemma {:induction false} RemoveAbsentId(xs: seq<Item>, id: Json)
    requires forall i :: 0 <= i < |xs| ==> xs[i].id != id
    ensures RemoveById(xs, id) == xs
  {
    if xs != [] {
      RemoveAbsentId(xs[..|xs| - 1], id);
    }
  }

  datatype Action =
    | SetLoading(key: string, value: Json)
    | SetError(key: string, value: Json)
    | SetList(slice: Slice, items: seq<Item>)
    | AddItem(slice: Slice, item: Item)
    | UpdateProperty(property: Item)
    | UpdateMaintenance(request: Item)
    | DeleteProperty(id: Json)
    | SetUser(user: Json)
    | Unknown(kind: string)

  /** `appReducer`. */
  function Reduce(st: AppState, a: Action): (r: AppState)
    ensures a.Unknown? ==> r == st
    ensures a.SetLoading? ==>
      && r.(loading := st.loading) == st
      && r.loading.Keys == st.loading.Keys + {a.key} && r.loading[a.key] == a.value
      && forall k :: k in st.loading && k != a.key ==> r.loading[k] == st.loading[k]
    ensures a.SetError? ==>
      && r.(error := st.error) == st
      && r.error.Keys == st.error.Keys + {a.key} && r.error[a.key] == a.value
      && forall k :: k in st.error && k != a.key ==> r.error[k] == st.error[k]
    ensures a.SetUser? ==> r == st.(user := a.user)
    ensures a.AddItem? ==> List(r, a.slice) == List(st, a.slice) + [a.item]
    ensures a.SetList? ==> List(r, a.slice) == a.items
    ensures a.UpdateProperty? ==> (
      && |r.properties| == |st.properties|
      && forall i :: 0 <= i < |st.properties| ==>
           r.properties[i] == if st.properties[i].id == a.property.id then a.property else st.properties[i])
    ensures a.UpdateMaintenance? ==> (
      && |r.maintenance| == |st.maintenance|
      && forall i :: 0 <= i < |st.maintenance| ==>
           r.maintenance[i] == if st.maintenance[i].id == a.request.id then a.request else st.maintenance[i])
    ensures a.DeleteProperty? ==> forall x :: x in r.properties <==> x in st.properties && x.id != a.id
    ensures Touches(a).Some? ==>
      var s := Touches(a).value;
      && (forall t :: t != s ==> List(r, t) == List(st, t))
      && r.loading == st.loading[SliceKey(s) := JBool(false)]
      && r.error == st.error[SliceKey(s) := JNull]
      && r.user == st.user && r.templates == st.templates
  {
    match a
    case SetLoading(k, v) => st.(loading := st.loading[k := v])
    case SetError(k, v) => st.(error := st.error[k := v])
    case SetList(s, xs) => Settle(st, s, xs)
    case AddItem(s, x) => Settle(st, s, List(st, s) + [x])
    case UpdateProperty(x) => Settle(st, Properties, ReplaceById(st.properties, x))
    case UpdateMaintenance(x) => Settle(st, Maintenance, ReplaceById(st.maintenance, x))
    case DeleteProperty(id) =>
      RemoveByIdMembers(st.properties, id);
      Settle(st, Properties, RemoveById(st.properties, id))
    case SetUser(u) => st.(user := u)
    case Unknown(_) => st
  }

  /** The collection an action works on, if any. */
  function Touches(a: Action): Option<Slice>
  {
    match a
    case SetList(s, _) => Some(s)
    case AddItem(s, _) => Some(s)
    case UpdateProperty(_) => Some(Properties)
    case UpdateMaintenance(_) => Some(Maintenance)
    case DeleteProperty(_) => Some(Properties)
    case _ => None
  }

  /** Deleting a property keeps the other properties in their order: deleting
      from a concatenation is deleting from each part. */
  lemma DeleteKeepsOrder(st: AppState, xs: seq<Item>, ys: seq<Item>, id: Json)
    requires st.properties == xs + ys
    ensures Reduce(st, DeleteProperty(id)).properties == RemoveById(xs, id) + RemoveById(ys, id)
  {
    RemoveByIdAppend(xs, ys, id);
  }

  /** Deleting an id no property has changes no property. */
  lemma DeleteAbsentIsNoop(st: AppState, id: Json)
    requires forall i :: 0 <= i < |st.properties| ==> st.properties[i].id != id
    ensures Reduce(st, DeleteProperty(id)).properties == st.properties
  {
    RemoveAbsentId(st.properties, id);
  }

  /** Adding an item and then deleting its id removes it together with any
      earlier item of that id, and leaves the rest. */
  lemma AddThenDelete(st: AppState, x: Item)
    ensures Reduce(Reduce(st, AddItem(Properties, x)), DeleteProperty(x.id)).properties ==
      RemoveById(st.properties, x.id)
  {
    RemoveByIdAppend(st.properties, [x], x.id);
    assert RemoveById([x], x.id) == [] by {
      assert [x][..0] == [];
    }
  }
}

=== FILE: auth_middleware.dfy ===
/** The three request guards: `auth` (bearer token to user), `checkRole` and
    `verifyPropertyAccess`. JWT verification is a parameter that yields the
    token's user id, or nothing for a bad signature or an expired token. */
module AuthMiddleware {

  import opened Common
  import opened Text
  import opened UserModel
  import opened PropertyModel

  const PleaseAuthenticate: string := "Please authenticate."
  const RoleDenied: string := "Access denied. You do not have permission to perform this action."
  const PropertyNotFound: string := "Property not found"
  const PropertyDenied: string := "Access denied to this property"

  const BearerPrefix: string := "Bearer "

  /** The token taken from the `Authorization` header: the first "Bearer "
      anywhere in it is removed, and an absent header or an empty remainder
      yields no token. */
  function BearerToken(header: Option<string>): (t: Option<string>)
    ensures header.None? ==> t.None?
    ensures t.Some? ==> t.value != []
    ensures header.Some? && IndexOfText(header.value, BearerPrefix, 0).None? ==>
      t == (if header.value == [] then None else header)
  {
    match header
    case None => None
    case Some(h) =>
      var token := ReplaceFirst(h, BearerPrefix, "");
      if token == [] then None else Some(token)
  }

  /** A well-formed header yields exactly the token after the prefix. */
  lemma BearerRoundTrip(t: string)
    requires t != []
    ensures BearerToken(Some(BearerPrefix + t)) == Some(t)
  {
    StripLeadingPattern(BearerPrefix, t);
  }

  /** `auth`: the request proceeds as the user the token names; anything else
      (no token, a token that does not verify, a user that no longer exists) is
      the same 401. */
  function Authenticate(header: Option<string>, verify: string -> Option<Id>,
                        users: seq<User>): (r: Outcome<User>)
    ensures r.Fail? ==> r == Fail(401, PleaseAuthenticate)
    ensures r.Ok? <==>
      && BearerToken(header).Some?
      && verify(BearerToken(header).value).Some?
      && exists i :: 0 <= i < |users| && users[i].id == verify(BearerToken(header).value).value
    ensures r.Ok? ==> r.value in users && r.value.id == verify(BearerToken(header).value).value
  {
    match BearerToken(header)
    case None => Fail(401, PleaseAuthenticate)
    case Some(token) =>
      match verify(token)
      case None => Fail(401, PleaseAuthenticate)
      case Some(uid) =>
        match Find(users, (u: User) => u.id == uid)
        case None => Fail(401, PleaseAuthenticate)
        case Some(i) => Ok(users[i])
  }

  /** `checkRole(roles)`: passes exactly the users whose role is listed. */
  function CheckRole(roles: seq<Role>, user: User): (r: Outcome<()>)
    ensures r.Ok? <==> user.role in roles
    ensures r.Fail? ==> r == Fail(403, RoleDenied)
  {
    if user.role in roles then Ok(()) else Fail(403, RoleDenied)
  }

  /** The rule `verifyPropertyAccess` applies: the landlord, or an active
      tenant. Admins get no special case. */
  predicate HasPropertyAccess(p: Property, uid: Id): (b: bool)
    ensures p.landlord == uid ==> b
    ensures ActiveTenantScan(p.tenants, uid) == Match ==> b
    ensures AllHaveUsers(p.tenants) ==>
      (b <==> p.landlord == uid || ActiveTenantScan(p.tenants, uid) == Match)
  {
    p.landlord == uid || exists i :: 0 <= i < |p.tenants| && IsActiveTenant(p.tenants[i], uid)
  }

  /** `verifyPropertyAccess`: 404 for an unknown id, then the landlord passes,
      then an active tenant passes; otherwise 403. A tenancy without a user met
      during the tenant scan makes the handler fail with 500. On success the
      result is the position of the property. */
  function VerifyPropertyAccess(db: seq<Property>, id: Id, caller: User): (r: Outcome<nat>)
    ensures FindProperty(db, id).None? ==> r == Fail(404, PropertyNotFound)
    ensures r.Ok? ==> r.value < |db| && db[r.value].id == id
    ensures r.Ok? ==> r.value == FindProperty(db, id).value
    ensures r.Ok? ==> HasPropertyAccess(db[r.value], caller.id)
    ensures r.Fail? ==> r.code in {403, 404, 500}
    ensures r.Fail? && r.code == 403 ==> !HasPropertyAccess(db[FindProperty(db, id).value], caller.id)
  {
    match FindProperty(db, id)
    case None => Fail(404, PropertyNotFound)
    case Some(i) =>
      var p := db[i];
      if p.landlord == caller.id then Ok(i)
      else
        match ActiveTenantScan(p.tenants, caller.id)
        case Match => Ok(i)
        case NoMatch => Fail(403, PropertyDenied)
        case Throws => Fail(500, ServerError)
  }

  /** On a property whose tenancies all name a user, access is granted exactly
      to the landlord and to active tenants; pending and ended tenants, and
      admins who are neither, are refused with 403. */
  lemma PropertyAccessIff(db: seq<Property>, id: Id, caller: User)
    requires FindProperty(db, id).Some?
    requires AllHaveUsers(db[FindProperty(db, id).value].tenants)
    ensures VerifyPropertyAccess(db, id, caller).Ok? <==>
      HasPropertyAccess(db[FindProperty(db, id).value], caller.id)
    ensures VerifyPropertyAccess(db, id, caller).Fail? ==>
      VerifyPropertyAccess(db, id, caller) == Fail(403, PropertyDenied)
  {
  }
}

=== FILE: auth_routes.dfy ===
/** The account routes: register, login, email verification, password reset and
    profile update, over the user collection as a sequence. The request-body
    validator chains of these routes are declared but never consulted, so only
    their sanitizers act; `normalize` stands for `normalizeEmail`, `hash` for
    bcrypt with a fresh salt, `compare` for `bcrypt.compare`, `decode` for JWT
    verification, and new ids, issued tokens and the clock are inputs. */
module AuthRoutes {

  import opened Common
  import opened Text
  import opened UserModel

  const EmailTaken: string := "Email already registered"
  const InvalidCredentials: string := "Invalid credentials"
  const InvalidVerification: string := "Invalid verification token"
  const UserNotFound: string := "User not found"
  const InvalidReset: string := "Invalid or expired reset token"
  const InvalidRole: string := "Invalid role"

  /** One hour, in milliseconds. */
  const ResetWindow: int := 3600000

  /** The state a successful register or login leaves: the collection, the
      issued session token and the profile sent back. */
  datatype Session = Session(users: seq<User>, token: string, profile: PublicProfile)

  function FindByEmail(users: seq<User>, email: string): (r: Option<nat>)
    ensures r.Some? ==> r.value < |users| && users[r.value].email == email
    ensures r.None? <==> forall j :: 0 <= j < |users| ==> users[j].email != email
  {
    Find(users, (u: User) => u.email == email)
  }

  predicate EmailsUnique(users: seq<User>)
  {
    forall i, j :: 0 <= i < j < |users| ==> users[i].email != users[j].email
  }

  /** POST /register. A taken email is a 400; a role outside the enum and a
      document that fails validation (an empty name, a password shorter than
      six characters) reach the catch-all and are a 500. Any enum role is
      accepted, `admin` included. */
  function Register(users: seq<User>, email: string, password: string, firstName: string,
                    lastName: string, role: Option<string>, normalize: string -> string,
                    newId: Id, verificationToken: string, token: string,
                    hash: string -> string): (r: Outcome<Session>)
    ensures FindByEmail(users, StoredEmail(normalize(email))).Some? ==> r == Fail(400, EmailTaken)
    ensures r.Fail? ==> r.code in {400, 500}
    ensures r.Ok? <==>
      && FindByEmail(users, StoredEmail(normalize(email))).None?
      && CastRole(role).Some?
      && !AllWhitespace(normalize(email))
      && !AllWhitespace(firstName) && !AllWhitespace(lastName)
      && Utf16Length(password) >= MinPasswordLength
    ensures r.Ok? ==> |r.value.users| == |users| + 1 && r.value.users[..|users|] == users
    ensures r.Ok? ==> r.value.token == token
    ensures r.Ok? ==> RegisteredAs(r.value.users[|users|], StoredEmail(normalize(email)),
                                   CastRole(role), hash(password), newId, verificationToken)
    ensures r.Ok? ==> r.value.profile == GetPublicProfile(r.value.users[|users|])
  {
    var key := StoredEmail(normalize(email));
    if FindByEmail(users, key).Some? then Fail(400, EmailTaken)
    else
      match CastRole(role)
      case None => Fail(500, ServerError)
      case Some(rl) =>
        var u := Registrant(key, password, firstName, lastName, rl, newId, verificationToken);
        assert key == [] <==> AllWhitespace(normalize(email));
        var saved := Save(u, true, hash);
        if saved.Fail? then
          assert !Valid(u, true);
          Fail(500, ServerError)
        else
          assert saved.value == u.(password := hash(password));
          assert RegisteredAs(saved.value, key, Some(rl), hash(password), newId, verificationToken);
          var after := users + [saved.value];
          assert after[..|users|] == users && after[|users|] == saved.value;
          Ok(Session(after, token, GetPublicProfile(saved.value)))
  }

  /** What the stored document of a new account holds. */
  predicate RegisteredAs(u: User, email: string, role: Option<Role>, hashed: string, id: Id,
                         verificationToken: string)
  {
    && role.Some? && u.role == role.value
    && u.email == email && u.password == hashed && u.id == id
    && !u.isVerified && u.verificationToken == Some(verificationToken)
  }

  /** The document register builds before saving it. */
  function Registrant(key: string, password: string, firstName: string, lastName: string,
                      role: Role, newId: Id, verificationToken: string): (u: User)
    ensures u.email == key && u.role == role && u.password == password && u.id == newId
    ensures !u.isVerified && u.verificationToken == Some(verificationToken)
    ensures Valid(u, true) <==> (key != [] && !AllWhitespace(firstName)
      && !AllWhitespace(lastName) && Utf16Length(password) >= MinPasswordLength)
  {
    TrimEmptyIff(firstName);
    TrimEmptyIff(lastName);
    DefaultPreferencesOk();
    NewUser(newId, key, password, firstName, lastName, role)
      .(email := key, verificationToken := Some(verificationToken))
  }

  /** Registration keeps emails unique. */
  lemma RegisterKeepsEmailsUnique(users: seq<User>, email: string, password: string,
                                  firstName: string, lastName: string, role: Option<string>,
                                  normalize: string -> string, newId: Id,
                                  verificationToken: string, token: string, hash: string -> string)
    requires EmailsUnique(users)
    requires Register(users, email, password, firstName, lastName, role, normalize, newId,
                      verificationToken, token, hash).Ok?
    ensures EmailsUnique(Register(users, email, password, firstName, lastName, role, normalize,
                                  newId, verificationToken, token, hash).value.users)
  {
    var after := Register(users, email, password, firstName, lastName, role, normalize, newId,
                          verificationToken, token, hash).value.users;
    var u := after[|users|];
    assert after == users + [u];
    AppendFreshEmail(users, u);
  }

  lemma AppendFreshEmail(users: seq<User>, u: User)
    requires EmailsUnique(users)
    requires FindByEmail(users, u.email).None?
    ensures EmailsUnique(users + [u])
  {
    var after := users + [u];
    forall i, j | 0 <= i < j < |after|
      ensures after[i].email != after[j].email
    {
      assert after[i] == users[i];
      if j < |users| {
        assert after[j] == users[j];
      }
    }
  }

  /** The role check the register route declares, enforced: only landlord and
      tenant may be chosen, and anything else is a 400 before any lookup. */
  function RegisterChecked(users: seq<User>, email: string, password: string, firstName: string,
                           lastName: string, role: Option<string>, normalize: string -> string,
                           newId: Id, verificationToken: string, token: string,
                           hash: string -> string): (r: Outcome<Session>)
    ensures role !in {Some("landlord"), Some("tenant")} ==> r == Fail(400, InvalidRole)
    ensures role in {Some("landlord"), Some("tenant")} ==>
      r == Register(users, email, password, firstName, lastName, role, normalize, newId,
                    verificationToken, token, hash)
  {
    if role !in {Some("landlord"), Some("tenant")} then Fail(400, InvalidRole)
    else Register(users, email, password, firstName, lastName, role, normalize, newId,
                  verificationToken, token, hash)
  }

  /** With the check enforced, self-registration never creates an admin. */
  lemma RegisterCheckedNeverAdmin(users: seq<User>, email: string, password: string,
                                  firstName: string, lastName: string, role: Option<string>,
                                  normalize: string -> string, newId: Id,
                                  verificationToken: string, token: string, hash: string -> string)
    requires RegisterChecked(users, email, password, firstName, lastName, role, normalize, newId,
                             verificationToken, token, hash).Ok?
    ensures RegisterChecked(users, email, password, firstName, lastName, role, normalize, newId,
                            verificationToken, token, hash).value.users[|users|].role != Admin
  {
  }

  /** As written, a request naming the role `admin` creates an administrator. */
  lemma RegisterAdmitsAdmin(hash: string -> string)
    ensures var r := Register([], "eve@example.com", "secret1", "Eve", "Doe", Some("admin"),
                              (e: string) => e, "u1", "v", "t", hash);
      r.Ok? && r.value.users[0].role == Admin
  {
    var e := "eve@example.com";
    assert !IsWhitespace(e[0]);
    assert !IsWhitespace("Eve"[0]);
    assert !IsWhitespace("Doe"[0]);
  }

  /** POST /login. An unknown email and a wrong password give the same 401; a
      success records the login time and leaves the password hash alone. */
  function Login(users: seq<User>, email: string, password: string, normalize: string -> string,
                 compare: (string, string) -> bool, now: int, token: string): (r: Outcome<Session>)
    ensures r.Fail? ==> r == Fail(401, InvalidCredentials) || r == Fail(500, ServerError)
    ensures FindByEmail(users, StoredEmail(normalize(email))).None? ==> r == Fail(401, InvalidCredentials)
    ensures r.Ok? <==>
      && FindByEmail(users, StoredEmail(normalize(email))).Some?
      && compare(password, users[FindByEmail(users, StoredEmail(normalize(email))).value].password)
      && Valid(users[FindByEmail(users, StoredEmail(normalize(email))).value], false)
    ensures r.Ok? ==>
      var i := FindByEmail(users, StoredEmail(normalize(email))).value;
      && compare(password, users[i].password)
      && r.value.users == users[i := users[i].(lastLogin := Some(now))]
      && r.value.token == token
      && r.value.profile == GetPublicProfile(r.value.users[i])
  {
    match FindByEmail(users, StoredEmail(normalize(email)))
    case None => Fail(401, InvalidCredentials)
    case Some(i) =>
      if !compare(password, users[i].password) then Fail(401, InvalidCredentials)
      else
        var u := users[i].(lastLogin := Some(now));
        if !Valid(u, false) then Fail(500, ServerError)
        else Ok(Session(users[i := u], token, GetPublicProfile(u)))
  }

  /** The two ways a login can be refused cannot be told apart. */
  lemma LoginFailuresIndistinguishable(users: seq<User>, unknown: string, known: string,
                                       p1: string, p2: string, normalize: string -> string,
                                       compare: (string, string) -> bool, now: int, token: string)
    requires FindByEmail(users, StoredEmail(normalize(unknown))).None?
    requires FindByEmail(users, StoredEmail(normalize(known))).Some?
    requires !compare(p2, users[FindByEmail(users, StoredEmail(normalize(known))).value].password)
    ensures Login(users, unknown, p1, normalize, compare, now, token)
         == Login(users, known, p2, normalize, compare, now, token)
  {
  }

  /** GET /verify/:token. The token must verify and be the one stored on the
      user it names; it is then cleared and the user marked verified. */
  function Verify(users: seq<User>, token: string, decode: string -> Option<Id>): (r: Outcome<seq<User>>)
    ensures r.Fail? ==> r == Fail(400, InvalidVerification)
    ensures r.Ok? ==>
      && decode(token).Some?
      && exists i :: (0 <= i < |users|
        && users[i].id == decode(token).value && users[i].verificationToken == Some(token)
        && r.value == users[i := users[i].(isVerified := true, verificationToken := None)])
    ensures decode(token).None? ==> r.Fail?
    ensures (forall i :: 0 <= i < |users| ==> users[i].verificationToken != Some(token)) ==> r.Fail?
    ensures r.Ok? <==>
      && decode(token).Some?
      && FindHolder(users, decode(token).value, token).Some?
      && Valid(users[FindHolder(users, decode(token).value, token).value], false)
  {
    match decode(token)
    case None => Fail(400, InvalidVerification)
    case Some(uid) =>
      match FindHolder(users, uid, token)
      case None => Fail(400, InvalidVerification)
      case Some(i) =>
        var u := users[i].(isVerified := true, verificationToken := None);
        if !Valid(u, false) then Fail(400, InvalidVerification)
        else Ok(users[i := u])
  }

  /** The user the verification lookup finds: the first one with the decoded
      id that still holds the token. */
  function FindHolder(users: seq<User>, uid: Id, token: string): (r: Option<nat>)
    ensures r.Some? ==> r.value < |users| && users[r.value].id == uid
                        && users[r.value].verificationToken == Some(token)
    ensures r.None? <==> forall j :: 0 <= j < |users| ==>
      !(users[j].id == uid && users[j].verificationToken == Some(token))
  {
    Find(users, (u: User) => u.id == uid && u.verificationToken == Some(token))
  }

  /** No verification token is stored on two users. */
  predicate VerificationTokensDistinct(users: seq<User>)
  {
    forall i, j :: 0 <= i < j < |users| && users[i].verificationToken.Some? ==>
      users[i].verificationToken != users[j].verificationToken
  }

  /** A verification token works once. */
  lemma VerifySingleUse(users: seq<User>, token: string, decode: string -> Option<Id>)
    requires VerificationTokensDistinct(users)
    requires Verify(users, token, decode).Ok?
    ensures Verify(Verify(users, token, decode).value, token, decode).Fail?
  {
    var after := Verify(users, token, decode).value;
    var i :| 0 <= i < |users| && users[i].id == decode(token).value
             && users[i].verificationToken == Some(token)
             && after == users[i := users[i].(isVerified := true, verificationToken := None)];
    forall j | 0 <= j < |after|
      ensures after[j].verificationToken != Some(token)
    {
      if j != i {
        assert users[j].verificationToken != users[i].verificationToken by {
          if j < i {
            if users[j].verificationToken.Some? {
            } else {
            }
          }
        }
      }
    }
  }

  /** POST /forgot-password: the reset token and its expiry one hour from now
      are stored on the user; an unknown email is a 404. */
  function Forgot(users: seq<User>, email: string, normalize: string -> string, now: int,
                  resetToken: string): (r: Outcome<seq<User>>)
    ensures FindByEmail(users, StoredEmail(normalize(email))).None? ==> r == Fail(404, UserNotFound)
    ensures r.Fail? ==> r.code in {404, 500}
    ensures r.Ok? <==>
      && FindByEmail(users, StoredEmail(normalize(email))).Some?
      && Valid(users[FindByEmail(users, StoredEmail(normalize(email))).value], false)
    ensures r.Ok? ==>
      var i := FindByEmail(users, StoredEmail(normalize(email))).value;
      r.value == users[i := users[i].(resetPasswordToken := Some(resetToken),
                                      resetPasswordExpires := Some(now + ResetWindow))]
  {
    match FindByEmail(users, StoredEmail(normalize(email)))
    case None => Fail(404, UserNotFound)
    case Some(i) =>
      var u := users[i].(resetPasswordToken := Some(resetToken),
                         resetPasswordExpires := Some(now + ResetWindow));
      if !Valid(u, false) then Fail(500, ServerError)
      else Ok(users[i := u])
  }

  /** A user a reset token opens at time `now`. */
  predicate OpensReset(u: User, token: string, now: int)
  {
    u.resetPasswordToken == Some(token) && u.resetPasswordExpires.Some?
    && u.resetPasswordExpires.value > now
  }

  /** The user the reset lookup finds: the first one the token opens. */
  function FindOpener(users: seq<User>, token: string, now: int): (r: Option<nat>)
    ensures r.Some? ==> r.value < |users| && OpensReset(users[r.value], token, now)
    ensures r.None? <==> forall j :: 0 <= j < |users| ==> !OpensReset(users[j], token, now)
  {
    Find(users, (u: User) => OpensReset(u, token, now))
  }

  /** POST /reset-password/:token: the token must be stored and unexpired; the
      new password is then validated, hashed and stored, and both the token and
      its expiry are cleared. */
  function Reset(users: seq<User>, token: string, password: string, now: int,
                 hash: string -> string): (r: Outcome<seq<User>>)
    ensures (forall i :: 0 <= i < |users| ==> !OpensReset(users[i], token, now)) ==>
      r == Fail(400, InvalidReset)
    ensures r.Fail? ==> r == Fail(400, InvalidReset) || r == Fail(500, ServerError)
    ensures r.Ok? ==> exists i :: (0 <= i < |users| && OpensReset(users[i], token, now)
      && r.value == users[i := users[i].(password := hash(password), resetPasswordToken := None,
                                          resetPasswordExpires := None)])
  {
    match FindOpener(users, token, now)
    case None => Fail(400, InvalidReset)
    case Some(i) =>
      var u := users[i].(password := password, resetPasswordToken := None,
                         resetPasswordExpires := None);
      match Save(u, true, hash)
      case Fail(_, _) => Fail(500, ServerError)
      case Ok(saved) => Ok(users[i := saved])
  }

  /** No reset token is stored on two users. */
  predicate ResetTokensDistinct(users: seq<User>)
  {
    forall i, j :: 0 <= i < j < |users| && users[i].resetPasswordToken.Some? ==>
      users[i].resetPasswordToken != users[j].resetPasswordToken
  }

  /** A reset token works once, at any later time. */
  lemma ResetSingleUse(users: seq<User>, token: string, password: string, now: int, later: int,
                       again: string, hash: string -> string)
    requires ResetTokensDistinct(users)
    requires Reset(users, token, password, now, hash).Ok?
    ensures Reset(Reset(users, token, password, now, hash).value, token, again, later, hash)
         == Fail(400, InvalidReset)
  {
    var after := Reset(users, token, password, now, hash).value;
    var i :| 0 <= i < |users| && OpensReset(users[i], token, now)
             && after == users[i := users[i].(password := hash(password), resetPasswordToken := None,
                                               resetPasswordExpires := None)];
    forall j | 0 <= j < |after|
      ensures !OpensReset(after[j], token, later)
    {
      if j != i && j < i {
        assert users[j].resetPasswordToken != users[i].resetPasswordToken;
      } else if j != i {
        assert users[i].resetPasswordToken != users[j].resetPasswordToken;
      }
    }
  }

  /** A fresh reset token issued at `issued` opens exactly until one hour later:
      a reset at `now` succeeds if and only if `now` is before the expiry. */
  lemma ResetWithinTheHour(users: seq<User>, email: string, normalize: string -> string,
                           issued: int, token: string, now: int, password: string,
                           hash: string -> string)
    requires forall j :: 0 <= j < |users| ==> users[j].resetPasswordToken != Some(token)
    requires Forgot(users, email, normalize, issued, token).Ok?
    requires Utf16Length(password) >= MinPasswordLength
    ensures Reset(Forgot(users, email, normalize, issued, token).value, token, password, now, hash).Ok?
        <==> now < issued + ResetWindow
  {
    var i := FindByEmail(users, StoredEmail(normalize(email))).value;
    var after := Forgot(users, email, normalize, issued, token).value;
    assert after[i] == users[i].(resetPasswordToken := Some(token),
                                 resetPasswordExpires := Some(issued + ResetWindow));
    forall j | 0 <= j < |after| && j != i
      ensures after[j].resetPasswordToken != Some(token)
    {
      assert after[j] == users[j];
    }
    ResetOnlyHolder(after, i, token, issued + ResetWindow, now, password, hash);
  }

  /** When exactly one user holds a token, a reset with it succeeds if and only
      if it comes before that user's expiry. */
  lemma ResetOnlyHolder(users: seq<User>, i: nat, token: string, expires: int, now: int,
                        password: string, hash: string -> string)
    requires i < |users| && Valid(users[i], false) && Utf16Length(password) >= MinPasswordLength
    requires users[i].resetPasswordToken == Some(token)
    requires users[i].resetPasswordExpires == Some(expires)
    requires forall j :: 0 <= j < |users| && j != i ==> users[j].resetPasswordToken != Some(token)
    ensures Reset(users, token, password, now, hash).Ok? <==> now < expires
  {
    if now < expires {
      assert OpensReset(users[i], token, now);
      assert FindOpener(users, token, now) == Some(i);
      var u := users[i].(password := password, resetPasswordToken := None,
                         resetPasswordExpires := None);
      assert Valid(u, true);
    } else {
      assert forall j :: 0 <= j < |users| ==> !OpensReset(users[j], token, now);
    }
  }

  /** The keys PATCH /me accepts. */
  const ProfileKeys: set<string> := {"firstName", "lastName", "phone", "preferences"}

  /** A name as the schema stores it: a string, trimmed, that must not end up
      empty. */
  function CastName(v: Json): (r: Option<string>)
    ensures r.Some? <==> v.JStr? && !AllWhitespace(v.s)
    ensures r.Some? ==> r.value == Trim(v.s)
  {
    TrimEmptyIff(if v.JStr? then v.s else "");
    if v.JStr? && Trim(v.s) != [] then Some(Trim(v.s)) else None
  }

  /** The phone as stored: a trimmed string, or cleared by `null`. */
  function CastPhone(v: Json): (r: Option<Option<string>>)
    ensures r.Some? <==> v.JStr? || v.JNull?
    ensures v.JStr? ==> r == Some(Some(Trim(v.s)))
    ensures v.JNull? ==> r == Some(None)
  {
    match v
    case JStr(s) => Some(Some(Trim(s)))
    case JNull => Some(None)
    case _ => None
  }

  /** Whether the schema takes `v` for profile key `k`: names as non-blank
      text, the phone as text or `null`, preferences as the nested schema
      object allows. */
  predicate ProfileValueOk(k: string, v: Json)
  {
    if k == "firstName" || k == "lastName" then CastName(v).Some?
    else if k == "phone" then CastPhone(v).Some?
    else PreferencesOk(v)
  }

  /** PATCH /me. Any key outside the four is a 400 with no change; a value the
      schema rejects is a 400; otherwise exactly the supplied keys change. */
  function PatchMe(me: User, body: map<string, Json>): (r: Outcome<User>)
    ensures !OnlyAllowedKeys(body, ProfileKeys) ==> r == Fail(400, InvalidUpdates)
    ensures r.Fail? ==> r.code == 400
    ensures r.Ok? <==> (OnlyAllowedKeys(body, ProfileKeys)
      && forall k :: k in body ==> ProfileValueOk(k, body[k]))
    ensures r.Ok? ==> r.value.(firstName := me.firstName, lastName := me.lastName,
                               phone := me.phone, preferences := me.preferences) == me
    ensures r.Ok? ==>
      && ("firstName" in body ==> r.value.firstName == Trim(body["firstName"].s))
      && ("firstName" !in body ==> r.value.firstName == me.firstName)
      && ("lastName" in body ==> r.value.lastName == Trim(body["lastName"].s))
      && ("lastName" !in body ==> r.value.lastName == me.lastName)
      && ("phone" in body ==> r.value.phone == CastPhone(body["phone"]).value)
      && ("phone" !in body ==> r.value.phone == me.phone)
      && ("preferences" in body ==> r.value.preferences == body["preferences"])
      && ("preferences" !in body ==> r.value.preferences == me.preferences)
  {
    if !OnlyAllowedKeys(body, ProfileKeys) then Fail(400, InvalidUpdates)
    else if exists k :: k in body && !ProfileValueOk(k, body[k]) then Fail(400, ValidationFailed)
    else
      Ok(me.(
        firstName := if "firstName" in body then CastName(body["firstName"]).value else me.firstName,
        lastName := if "lastName" in body then CastName(body["lastName"]).value else me.lastName,
        phone := if "phone" in body then CastPhone(body["phone"]).value else me.phone,
        preferences := if "preferences" in body then body["preferences"] else me.preferences))
  }

  /** An accepted profile update keeps the user saveable, and keeps the
      preferences within what their schema allows. */
  lemma PatchMeKeepsValid(me: User, body: map<string, Json>)
    requires Valid(me, false)
    requires PatchMe(me, body).Ok?
    ensures Valid(PatchMe(me, body).value, false)
    ensures PreferencesOk(me.preferences) ==> PreferencesOk(PatchMe(me, body).value.preferences)
  {
    if "preferences" in body {
      assert ProfileValueOk("preferences", body["preferences"]);
    }
    if "firstName" in body {
      assert ProfileValueOk("firstName", body["firstName"]);
    }
    if "lastName" in body {
      assert ProfileValueOk("lastName", body["lastName"]);
    }
  }

  /** A theme outside the enum, or a notification flag that is not a Boolean,
      is refused. */
  lemma PatchMeRefusesBadPreferences(me: User)
    ensures PatchMe(me, map["preferences" := JObj(map["theme" := JStr("blue")])])
         == Fail(400, ValidationFailed)
    ensures PatchMe(me, map["preferences" := JObj(map["notifications" := JObj(map["push" := JStr("maybe")])])])
         == Fail(400, ValidationFailed)
  {
    var t := map["preferences" := JObj(map["theme" := JStr("blue")])];
    assert !ProfileValueOk("preferences", t["preferences"]);
    var n := map["preferences" := JObj(map["notifications" := JObj(map["push" := JStr("maybe")])])];
    assert !ProfileValueOk("preferences", n["preferences"]);
  }

  /** An empty update changes nothing. */
  lemma PatchMeEmpty(me: User)
    ensures PatchMe(me, map[]) == Ok(me)
  {
  }
}

=== FILE: casts.dfy ===
/** Whether Mongoose can cast a request value into a schema path when it is
    assigned or saved. A value that fails is a cast error, which the routes
    answer with 400. The model checks that the cast succeeds and stores the
    value as the request gave it: it does not convert a number given for a
    text path into text, nor wrap a single value given for an array path. */
module Casts {

  import opened Common

  /** A `String` path takes strings, and numbers and booleans (as their text).
      It also takes an object carrying a string `_id` (the id is stored).
      `null` clears the path. Arrays and other objects fail. */
  predicate StringCastable(v: Json)
  {
    || v.JStr? || v.JNum? || v.JBool? || v.JNull?
    || (v.JObj? && "_id" in v.fields && v.fields["_id"].JStr?)
  }

  /** A `Number` path takes numbers, booleans (as 1 and 0), and the empty
      string and `null`, which both clear it. */
  predicate NumberCastable(v: Json)
  {
    v.JNum? || v.JBool? || v.JNull? || v == JStr("")
  }

  /** A `Boolean` path takes `true`, `false`, `1`, `0`, `"true"`, `"false"`,
      `"1"`, `"0"`, `"yes"` and `"no"`; `null` clears it. */
  predicate BooleanCastable(v: Json)
  {
    || v.JBool? || v.JNull?
    || (v.JNum? && (v.n == 1.0 || v.n == 0.0))
    || (v.JStr? && v.s in {"true", "false", "1", "0", "yes", "no"})
  }

  /** A `Date` path takes numbers (milliseconds) and strings; `null` clears it. */
  predicate DateCastable(v: Json)
  {
    v.JStr? || v.JNum? || v.JNull?
  }

  /** An `enum` validator passes an absent or `null` value and a listed string. */
  predicate EnumOk(v: Json, allowed: set<string>)
  {
    v.JNull? || (v.JStr? && v.s in allowed)
  }

  /** A nested path (a schema object, not a sub-document) takes an object or
      `null`; a key the request leaves out is not checked. */
  predicate NestedOk(v: Json)
  {
    v.JNull? || v.JObj?
  }

  /** The value at `key` of a nested object passes `ok`, or is not there. */
  predicate FieldPasses(o: map<string, Json>, key: string, ok: Json -> bool)
  {
    key in o ==> ok(o[key])
  }

  /** A `[String]` path: an array whose every element casts to a string. */
  predicate StringArray(v: Json)
  {
    v.JArr? && forall i :: 0 <= i < |v.items| ==> StringCastable(v.items[i])
  }

  /** One `{ url, caption }` image sub-document. */
  predicate ImageOk(v: Json)
  {
    v.JObj? && FieldPasses(v.fields, "url", StringCastable)
    && FieldPasses(v.fields, "caption", StringCastable)
  }

  /** An image list, as the property and the ticket schemas declare it. */
  predicate ImageList(v: Json)
  {
    v.JArr? && forall i :: 0 <= i < |v.items| ==> ImageOk(v.items[i])
  }
}

=== FILE: chat_model.dfy ===
/** The chat document and its read-state engine: `addMessage`, `markAsRead`,
    `getUnreadCount`, and `findOrCreateDirectChat` over the chat collection as
    a sequence. Dates are milliseconds since the epoch; the clock is a
    parameter. */
module ChatModel {

  import opened Common
  import opened Text
  import opened UserModel
  import opened Casts

  /** A read receipt. */
  datatype Receipt = Receipt(user: Id, readAt: int)

  datatype Message = Message(sender: Id, content: string, attachments: seq<Json>,
                             readBy: seq<Receipt>)

  datatype Participant = Participant(user: Id, role: Role)

  datatype ChatKind = Direct | PropertyChat | MaintenanceChat

  /** A chat. `maintenanceRequest` is the ticket a maintenance chat is about. */
  datatype Chat = Chat(
    id: Id,
    participants: seq<Participant>,
    property: Option<Id>,
    kind: ChatKind,
    title: Option<string>,
    messages: seq<Message>,
    lastMessage: int,
    isActive: bool,
    maintenanceRequest: Option<Id>)

  /** Whether `uid` holds a receipt for the message. */
  predicate HasRead(m: Message, uid: Id)
  {
    exists j :: 0 <= j < |m.readBy| && m.readBy[j].user == uid
  }

  /** The number of messages `uid` has not read. */
  function Unread(ms: seq<Message>, uid: Id): (n: nat)
    ensures n <= |ms|
  {
    if ms == [] then 0
    else Unread(ms[..|ms| - 1], uid) + (if HasRead(ms[|ms| - 1], uid) then 0 else 1)
  }

  /** Nothing is unread exactly when every message carries a receipt. */
  lemma {:induction false} UnreadZeroIff(ms: seq<Message>, uid: Id)
    ensures Unread(ms, uid) == 0 <==> forall i :: 0 <= i < |ms| ==> HasRead(ms[i], uid)
    decreases |ms|
  {
    if ms != [] {
      var init := ms[..|ms| - 1];
      UnreadZeroIff(init, uid);
      assert forall i :: 0 <= i < |init| ==> ms[i] == init[i];
    }
  }

  /** `getUnreadCount`. */
  function UnreadCount(c: Chat, uid: Id): (n: nat)
    ensures n <= |c.messages|
    ensures n == 0 <==> forall i :: 0 <= i < |c.messages| ==> HasRead(c.messages[i], uid)
  {
    UnreadZeroIff(c.messages, uid);
    Unread(c.messages, uid)
  }

  /** Counting over a message appended at the end. */
  lemma UnreadSnoc(ms: seq<Message>, m: Message, uid: Id)
    ensures Unread(ms + [m], uid) == Unread(ms, uid) + (if HasRead(m, uid) then 0 else 1)
  {
    assert (ms + [m])[..|ms|] == ms;
  }

  /** `addMessage`: one message at the end, read by its sender only, and the
      chat's last activity moved to `now`. The content is stored trimmed and
      must not be empty, and the attachments path is a list of strings, so an
      attachment that is not text, a number or a boolean fails the save; a
      failed save changes nothing. */
  function AddMessage(c: Chat, sender: Id, content: string, attachments: seq<Json>, now: int)
    : (r: Outcome<Chat>)
    ensures r.Ok? <==> !AllWhitespace(content) && StringArray(JArr(attachments))
    ensures r.Fail? ==> r == Fail(400, ValidationFailed)
    ensures r.Ok? ==>
      r.value.messages == c.messages + [Message(sender, Trim(content), attachments, [Receipt(sender, now)])]
    ensures r.Ok? ==> r.value.(messages := c.messages, lastMessage := c.lastMessage) == c
    ensures r.Ok? ==> r.value.lastMessage == now
  {
    TrimEmptyIff(content);
    var text := Trim(content);
    if text == [] || !StringArray(JArr(attachments)) then Fail(400, ValidationFailed)
    else
      Ok(c.(messages := c.messages + [Message(sender, text, attachments, [Receipt(sender, now)])],
            lastMessage := now))
  }

  /** A new message leaves its sender's unread count alone and adds one to
      everybody else's. */
  lemma AddMessageUnread(c: Chat, sender: Id, content: string, attachments: seq<Json>, now: int,
                         uid: Id)
    requires AddMessage(c, sender, content, attachments, now).Ok?
    ensures var d := AddMessage(c, sender, content, attachments, now).value;
      UnreadCount(d, uid) == UnreadCount(c, uid) + (if uid == sender then 0 else 1)
  {
    var m := Message(sender, Trim(content), attachments, [Receipt(sender, now)]);
    UnreadSnoc(c.messages, m, uid);
    assert m.readBy[0].user == sender;
  }

  /** One message as `markAsRead(uid)` leaves it: a receipt is appended unless
      `uid` has one already. */
  function ReadOne(m: Message, uid: Id, now: int): (r: Message)
    ensures HasRead(r, uid)
    ensures r.(readBy := m.readBy) == m
    ensures HasRead(m, uid) ==> r == m
    ensures !HasRead(m, uid) ==> r.readBy == m.readBy + [Receipt(uid, now)]
  {
    if HasRead(m, uid) then m
    else
      var r := m.(readBy := m.readBy + [Receipt(uid, now)]);
      assert r.readBy[|m.readBy|].user == uid;
      r
  }

  /** `markAsRead`: every message `uid` has not read gets one receipt. */
  function MarkAsRead(c: Chat, uid: Id, now: int): (r: Chat)
    ensures |r.messages| == |c.messages|
    ensures forall i :: 0 <= i < |c.messages| ==> r.messages[i] == ReadOne(c.messages[i], uid, now)
    ensures r.(messages := c.messages) == c
  {
    c.(messages := seq(|c.messages|, i requires 0 <= i < |c.messages| => ReadOne(c.messages[i], uid, now)))
  }

  /** After `markAsRead(uid)` nothing is unread by `uid`. */
  lemma MarkAsReadClears(c: Chat, uid: Id, now: int)
    ensures UnreadCount(MarkAsRead(c, uid, now), uid) == 0
  {
    var r := MarkAsRead(c, uid, now);
    assert forall i :: 0 <= i < |r.messages| ==> HasRead(r.messages[i], uid);
  }

  /** A second `markAsRead` by the same user adds no receipt at all. */
  lemma MarkAsReadIdempotent(c: Chat, uid: Id, t1: int, t2: int)
    ensures MarkAsRead(MarkAsRead(c, uid, t1), uid, t2) == MarkAsRead(c, uid, t1)
  {
    var once := MarkAsRead(c, uid, t1);
    var twice := MarkAsRead(once, uid, t2);
    assert twice.messages == once.messages;
  }

  /** Another user's receipts are untouched by a read. */
  lemma ReadOneKeepsOthers(m: Message, uid: Id, now: int, other: Id)
    requires other != uid
    ensures HasRead(ReadOne(m, uid, now), other) <==> HasRead(m, other)
  {
    var r := ReadOne(m, uid, now);
    if !HasRead(m, uid) {
      assert r.readBy == m.readBy + [Receipt(uid, now)];
      if HasRead(r, other) {
        var j :| 0 <= j < |r.readBy| && r.readBy[j].user == other;
        assert j < |m.readBy| && m.readBy[j] == r.readBy[j];
      }
      if HasRead(m, other) {
        var j :| 0 <= j < |m.readBy| && m.readBy[j].user == other;
        assert r.readBy[j] == m.readBy[j];
      }
    }
  }

  lemma {:induction false} UnreadOthers(ms: seq<Message>, rs: seq<Message>, uid: Id, now: int, other: Id)
    requires other != uid && |rs| == |ms|
    requires forall i :: 0 <= i < |ms| ==> rs[i] == ReadOne(ms[i], uid, now)
    ensures Unread(rs, other) == Unread(ms, other)
    decreases |ms|
  {
    if ms != [] {
      var n := |ms| - 1;
      var ms', rs' := ms[..n], rs[..n];
      assert forall i :: 0 <= i < |ms'| ==> rs'[i] == ReadOne(ms'[i], uid, now) by {
        forall i | 0 <= i < |ms'|
          ensures rs'[i] == ReadOne(ms'[i], uid, now)
        {
          assert rs'[i] == rs[i] && ms'[i] == ms[i];
        }
      }
      UnreadOthers(ms', rs', uid, now, other);
      ReadOneKeepsOthers(ms[n], uid, now, other);
      var bm := HasRead(ms[n], other);
      var br := HasRead(rs[n], other);
      assert bm == br;
      assert Unread(ms, other) == Unread(ms', other) + (if bm then 0 else 1);
      assert Unread(rs, other) == Unread(rs', other) + (if br then 0 else 1);
    }
  }

  /** `markAsRead(uid)` changes no other user's unread count. */
  lemma MarkAsReadKeepsOthers(c: Chat, uid: Id, now: int, other: Id)
    requires other != uid
    ensures UnreadCount(MarkAsRead(c, uid, now), other) == UnreadCount(c, other)
  {
    var r := MarkAsRead(c, uid, now);
    UnreadOthers(c.messages, r.messages, uid, now, other);
  }

  /** Whether `uid` is among the participants. */
  predicate IsParticipant(c: Chat, uid: Id)
  {
    exists j :: 0 <= j < |c.participants| && c.participants[j].user == uid
  }

  /** The `findOne` condition of `findOrCreateDirectChat`: a direct chat in
      which both users take part. */
  predicate IsDirectBetween(c: Chat, u1: Id, u2: Id)
  {
    c.kind == Direct && IsParticipant(c, u1) && IsParticipant(c, u2)
  }

  function FindDirectChat(chats: seq<Chat>, u1: Id, u2: Id): (r: Option<nat>)
    ensures r.Some? ==> r.value < |chats| && IsDirectBetween(chats[r.value], u1, u2)
    ensures r.None? <==> forall j :: 0 <= j < |chats| ==> !IsDirectBetween(chats[j], u1, u2)
  {
    Find(chats, (c: Chat) => IsDirectBetween(c, u1, u2))
  }

  function FindUser(users: seq<User>, uid: Id): (r: Option<nat>)
    ensures r.Some? ==> r.value < |users| && users[r.value].id == uid
    ensures r.None? <==> forall j :: 0 <= j < |users| ==> users[j].id != uid
  {
    Find(users, (u: User) => u.id == uid)
  }

  const UsersNotFound: string := "Users not found"
  /** The message of the ReferenceError raised by the un-imported `User`. */
  const UserNotDefined: string := "User is not defined"

  /** The chat collection after the call and the chat the call returns. */
  datatype Found = Found(chats: seq<Chat>, chat: Chat)

  /** The title of a new direct chat. */
  function DirectTitle(a: User, b: User): string
  {
    "Chat between " + a.firstName + " and " + b.firstName
  }

  /** `findOrCreateDirectChat`, with the user lookup the method intends: an
      existing direct chat between the two is returned as it is; otherwise
      both users must exist ("Users not found") and a new direct chat with
      exactly those two participants, in order and with their roles, is
      stored. */
  function FindOrCreateDirectChat(chats: seq<Chat>, users: seq<User>, u1: Id, u2: Id,
                                  newId: Id, now: int): (r: Outcome<Found>)
    ensures FindDirectChat(chats, u1, u2).Some? ==>
      r == Ok(Found(chats, chats[FindDirectChat(chats, u1, u2).value]))
    ensures FindDirectChat(chats, u1, u2).None? ==>
      (r.Fail? <==> FindUser(users, u1).None? || FindUser(users, u2).None?)
    ensures r.Fail? ==> r == Fail(400, UsersNotFound)
    ensures FindDirectChat(chats, u1, u2).None? && r.Ok? ==>
      && r.value.chats == chats + [r.value.chat]
      && r.value.chat.kind == Direct && r.value.chat.id == newId
      && r.value.chat.participants == [Participant(u1, users[FindUser(users, u1).value].role),
                                       Participant(u2, users[FindUser(users, u2).value].role)]
      && r.value.chat.messages == [] && r.value.chat.isActive
    ensures r.Ok? ==> IsDirectBetween(r.value.chat, u1, u2) && r.value.chat in r.value.chats
  {
    match FindDirectChat(chats, u1, u2)
    case Some(i) => Ok(Found(chats, chats[i]))
    case None =>
      match (FindUser(users, u1), FindUser(users, u2))
      case (Some(a), Some(b)) =>
        var chat := Chat(newId, [Participant(u1, users[a].role), Participant(u2, users[b].role)],
                         None, Direct, Some(Trim(DirectTitle(users[a], users[b]))), [], now, true, None);
        assert chat.participants[0].user == u1 && chat.participants[1].user == u2;
        Ok(Found(chats + [chat], chat))
      case _ => Fail(400, UsersNotFound)
  }

  /** Asking twice gives the same chat, and the second call stores nothing. */
  lemma DirectChatIsReused(chats: seq<Chat>, users: seq<User>, u1: Id, u2: Id, id1: Id, id2: Id,
                           t1: int, t2: int)
    requires FindOrCreateDirectChat(chats, users, u1, u2, id1, t1).Ok?
    ensures var first := FindOrCreateDirectChat(chats, users, u1, u2, id1, t1).value;
      var second := FindOrCreateDirectChat(first.chats, users, u1, u2, id2, t2);
      second.Ok? && second.value.chats == first.chats
  {
    var first := FindOrCreateDirectChat(chats, users, u1, u2, id1, t1).value;
    assert first.chat in first.chats;
    var k :| 0 <= k < |first.chats| && first.chats[k] == first.chat;
    assert IsDirectBetween(first.chats[k], u1, u2);
  }

  /** The method as written: when no chat exists yet, the user lookup goes
      through `User`, which the module never imports, so the call throws and
      nothing is stored. */
  function FindOrCreateDirectChatAsWritten(chats: seq<Chat>, u1: Id, u2: Id): (r: Outcome<Found>)
    ensures FindDirectChat(chats, u1, u2).Some? ==>
      r == Ok(Found(chats, chats[FindDirectChat(chats, u1, u2).value]))
    ensures FindDirectChat(chats, u1, u2).None? ==> r == Fail(400, UserNotDefined)
  {
    match FindDirectChat(chats, u1, u2)
    case Some(i) => Ok(Found(chats, chats[i]))
    case None => Fail(400, UserNotDefined)
  }

  /** As written, no direct chat can ever be created: whenever the intended
      method would store a new chat, the written one fails instead; the two
      agree whenever a chat exists already. */
  lemma DirectChatNeverCreatedAsWritten(chats: seq<Chat>, users: seq<User>, u1: Id, u2: Id,
                                        newId: Id, now: int)
    ensures FindOrCreateDirectChatAsWritten(chats, u1, u2).Ok? ==>
      FindOrCreateDirectChatAsWritten(chats, u1, u2).value.chats == chats
    ensures FindDirectChat(chats, u1, u2).Some? ==>
      FindOrCreateDirectChatAsWritten(chats, u1, u2) == FindOrCreateDirectChat(chats, users, u1, u2, newId, now)
    ensures (FindOrCreateDirectChat(chats, users, u1, u2, newId, now).Ok? &&
             |FindOrCreateDirectChat(chats, users, u1, u2, newId, now).value.chats| > |chats|) ==>
      FindOrCreateDirectChatAsWritten(chats, u1, u2) == Fail(400, UserNotDefined)
  {
  }
}

=== FILE: chat_routes.dfy ===
/** The chat routes over the chat collection as a sequence: the caller's chat
    list with unread counts, the participant-gated view, send, mark-read and
    archive routes, and the construction of property and maintenance chats.
    The caller is the user `auth` produced. */
module ChatRoutes {

  import opened Common
  import opened Text
  import opened UserModel
  import opened PropertyModel
  import opened AuthMiddleware
  import opened MaintenanceModel
  import opened MaintenanceRoutes
  import opened ChatModel
  import opened Casts

  const ChatNotFound: string := "Chat not found"
  /** The message of the ReferenceError raised by the un-imported `Maintenance`. */
  const MaintenanceNotDefined: string := "Maintenance is not defined"
  /** The messages of the TypeErrors raised by a populated reference whose
      document is gone. */
  const NullLandlord: string := "Cannot read properties of null (reading 'landlord')"
  const NullId: string := "Cannot read properties of null (reading '_id')"

  /** `Chat.findById`: the position of the chat with that id. */
  function FindChat(chats: seq<Chat>, id: Id): (r: Option<nat>)
    ensures r.Some? ==> r.value < |chats| && chats[r.value].id == id
    ensures r.None? <==> forall j :: 0 <= j < |chats| ==> chats[j].id != id
  {
    Find(chats, (c: Chat) => c.id == id)
  }

  predicate ChatIdsUnique(chats: seq<Chat>)
  {
    forall i, j :: 0 <= i < j < |chats| ==> chats[i].id != chats[j].id
  }

  // ---------------------------------------------------------------------------
  // GET /

  /** One entry of the chat list: the chat and the caller's unread count. */
  datatype Listed = Listed(chat: Chat, unreadCount: nat)

  /** GET /: the caller's active chats, each with the caller's unread count,
      in collection order (taken to be the route's most-recent-first order). */
  function ListChats(chats: seq<Chat>, uid: Id): (r: seq<Listed>)
    ensures |r| <= |chats|
    ensures forall e :: e in r ==>
      e.chat in chats && e.chat.isActive && IsParticipant(e.chat, uid) && e.unreadCount == UnreadCount(e.chat, uid)
    ensures forall c :: c in chats && c.isActive && IsParticipant(c, uid) ==> Listed(c, UnreadCount(c, uid)) in r
  {
    if chats == [] then []
    else
      var rest := ListChats(chats[1..], uid);
      assert forall c :: c in chats <==> c == chats[0] || c in chats[1..];
      if chats[0].isActive && IsParticipant(chats[0], uid)
      then [Listed(chats[0], UnreadCount(chats[0], uid))] + rest
      else rest
  }

  // ---------------------------------------------------------------------------
  // The participant gate

  /** The gate of the send, mark-read and archive routes: 404 for an unknown
      chat, 403 for a caller who is not a participant. */
  function Gate(chats: seq<Chat>, uid: Id, id: Id): (r: Outcome<nat>)
    ensures FindChat(chats, id).None? ==> r == Fail(404, ChatNotFound)
    ensures FindChat(chats, id).Some? && !IsParticipant(chats[FindChat(chats, id).value], uid) ==>
      r == Fail(403, AccessDenied)
    ensures r.Ok? <==> FindChat(chats, id).Some? && IsParticipant(chats[FindChat(chats, id).value], uid)
    ensures r.Ok? ==> r.value == FindChat(chats, id).value
  {
    match FindChat(chats, id)
    case None => Fail(404, ChatNotFound)
    case Some(i) => if IsParticipant(chats[i], uid) then Ok(i) else Fail(403, AccessDenied)
  }

  /** The view route populates the participants, so a participant whose user
      is gone makes the check throw when it is reached before a match. */
  function ParticipantScan(ps: seq<Participant>, users: seq<User>, uid: Id): (r: Scan)
    ensures r == Match ==> exists j :: 0 <= j < |ps| && ps[j].user == uid
    ensures r == NoMatch ==> forall j :: 0 <= j < |ps| ==> ps[j].user != uid
    ensures r == Throws ==> exists j :: 0 <= j < |ps| && FindUser(users, ps[j].user).None?
    ensures (forall j :: 0 <= j < |ps| ==> FindUser(users, ps[j].user).Some?) ==> r != Throws
  {
    if ps == [] then NoMatch
    else if FindUser(users, ps[0].user).None? then Throws
    else if ps[0].user == uid then Match
    else
      var r := ParticipantScan(ps[1..], users, uid);
      assert forall j :: 1 <= j < |ps| ==> ps[j] == ps[1..][j - 1];
      r
  }

  /** GET /:id: 404, then the populated participant check (403, or 500 when
      it throws), then every message the caller has not read gets a receipt;
      the answer is the updated chat. */
  function GetChat(chats: seq<Chat>, users: seq<User>, uid: Id, id: Id, now: int)
    : (r: Outcome<(seq<Chat>, Chat)>)
    ensures FindChat(chats, id).None? ==> r == Fail(404, ChatNotFound)
    ensures r.Fail? ==> r.code in {403, 404, 500}
    ensures r.Fail? && r.code == 403 ==> !IsParticipant(chats[FindChat(chats, id).value], uid)
    ensures r.Ok? ==>
      var i := FindChat(chats, id).value;
      && IsParticipant(chats[i], uid)
      && r.value.1 == MarkAsRead(chats[i], uid, now)
      && r.value.0 == chats[i := r.value.1]
  {
    match FindChat(chats, id)
    case None => Fail(404, ChatNotFound)
    case Some(i) =>
      match ParticipantScan(chats[i].participants, users, uid)
      case Throws => Fail(500, ServerError)
      case NoMatch => Fail(403, AccessDenied)
      case Match =>
        var c := MarkAsRead(chats[i], uid, now);
        Ok((chats[i := c], c))
  }

  /** When every participant's user exists, viewing is allowed exactly to
      participants, and afterwards the viewer has nothing unread. */
  lemma GetChatIff(chats: seq<Chat>, users: seq<User>, uid: Id, id: Id, now: int)
    requires FindChat(chats, id).Some?
    requires var c := chats[FindChat(chats, id).value];
      forall j :: 0 <= j < |c.participants| ==> FindUser(users, c.participants[j].user).Some?
    ensures GetChat(chats, users, uid, id, now).Ok? <==> IsParticipant(chats[FindChat(chats, id).value], uid)
    ensures GetChat(chats, users, uid, id, now).Ok? ==>
      UnreadCount(GetChat(chats, users, uid, id, now).value.1, uid) == 0
  {
    var i := FindChat(chats, id).value;
    MarkAsReadClears(chats[i], uid, now);
  }

  /** POST /:id/messages: the gate, then `addMessage` by the caller; a missing
      or blank content is a 400. The answer is the new message. */
  function SendMessage(chats: seq<Chat>, uid: Id, id: Id, content: Option<string>,
                       attachments: Option<seq<Json>>, now: int): (r: Outcome<(seq<Chat>, Message)>)
    ensures Gate(chats, uid, id).Fail? ==> SameFailure(r, Gate(chats, uid, id))
    ensures r.Ok? <==> Gate(chats, uid, id).Ok? && content.Some? && !AllWhitespace(content.value)
                       && (attachments.Some? ==> StringArray(JArr(attachments.value)))
    ensures r.Fail? ==> r.code in {400, 403, 404}
    ensures r.Ok? ==>
      var i := FindChat(chats, id).value;
      var sent := AddMessage(chats[i], uid, content.value,
                             if attachments.Some? then attachments.value else [], now);
      && sent.Ok?
      && r.value.0 == chats[i := sent.value]
      && r.value.1 == Message(uid, Trim(content.value),
                              if attachments.Some? then attachments.value else [], [Receipt(uid, now)])
  {
    match Gate(chats, uid, id)
    case Fail(c, e) => Fail(c, e)
    case Ok(i) =>
      if content.None? then Fail(400, ValidationFailed)
      else
        var files := if attachments.Some? then attachments.value else [];
        match AddMessage(chats[i], uid, content.value, files, now)
        case Fail(c, e) => Fail(c, e)
        case Ok(d) => Ok((chats[i := d], d.messages[|d.messages| - 1]))
  }

  /** POST /:id/read. */
  function MarkRead(chats: seq<Chat>, uid: Id, id: Id, now: int): (r: Outcome<seq<Chat>>)
    ensures Gate(chats, uid, id).Fail? ==> SameFailure(r, Gate(chats, uid, id))
    ensures r.Ok? <==> Gate(chats, uid, id).Ok?
    ensures r.Ok? ==>
      var i := FindChat(chats, id).value;
      r.value == chats[i := MarkAsRead(chats[i], uid, now)]
  {
    match Gate(chats, uid, id)
    case Fail(c, e) => Fail(c, e)
    case Ok(i) => Ok(chats[i := MarkAsRead(chats[i], uid, now)])
  }

  /** POST /:id/archive: the chat is kept, only no longer active. */
  function Archive(chats: seq<Chat>, uid: Id, id: Id): (r: Outcome<seq<Chat>>)
    ensures Gate(chats, uid, id).Fail? ==> SameFailure(r, Gate(chats, uid, id))
    ensures r.Ok? <==> Gate(chats, uid, id).Ok?
    ensures r.Ok? ==>
      var i := FindChat(chats, id).value;
      && |r.value| == |chats|
      && !r.value[i].isActive && r.value[i].(isActive := chats[i].isActive) == chats[i]
      && (forall j :: 0 <= j < |chats| && j != i ==> r.value[j] == chats[j])
  {
    match Gate(chats, uid, id)
    case Fail(c, e) => Fail(c, e)
    case Ok(i) => Ok(chats[i := chats[i].(isActive := false)])
  }

  /** A caller who does not take part in an existing chat is refused with 403
      by every gated route, and nothing is stored. */
  lemma OutsidersAreTurnedAway(chats: seq<Chat>, users: seq<User>, uid: Id, id: Id,
                               content: Option<string>, attachments: Option<seq<Json>>, now: int)
    requires FindChat(chats, id).Some? && !IsParticipant(chats[FindChat(chats, id).value], uid)
    ensures SendMessage(chats, uid, id, content, attachments, now) == Fail(403, AccessDenied)
    ensures MarkRead(chats, uid, id, now) == Fail(403, AccessDenied)
    ensures Archive(chats, uid, id) == Fail(403, AccessDenied)
    ensures GetChat(chats, users, uid, id, now).Fail?
  {
  }

  /** With unique chat ids, an archived chat drops out of every user's list,
      and every other listed chat stays listed. */
  lemma ArchivedChatIsNotListed(chats: seq<Chat>, uid: Id, id: Id, viewer: Id)
    requires ChatIdsUnique(chats)
    requires Archive(chats, uid, id).Ok?
    ensures forall e :: e in ListChats(Archive(chats, uid, id).value, viewer) ==> e.chat.id != id
    ensures forall e :: e in ListChats(chats, viewer) && e.chat.id != id ==>
      e in ListChats(Archive(chats, uid, id).value, viewer)
  {
    var after := Archive(chats, uid, id).value;
    var i := FindChat(chats, id).value;
    forall e | e in ListChats(after, viewer)
      ensures e.chat.id != id
    {
      var k :| 0 <= k < |after| && after[k] == e.chat;
      if k != i {
        assert after[k] == chats[k];
      }
    }
    forall e | e in ListChats(chats, viewer) && e.chat.id != id
      ensures e in ListChats(after, viewer)
    {
      var k :| 0 <= k < |chats| && chats[k] == e.chat;
      assert k != i && after[k] == chats[k];
    }
  }

  // ---------------------------------------------------------------------------
  // Building property and maintenance chats

  /** The chat title: the body's title when it is not blank after trimming,
      otherwise the default; the schema stores it trimmed. */
  function ChatTitle(given: Option<string>, fallback: string): (t: string)
    ensures given.Some? && !AllWhitespace(given.value) ==> t == Trim(given.value)
    ensures (given.None? || AllWhitespace(given.value)) ==> t == Trim(fallback)
  {
    TrimEmptyIff(if given.Some? then given.value else []);
    TrimIdempotent(if given.Some? then given.value else []);
    var chosen := if given.Some? && Trim(given.value) != [] then Trim(given.value) else fallback;
    Trim(chosen)
  }

  const PropertyChatPrefix: string := "Chat for "
  const MaintenanceChatPrefix: string := "Chat for maintenance: "

  /** The active tenancies, in order. */
  function ActiveTenancies(ts: seq<Tenancy>): (r: seq<Tenancy>)
    ensures |r| <= |ts|
    ensures forall t :: t in r <==> t in ts && t.status == Active
  {
    if ts == [] then []
    else
      var rest := ActiveTenancies(ts[1..]);
      assert forall t :: t in ts <==> t == ts[0] || t in ts[1..];
      if ts[0].status == Active then [ts[0]] + rest else rest
  }

  /** Keeping the active tenancies commutes with concatenation, so their
      order is the order of the property's tenancy list. */
  lemma {:induction false} ActiveTenanciesAppend(a: seq<Tenancy>, b: seq<Tenancy>)
    ensures ActiveTenancies(a + b) == ActiveTenancies(a) + ActiveTenancies(b)
    decreases |a|
  {
    if a != [] {
      assert (a + b)[1..] == a[1..] + b;
      ActiveTenanciesAppend(a[1..], b);
    } else {
      assert a + b == b;
    }
  }

  predicate AllNamed(ts: seq<Tenancy>)
  {
    forall i :: 0 <= i < |ts| ==> ts[i].user.Some?
  }

  /** One tenant participant per tenancy. */
  function TenantParticipants(ts: seq<Tenancy>): (ps: seq<Participant>)
    requires AllNamed(ts)
    ensures |ps| == |ts|
    ensures forall i :: 0 <= i < |ts| ==> ps[i] == Participant(ts[i].user.value, Tenant)
  {
    seq(|ts|, i requires 0 <= i < |ts| => Participant(ts[i].user.value, Tenant))
  }

  /** POST /property after the lookup: the landlord, then every active tenant
      in order. An active tenancy without a user gives a participant without
      one, which the save rejects. */
  function PropertyParticipants(p: Property): (r: Option<seq<Participant>>)
    ensures r.Some? <==> AllNamed(ActiveTenancies(p.tenants))
    ensures r.Some? ==>
      && |r.value| == 1 + |ActiveTenancies(p.tenants)|
      && r.value[0] == Participant(p.landlord, Landlord)
      && r.value[1..] == TenantParticipants(ActiveTenancies(p.tenants))
  {
    var active := ActiveTenancies(p.tenants);
    if AllNamed(active) then Some([Participant(p.landlord, Landlord)] + TenantParticipants(active))
    else None
  }

  /** POST /property: 404 for a missing property; the caller must be an admin,
      the landlord or an active tenant (403; a tenancy without a user met by
      the check answers 400); then the property chat is stored. */
  function CreatePropertyChat(chats: seq<Chat>, props: seq<Property>, caller: User,
                              propertyId: Option<Id>, title: Option<string>, newId: Id, now: int)
    : (r: Outcome<Found>)
    ensures (propertyId.None? || FindProperty(props, propertyId.value).None?) ==>
      r == Fail(404, PropertyNotFound)
    ensures r.Fail? ==> r.code in {400, 403, 404}
    ensures r.Ok? ==>
      && propertyId.Some? && FindProperty(props, propertyId.value).Some?
      && var p := props[FindProperty(props, propertyId.value).value];
      && (caller.role == Admin || HasPropertyAccess(p, caller.id))
      && PropertyParticipants(p).Some?
      && r.value.chats == chats + [r.value.chat]
      && r.value.chat == Chat(newId, PropertyParticipants(p).value, Some(p.id), PropertyChat,
                              Some(ChatTitle(title, PropertyChatPrefix + p.title)), [], now, true, None)
    ensures (propertyId.Some? && FindProperty(props, propertyId.value).Some? &&
             AllHaveUsers(props[FindProperty(props, propertyId.value).value].tenants)) ==>
      var p := props[FindProperty(props, propertyId.value).value];
      (r.Ok? <==> caller.role == Admin || HasPropertyAccess(p, caller.id))
  {
    if propertyId.None? then Fail(404, PropertyNotFound)
    else
      match FindProperty(props, propertyId.value)
      case None => Fail(404, PropertyNotFound)
      case Some(k) =>
        var p := props[k];
        var scan := if caller.role == Admin || p.landlord == caller.id then Match
                    else ActiveTenantScan(p.tenants, caller.id);
        if scan == Throws then Fail(400, UndefinedTenant)
        else if scan == NoMatch then Fail(403, PropertyDenied)
        else
          match PropertyParticipants(p)
          case None => Fail(400, ValidationFailed)
          case Some(ps) =>
            var chat := Chat(newId, ps, Some(p.id), PropertyChat,
                             Some(ChatTitle(title, PropertyChatPrefix + p.title)), [], now, true, None);
            Ok(Found(chats + [chat], chat))
  }

  /** A tenancy list whose users are all named makes every active tenant a
      participant of a new property chat, and nobody else but the landlord. */
  lemma PropertyChatMembers(p: Property, uid: Id)
    requires AllHaveUsers(p.tenants)
    ensures PropertyParticipants(p).Some?
    ensures var ps := PropertyParticipants(p).value;
      (exists j :: 0 <= j < |ps| && ps[j].user == uid) <==>
      (uid == p.landlord || exists i :: 0 <= i < |p.tenants| && IsActiveTenant(p.tenants[i], uid))
  {
    ActiveAllNamed(p.tenants);
    var ps := PropertyParticipants(p).value;
    if exists j :: 0 <= j < |ps| && ps[j].user == uid {
      var j :| 0 <= j < |ps| && ps[j].user == uid;
      MemberIsLandlordOrTenant(p, uid, j);
    }
    if uid == p.landlord || exists i :: 0 <= i < |p.tenants| && IsActiveTenant(p.tenants[i], uid) {
      LandlordOrTenantIsMember(p, uid);
    }
  }

  /** Keeping the active tenancies keeps every tenancy's user named. */
  lemma ActiveAllNamed(ts: seq<Tenancy>)
    requires AllHaveUsers(ts)
    ensures AllNamed(ActiveTenancies(ts))
  {
    var active := ActiveTenancies(ts);
    forall i | 0 <= i < |active|
      ensures active[i].user.Some?
    {
      assert active[i] in ts;
    }
  }

  /** A participant at position `j` is the landlord or an active tenant. */
  lemma MemberIsLandlordOrTenant(p: Property, uid: Id, j: nat)
    requires AllNamed(ActiveTenancies(p.tenants))
    requires j < |PropertyParticipants(p).value| && PropertyParticipants(p).value[j].user == uid
    ensures uid == p.landlord || exists i :: 0 <= i < |p.tenants| && IsActiveTenant(p.tenants[i], uid)
  {
    var ps := PropertyParticipants(p).value;
    var active := ActiveTenancies(p.tenants);
    if j > 0 {
      assert ps[j] == ps[1..][j - 1];
      var t := active[j - 1];
      assert t in p.tenants && t.status == Active;
      var i :| 0 <= i < |p.tenants| && p.tenants[i] == t;
      assert IsActiveTenant(p.tenants[i], uid);
    }
  }

  /** The landlord and every active tenant are participants. */
  lemma LandlordOrTenantIsMember(p: Property, uid: Id)
    requires AllNamed(ActiveTenancies(p.tenants))
    requires uid == p.landlord || exists i :: 0 <= i < |p.tenants| && IsActiveTenant(p.tenants[i], uid)
    ensures exists j :: 0 <= j < |PropertyParticipants(p).value| && PropertyParticipants(p).value[j].user == uid
  {
    var ps := PropertyParticipants(p).value;
    var active := ActiveTenancies(p.tenants);
    if uid == p.landlord {
      assert ps[0].user == uid;
    } else {
      var i :| 0 <= i < |p.tenants| && IsActiveTenant(p.tenants[i], uid);
      assert p.tenants[i] in active;
      var k :| 0 <= k < |active| && active[k] == p.tenants[i];
      assert ps[k + 1] == ps[1..][k];
    }
  }

  /** POST /maintenance as written: the handler's first step uses
      `Maintenance`, which the module never imports, so every request is
      answered with 400 and nothing is stored. */
  function CreateMaintenanceChatAsWritten(chats: seq<Chat>): (r: Outcome<Found>)
    ensures r.Fail? && r.code == 400
  {
    Fail(400, MaintenanceNotDefined)
  }

  /** The participants of a maintenance chat: the landlord, the requester (as
      a tenant) and, when the ticket has an assignee whose user exists, the
      assignee (as an admin). */
  function MaintenanceParticipants(landlord: Id, m: Maintenance, users: seq<User>): (ps: seq<Participant>)
    ensures |ps| == 2 || |ps| == 3
    ensures ps[..2] == [Participant(landlord, Landlord), Participant(m.requestedBy, Tenant)]
    ensures |ps| == 3 <==> m.assignedTo.Some? && FindUser(users, m.assignedTo.value).Some?
    ensures |ps| == 3 ==> ps[2] == Participant(m.assignedTo.value, Admin)
  {
    var base := [Participant(landlord, Landlord), Participant(m.requestedBy, Tenant)];
    if m.assignedTo.Some? && FindUser(users, m.assignedTo.value).Some?
    then base + [Participant(m.assignedTo.value, Admin)]
    else base
  }

  /** POST /maintenance with the ticket lookup the handler intends. The
      ticket comes with its property, requester and assignee populated: a
      missing ticket is a 404; a deleted property or requester makes the
      handler throw (400); a deleted assignee is left out. Otherwise the
      caller must be an admin, the landlord, the requester or the assignee
      (403), and the chat is stored. */
  function CreateMaintenanceChat(chats: seq<Chat>, tickets: seq<Maintenance>, props: seq<Property>,
                                 users: seq<User>, caller: User, maintenanceId: Option<Id>,
                                 title: Option<string>, newId: Id, now: int): (r: Outcome<Found>)
    ensures (maintenanceId.None? || FindTicket(tickets, maintenanceId.value).None?) ==>
      r == Fail(404, TicketNotFound)
    ensures r.Fail? ==> r.code in {400, 403, 404}
    ensures r.Ok? ==>
      && maintenanceId.Some? && FindTicket(tickets, maintenanceId.value).Some?
      && var m := tickets[FindTicket(tickets, maintenanceId.value).value];
      && FindProperty(props, m.property).Some?
      && var p := props[FindProperty(props, m.property).value];
      && CanAccess(caller, p, m)
      && r.value.chats == chats + [r.value.chat]
      && r.value.chat == Chat(newId, MaintenanceParticipants(p.landlord, m, users), Some(p.id),
                              MaintenanceChat, Some(ChatTitle(title, MaintenanceChatPrefix + m.title)),
                              [], now, true, Some(m.id))
  {
    if maintenanceId.None? then Fail(404, TicketNotFound)
    else
      match FindTicket(tickets, maintenanceId.value)
      case None => Fail(404, TicketNotFound)
      case Some(i) =>
        var m := tickets[i];
        match FindProperty(props, m.property)
        case None => Fail(400, NullLandlord)
        case Some(k) =>
          var p := props[k];
          if FindUser(users, m.requestedBy).None? then Fail(400, NullId)
          else if !(caller.role == Admin || p.landlord == caller.id || m.requestedBy == caller.id
                    || (m.assignedTo.Some? && FindUser(users, m.assignedTo.value).Some?
                        && m.assignedTo.value == caller.id))
          then Fail(403, AccessDenied)
          else
            var chat := Chat(newId, MaintenanceParticipants(p.landlord, m, users), Some(p.id),
                             MaintenanceChat, Some(ChatTitle(title, MaintenanceChatPrefix + m.title)),
                             [], now, true, Some(m.id));
            Ok(Found(chats + [chat], chat))
  }

  /** Every maintenance chat the intended handler would create is refused by
      the handler as written. */
  lemma MaintenanceChatNeverCreatedAsWritten(chats: seq<Chat>, tickets: seq<Maintenance>,
                                             props: seq<Property>, users: seq<User>, caller: User,
                                             maintenanceId: Option<Id>, title: Option<string>,
                                             newId: Id, now: int)
    ensures CreateMaintenanceChat(chats, tickets, props, users, caller, maintenanceId, title, newId, now).Ok? ==>
      CreateMaintenanceChatAsWritten(chats) == Fail(400, MaintenanceNotDefined)
  {
  }

  /** When the requester and the caller exist, the intended handler admits
      exactly the callers the ticket routes admit. */
  lemma MaintenanceChatFollowsAccessRule(chats: seq<Chat>, tickets: seq<Maintenance>,
                                         props: seq<Property>, users: seq<User>, caller: User,
                                         id: Id, title: Option<string>, newId: Id, now: int)
    requires FindTicket(tickets, id).Some?
    requires FindProperty(props, tickets[FindTicket(tickets, id).value].property).Some?
    requires FindUser(users, tickets[FindTicket(tickets, id).value].requestedBy).Some?
    requires FindUser(users, caller.id).Some?
    ensures CreateMaintenanceChat(chats, tickets, props, users, caller, Some(id), title, newId, now).Ok? <==>
      Locate(tickets, props, caller, id, AccessRule).Ok?
  {
  }
}

=== FILE: common.dfy ===
/** Shared vocabulary of the model: optional values, HTTP outcomes, identifiers,
    user roles and the JSON values that request bodies carry. */
module Common {

  /** A value that may be absent (JavaScript `undefined`/`null`, or a failed lookup). */
  datatype Option<+T> = None | Some(value: T)

  /** The outcome of a route handler or a save: the new value, or an HTTP status
      code with the error text sent back. A failed outcome changes nothing. */
  datatype Outcome<+T> = Ok(value: T) | Fail(code: int, error: string)

  /** Error texts several handlers share. `ValidationFailed` stands for the
      message the database layer builds when a cast or a schema check fails;
      the model does not spell that message out. */
  const ServerError: string := "Server error"
  const InvalidUpdates: string := "Invalid updates"
  const ValidationFailed: string := "Validation failed"

  /** Whether `r` fails exactly as `o` does (a guard's failure passed on by a
      handler of another result type). */
  predicate SameFailure<T, U>(r: Outcome<T>, o: Outcome<U>)
  {
    r.Fail? && o.Fail? && r.code == o.code && r.error == o.error
  }

  /** Database identifiers (ObjectIds) as their string form. */
  type Id = string

  /** The role enum shared by users and chat participants. */
  datatype Role = Landlord | Tenant | Admin

  function RoleName(r: Role): string
  {
    match r
    case Landlord => "landlord"
    case Tenant => "tenant"
    case Admin => "admin"
  }

  function ParseRole(s: string): (r: Option<Role>)
    ensures r.Some? ==> RoleName(r.value) == s
    ensures forall x: Role :: s == RoleName(x) ==> r == Some(x)
  {
    if s == "landlord" then Some(Landlord)
    else if s == "tenant" then Some(Tenant)
    else if s == "admin" then Some(Admin)
    else None
  }

  /** A parsed JSON value, as found in request bodies. */
  datatype Json =
    | JNull
    | JBool(b: bool)
    | JNum(n: real)
    | JStr(s: string)
    | JArr(items: seq<Json>)
    | JObj(fields: map<string, Json>)

  /** A query-string parameter counts (is truthy) when it is present and not
      empty. */
  predicate Given(p: Option<string>)
  {
    p.Some? && p.value != []
  }

  /** The PATCH handlers accept a body only when every key is whitelisted. */
  predicate OnlyAllowedKeys(body: map<string, Json>, allowed: set<string>)
  {
    forall k :: k in body ==> k in allowed
  }

  /** `findOne`/`Array.prototype.find` over a collection: the position of the
      first element satisfying `p` at or after `from`. */
  function FirstIndex<T>(xs: seq<T>, p: T -> bool, from: nat): (r: Option<nat>)
    ensures r.Some? ==> from <= r.value < |xs| && p(xs[r.value])
    ensures r.Some? ==> forall j :: from <= j < r.value ==> !p(xs[j])
    ensures r.None? ==> forall j :: from <= j < |xs| ==> !p(xs[j])
    decreases |xs| - from
  {
    if from >= |xs| then None
    else if p(xs[from]) then Some(from)
    else FirstIndex(xs, p, from + 1)
  }

  /** The first match over the whole collection. */
  function Find<T>(xs: seq<T>, p: T -> bool): (r: Option<nat>)
    ensures r.Some? ==> r.value < |xs| && p(xs[r.value])
    ensures r.Some? ==> forall j :: 0 <= j < r.value ==> !p(xs[j])
    ensures r.None? <==> forall j :: 0 <= j < |xs| ==> !p(xs[j])
  {
    FirstIndex(xs, p, 0)
  }
}

=== FILE: csv_parser.dfy ===
/** Required-field checks on parsed CSV rows (`validatePropertyCSV`,
    `validateTenantCSV`). A row is the header-keyed record the CSV parser
    produces; a field is missing when it is absent or empty (falsy). */
module CsvParser {

  import opened Text

  type Row = map<string, string>

  /** One missing field, with its 1-based row number. */
  datatype MissingField = MissingField(row: nat, field: string)

  predicate Present(row: Row, field: string)
  {
    field in row && row[field] != ""
  }

  /** `Row ${index + 1}: Missing required field "${field}"`. */
  function Message(e: MissingField): (m: string)
    ensures |m| > 5 + |e.field|
    ensures m[..4] == "Row " && IsDigit(m[4])
    ensures m[|m| - |e.field| - 1..] == e.field + "\""
  {
    var n := NatToString(e.row);
    var m := "Row " + n + ": Missing required field \"" + e.field + "\"";
    assert m[4] == n[0];
    assert m[|m| - |e.field| - 1..] == e.field + "\"";
    m
  }

  predicate Distinct(fields: seq<string>)
  {
    forall i, j :: 0 <= i < j < |fields| ==> fields[i] != fields[j]
  }

  /** The field-by-field scan of one row: each missing field, in declared order. */
  function Missing(row: Row, number: nat, fields: seq<string>): seq<MissingField>
  {
    if fields == [] then []
    else
      (if Present(row, fields[0]) then [] else [MissingField(number, fields[0])])
      + Missing(row, number, fields[1..])
  }

  /** The scan reports exactly the fields the row lacks, each once when the
      declared fields are distinct. */
  lemma {:induction false} MissingFacts(row: Row, number: nat, fields: seq<string>)
    ensures forall e :: e in Missing(row, number, fields) <==>
      e.row == number && e.field in fields && !Present(row, e.field)
    ensures Distinct(fields) ==>
      forall a, b :: 0 <= a < b < |Missing(row, number, fields)| ==>
        Missing(row, number, fields)[a] != Missing(row, number, fields)[b]
    ensures |Missing(row, number, fields)| <= |fields|
  {
    if fields != [] {
      MissingFacts(row, number, fields[1..]);
      var rest := Missing(row, number, fields[1..]);
      assert forall e :: e in rest ==> e.field in fields[1..];
    }
  }

  /** The scan follows the declared field order: splitting the field list
      anywhere splits the scan the same way. */
  lemma {:induction false} MissingAppend(row: Row, number: nat, f1: seq<string>, f2: seq<string>)
    ensures Missing(row, number, f1 + f2) == Missing(row, number, f1) + Missing(row, number, f2)
  {
    if f1 == [] {
      assert f1 + f2 == f2;
    } else {
      assert (f1 + f2)[0] == f1[0] && (f1 + f2)[1..] == f1[1..] + f2;
      MissingAppend(row, number, f1[1..], f2);
    }
  }

  /** The inner loop: the missing fields of one row. */
  function RowErrors(row: Row, number: nat, fields: seq<string>): (r: seq<MissingField>)
    ensures forall e :: e in r <==> e.row == number && e.field in fields && !Present(row, e.field)
    ensures Distinct(fields) ==> forall a, b :: 0 <= a < b < |r| ==> r[a] != r[b]
    ensures |r| <= |fields|
  {
    MissingFacts(row, number, fields);
    Missing(row, number, fields)
  }

  /** The errors of one row follow the declared field order: splitting the
      field list anywhere splits the errors the same way, and a single field
      yields its error exactly when the row lacks it. */
  lemma {:induction false} RowErrorsInFieldOrder(row: Row, number: nat, f1: seq<string>, f2: seq<string>)
    ensures RowErrors(row, number, f1 + f2) == RowErrors(row, number, f1) + RowErrors(row, number, f2)
    ensures |f1| == 1 ==>
      RowErrors(row, number, f1) == if Present(row, f1[0]) then [] else [MissingField(number, f1[0])]
  {
    MissingAppend(row, number, f1, f2);
    if |f1| == 1 {
      assert f1[1..] == [];
    }
  }

  /** The outer loop over rows: row-major order, rows numbered from 1. */
  function DataErrors(data: seq<Row>, fields: seq<string>): (r: seq<MissingField>)
    ensures forall e :: e in r ==> 1 <= e.row <= |data|
    ensures forall a, b :: 0 <= a < b < |r| ==> r[a].row <= r[b].row
    ensures forall e :: e in r <==> 1 <= e.row <= |data| && e.field in fields && !Present(data[e.row - 1], e.field)
    ensures Distinct(fields) ==> forall a, b :: 0 <= a < b < |r| ==> r[a] != r[b]
  {
    if data == [] then []
    else
      var n := |data|;
      var front := DataErrors(data[..n - 1], fields);
      var last := RowErrors(data[n - 1], n, fields);
      forall e
        ensures e in front + last <==>
          1 <= e.row <= n && e.field in fields && !Present(data[e.row - 1], e.field)
      {
        if 1 <= e.row < n {
          assert data[..n - 1][e.row - 1] == data[e.row - 1];
        }
      }
      AppendLastRow(front, last, n);
      front + last
  }

  /** The errors of one row, in the order they appear in a list. */
  function OfRow(xs: seq<MissingField>, n: nat): (r: seq<MissingField>)
    ensures |r| <= |xs|
    ensures forall e :: e in r <==> e in xs && e.row == n
  {
    if xs == [] then []
    else (if xs[0].row == n then [xs[0]] else []) + OfRow(xs[1..], n)
  }

  lemma {:induction false} OfRowAppend(a: seq<MissingField>, b: seq<MissingField>, n: nat)
    ensures OfRow(a + b, n) == OfRow(a, n) + OfRow(b, n)
  {
    if a == [] {
      assert a + b == b;
    } else {
      assert (a + b)[0] == a[0] && (a + b)[1..] == a[1..] + b;
      OfRowAppend(a[1..], b, n);
    }
  }

  lemma {:induction false} OfRowUniform(xs: seq<MissingField>, n: nat)
    requires forall e :: e in xs ==> e.row == n
    ensures OfRow(xs, n) == xs
  {
    if xs != [] {
      assert xs[0] in xs;
      assert forall e :: e in xs[1..] ==> e in xs;
      OfRowUniform(xs[1..], n);
      assert [xs[0]] + xs[1..] == xs;
    }
  }

  lemma {:induction false} OfRowAbsent(xs: seq<MissingField>, n: nat)
    requires forall e :: e in xs ==> e.row != n
    ensures OfRow(xs, n) == []
  {
    if xs != [] {
      assert xs[0] in xs;
      assert forall e :: e in xs[1..] ==> e in xs;
      OfRowAbsent(xs[1..], n);
    }
  }

  /** Read row by row, the report lists each row's errors exactly as the
      inner loop produced them, so in declared field order. Together with the
      rows being in order, this fixes the whole list. */
  lemma {:induction false} DataErrorsByRow(data: seq<Row>, fields: seq<string>, n: nat)
    requires 1 <= n <= |data|
    ensures OfRow(DataErrors(data, fields), n) == RowErrors(data[n - 1], n, fields)
  {
    var m := |data|;
    var front := DataErrors(data[..m - 1], fields);
    var last := RowErrors(data[m - 1], m, fields);
    assert DataErrors(data, fields) == front + last;
    OfRowAppend(front, last, n);
    if n == m {
      OfRowAbsent(front, n);
      OfRowUniform(last, n);
    } else {
      DataErrorsByRow(data[..m - 1], fields, n);
      assert data[..m - 1][n - 1] == data[n - 1];
      OfRowAbsent(last, n);
      assert OfRow(front, n) + [] == OfRow(front, n);
    }
  }

  /** Appending the errors of row `n` after those of earlier rows keeps the
      rows in order, and repeats nothing that neither part repeats. */
  lemma AppendLastRow(front: seq<MissingField>, last: seq<MissingField>, n: nat)
    requires forall e :: e in front ==> e.row < n
    requires forall a, b :: 0 <= a < b < |front| ==> front[a].row <= front[b].row
    requires forall e :: e in last ==> e.row == n
    ensures forall a, b :: 0 <= a < b < |front + last| ==> (front + last)[a].row <= (front + last)[b].row
    ensures (forall a, b :: 0 <= a < b < |front| ==> front[a] != front[b]) &&
            (forall a, b :: 0 <= a < b < |last| ==> last[a] != last[b]) ==>
            forall a, b :: 0 <= a < b < |front + last| ==> (front + last)[a] != (front + last)[b]
  {
    var r := front + last;
    forall a, b | 0 <= a < b < |r|
      ensures r[a].row <= r[b].row
      ensures a < |front| <= b ==> r[a] != r[b]
    {
      if b >= |front| {
        assert r[b] == last[b - |front|] && last[b - |front|] in last;
        if a < |front| {
          assert r[a] == front[a] && front[a] in front;
        } else {
          assert r[a] == last[a - |front|] && last[a - |front|] in last;
        }
      }
    }
  }

  datatype Report = Report(isValid: bool, errors: seq<string>)

  /** The shared body of both validators. */
  function ValidateRows(data: seq<Row>, fields: seq<string>): (r: Report)
    ensures r.isValid <==> r.errors == []
    ensures |r.errors| == |DataErrors(data, fields)|
    ensures forall i :: 0 <= i < |r.errors| ==> r.errors[i] == Message(DataErrors(data, fields)[i])
  {
    var errs := DataErrors(data, fields);
    var msgs := seq(|errs|, i requires 0 <= i < |errs| => Message(errs[i]));
    Report(|msgs| == 0, msgs)
  }

  /** Every row carrying every required field gives no errors; in particular
      empty data is valid. */
  lemma CompleteRowsValid(data: seq<Row>, fields: seq<string>)
    requires forall i, f :: 0 <= i < |data| && f in fields ==> Present(data[i], f)
    ensures ValidateRows(data, fields).isValid
  {
    var errs := DataErrors(data, fields);
    if errs != [] {
      assert errs[0] in errs;
    }
  }

  /** A row lacking a required field makes the data invalid, and the error names
      the row (1-based) and the field. */
  lemma MissingFieldReported(data: seq<Row>, fields: seq<string>, i: nat, f: string)
    requires i < |data| && f in fields && !Present(data[i], f)
    ensures !ValidateRows(data, fields).isValid
    ensures MissingField(i + 1, f) in DataErrors(data, fields)
  {
    assert MissingField(i + 1, f) in DataErrors(data, fields);
  }

  const PropertyFields: seq<string> := ["address", "city", "state", "zipCode", "rent", "bedrooms", "bathrooms"]
  const TenantFields: seq<string> := ["firstName", "lastName", "email", "phone", "propertyId"]

  function ValidatePropertyCsv(data: seq<Row>): (r: Report)
    ensures r.isValid <==> forall i, f :: 0 <= i < |data| && f in PropertyFields ==> Present(data[i], f)
  {
    ValidIff(data, PropertyFields);
    ValidateRows(data, PropertyFields)
  }

  function ValidateTenantCsv(data: seq<Row>): (r: Report)
    ensures r.isValid <==> forall i, f :: 0 <= i < |data| && f in TenantFields ==> Present(data[i], f)
  {
    ValidIff(data, TenantFields);
    ValidateRows(data, TenantFields)
  }

  /** The data is valid exactly when every row carries every required field. */
  lemma ValidIff(data: seq<Row>, fields: seq<string>)
    ensures ValidateRows(data, fields).isValid <==>
      forall i, f :: 0 <= i < |data| && f in fields ==> Present(data[i], f)
  {
    if forall i, f :: 0 <= i < |data| && f in fields ==> Present(data[i], f) {
      CompleteRowsValid(data, fields);
    } else {
      var i, f :| 0 <= i < |data| && f in fields && !Present(data[i], f);
      MissingFieldReported(data, fields, i, f);
    }
  }
}

=== FILE: maintenance_model.dfy ===
/** The maintenance ticket: its schema enums and defaults, and the instance
    methods `addNote`, `updateStatus` and `assign`, each of which saves the
    ticket. Dates are milliseconds since the epoch; the clock is a parameter. */
module MaintenanceModel {

  import opened Common
  import opened Casts

  datatype Priority = Low | Medium | High | Emergency

  function PriorityName(p: Priority): string
  {
    match p
    case Low => "low"
    case Medium => "medium"
    case High => "high"
    case Emergency => "emergency"
  }

  function ParsePriority(s: string): (r: Option<Priority>)
    ensures r.Some? ==> PriorityName(r.value) == s
    ensures forall x: Priority :: s == PriorityName(x) ==> r == Some(x)
  {
    if s == "low" then Some(Low)
    else if s == "medium" then Some(Medium)
    else if s == "high" then Some(High)
    else if s == "emergency" then Some(Emergency)
    else None
  }

  const DefaultPriority: Priority := Medium

  /** The ticket status; the store never holds a value outside these four.
      `Open` is the one stored as "pending" (the name keeps it apart from a
      pending tenancy). */
  datatype TicketStatus = Open | InProgress | Completed | Cancelled

  function TicketStatusName(s: TicketStatus): string
  {
    match s
    case Open => "pending"
    case InProgress => "in-progress"
    case Completed => "completed"
    case Cancelled => "cancelled"
  }

  function ParseTicketStatus(s: string): (r: Option<TicketStatus>)
    ensures r.Some? ==> TicketStatusName(r.value) == s
    ensures forall x: TicketStatus :: s == TicketStatusName(x) ==> r == Some(x)
  {
    if s == "pending" then Some(Open)
    else if s == "in-progress" then Some(InProgress)
    else if s == "completed" then Some(Completed)
    else if s == "cancelled" then Some(Cancelled)
    else None
  }

  /** A new ticket is "pending". */
  const DefaultTicketStatus: TicketStatus := Open

  /** The payment states the `cost.status` enum lists. */
  const CostStatuses: set<string> := {"pending", "approved", "paid"}

  predicate CostStatusOk(v: Json) { EnumOk(v, CostStatuses) }

  /** What the `cost` object of the schema accepts: a numeric amount, a
      currency as text, and a payment state from the enum. */
  predicate CostOk(v: Json)
  {
    && NestedOk(v)
    && (v.JObj? ==>
          && FieldPasses(v.fields, "amount", NumberCastable)
          && FieldPasses(v.fields, "currency", StringCastable)
          && FieldPasses(v.fields, "status", CostStatusOk))
  }

  datatype Category =
    Plumbing | Electrical | Heating | Cooling | Structural | Appliance | PestControl | Other

  function CategoryName(c: Category): string
  {
    match c
    case Plumbing => "plumbing"
    case Electrical => "electrical"
    case Heating => "heating"
    case Cooling => "cooling"
    case Structural => "structural"
    case Appliance => "appliance"
    case PestControl => "pest-control"
    case Other => "other"
  }

  function ParseCategory(s: string): (r: Option<Category>)
    ensures r.Some? ==> CategoryName(r.value) == s
    ensures forall x: Category :: s == CategoryName(x) ==> r == Some(x)
  {
    if s == "plumbing" then Some(Plumbing)
    else if s == "electrical" then Some(Electrical)
    else if s == "heating" then Some(Heating)
    else if s == "cooling" then Some(Cooling)
    else if s == "structural" then Some(Structural)
    else if s == "appliance" then Some(Appliance)
    else if s == "pest-control" then Some(PestControl)
    else if s == "other" then Some(Other)
    else None
  }

  /** A note; its content is not required, so it may be absent. */
  datatype Note = Note(content: Option<string>, author: Id, createdAt: int)

  /** A ticket. `extras` holds the fields stored as given: `images`,
      `scheduledDate`, `cost` and `attachments`. */
  datatype Maintenance = Maintenance(
    id: Id,
    title: string,
    description: string,
    property: Id,
    requestedBy: Id,
    assignedTo: Option<Id>,
    priority: Priority,
    status: TicketStatus,
    category: Category,
    completedDate: Option<int>,
    notes: seq<Note>,
    extras: map<string, Json>)

  /** `addNote`: one note by `author`, stamped `now`, at the end of the log. */
  function AddNote(m: Maintenance, content: Option<string>, author: Id, now: int): (r: Maintenance)
    ensures |r.notes| == |m.notes| + 1
    ensures r.notes[..|m.notes|] == m.notes
    ensures r.notes[|m.notes|] == Note(content, author, now)
    ensures r.(notes := m.notes) == m
  {
    m.(notes := m.notes + [Note(content, author, now)])
  }

  const StatusNotePrefix: string := "Status updated to "
  const AssignNotePrefix: string := "Maintenance assigned to "

  /** `updateStatus`: the status is set, a completion stamps `completedDate`,
      and a note records the change. A value outside the enum fails the save
      the note triggers, so nothing is stored. */
  function UpdateStatus(m: Maintenance, status: string, user: Id, now: int): (r: Outcome<Maintenance>)
    ensures r.Ok? <==> ParseTicketStatus(status).Some?
    ensures r.Fail? ==> r == Fail(400, ValidationFailed)
    ensures r.Ok? ==> TicketStatusName(r.value.status) == status
    ensures r.Ok? && r.value.status == Completed ==> r.value.completedDate == Some(now)
    ensures r.Ok? && r.value.status != Completed ==> r.value.completedDate == m.completedDate
    ensures r.Ok? ==> r.value.notes == m.notes + [Note(Some(StatusNotePrefix + status), user, now)]
    ensures r.Ok? ==> r.value.(status := m.status, completedDate := m.completedDate, notes := m.notes) == m
  {
    match ParseTicketStatus(status)
    case None => Fail(400, ValidationFailed)
    case Some(s) =>
      var stamped := m.(status := s,
                        completedDate := if s == Completed then Some(now) else m.completedDate);
      Ok(AddNote(stamped, Some(StatusNotePrefix + status), user, now))
  }

  /** How a template literal shows the assignee: the id, or "undefined". */
  function ShownId(a: Option<Id>): (s: string)
    ensures a.Some? ==> s == a.value
  {
    if a.Some? then a.value else "undefined"
  }

  /** `assign`: the assignee is replaced (or cleared, when the body names
      none) and a note records it. */
  function Assign(m: Maintenance, assignedTo: Option<Id>, user: Id, now: int): (r: Maintenance)
    ensures r.assignedTo == assignedTo
    ensures r.notes == m.notes + [Note(Some(AssignNotePrefix + ShownId(assignedTo)), user, now)]
    ensures r.(assignedTo := m.assignedTo, notes := m.notes) == m
  {
    AddNote(m.(assignedTo := assignedTo), Some(AssignNotePrefix + ShownId(assignedTo)), user, now)
  }

  /** One call of a ticket method, with its own clock reading. */
  datatype Step =
    | NoteStep(content: Option<string>, author: Id, at: int)
    | StatusStep(status: string, user: Id, at: int)
    | AssignStep(assignedTo: Option<Id>, user: Id, at: int)

  /** A step applied; a failed status update leaves the ticket as it was. */
  function Apply(m: Maintenance, s: Step): Maintenance
  {
    match s
    case NoteStep(c, a, t) => AddNote(m, c, a, t)
    case StatusStep(st, u, t) =>
      var r := UpdateStatus(m, st, u, t);
      if r.Ok? then r.value else m
    case AssignStep(a, u, t) => Assign(m, a, u, t)
  }

  function ApplyAll(m: Maintenance, steps: seq<Step>): Maintenance
    decreases |steps|
  {
    if steps == [] then m else ApplyAll(Apply(m, steps[0]), steps[1..])
  }

  /** Over any run of method calls the note log only grows at its end, a
      completion date once set stays set, and the ticket's identity, property
      and requester never change. */
  lemma {:induction false} HistoryIsAppendOnly(m: Maintenance, steps: seq<Step>)
    ensures m.notes <= ApplyAll(m, steps).notes
    ensures |ApplyAll(m, steps).notes| <= |m.notes| + |steps|
    ensures m.completedDate.Some? ==> ApplyAll(m, steps).completedDate.Some?
    ensures ApplyAll(m, steps).id == m.id && ApplyAll(m, steps).property == m.property
    ensures ApplyAll(m, steps).requestedBy == m.requestedBy
    decreases |steps|
  {
    if steps != [] {
      var next := Apply(m, steps[0]);
      assert m.notes <= next.notes && |next.notes| <= |m.notes| + 1;
      HistoryIsAppendOnly(next, steps[1..]);
    }
  }

  /** A ticket is completed with a completion date after any run that ends
      with a successful "completed" update. */
  lemma CompletionIsStamped(m: Maintenance, steps: seq<Step>, user: Id, now: int)
    ensures var last := ApplyAll(m, steps + [StatusStep("completed", user, now)]);
      last.status == Completed && last.completedDate == Some(now)
  {
    ApplyAllSnoc(m, steps, StatusStep("completed", user, now));
  }

  lemma {:induction false} ApplyAllSnoc(m: Maintenance, steps: seq<Step>, s: Step)
    ensures ApplyAll(m, steps + [s]) == Apply(ApplyAll(m, steps), s)
    decreases |steps|
  {
    if steps == [] {
      assert [s][1..] == [];
    } else {
      assert (steps + [s])[1..] == steps[1..] + [s];
      ApplyAllSnoc(Apply(m, steps[0]), steps[1..], s);
    }
  }
}

=== FILE: maintenance_routes.dfy ===
/** The maintenance routes over the ticket and property collections as
    sequences: the role-scoped list with its page arithmetic, the view, create,
    whitelisted update, note, assignment and status routes. The caller is the
    user `auth` produced; the landlord notification email is not modelled. */
module MaintenanceRoutes {

  import opened Common
  import opened Text
  import opened UserModel
  import opened PropertyModel
  import opened AuthMiddleware
  import opened MaintenanceModel
  import opened Paging
  import opened Casts

  const TicketNotFound: string := "Maintenance request not found"
  const AccessDenied: string := "Access denied"
  /** The message of the TypeError raised by a tenancy without a user. */
  const UndefinedTenant: string := "Cannot read properties of undefined (reading 'toString')"
  /** The message of the ReferenceError raised by the un-imported `User`. */
  const UserNotDefined: string := "User is not defined"

  /** `Maintenance.findById`: the position of the ticket with that id. */
  function FindTicket(tickets: seq<Maintenance>, id: Id): (r: Option<nat>)
    ensures r.Some? ==> r.value < |tickets| && tickets[r.value].id == id
    ensures r.None? <==> forall j :: 0 <= j < |tickets| ==> tickets[j].id != id
  {
    Find(tickets, (m: Maintenance) => m.id == id)
  }

  // ---------------------------------------------------------------------------
  // Access rules

  /** Who may view, update, annotate or change the status of a ticket: an
      admin, the property's landlord, the requester or the assignee. */
  predicate CanAccess(caller: User, p: Property, m: Maintenance)
  {
    caller.role == Admin || p.landlord == caller.id || m.requestedBy == caller.id
    || m.assignedTo == Some(caller.id)
  }

  /** Who may assign a ticket: an admin or the property's landlord. */
  predicate CanAssign(caller: User, p: Property)
  {
    caller.role == Admin || p.landlord == caller.id
  }

  datatype Rule = AccessRule | AssignRule

  predicate Allowed(rule: Rule, caller: User, p: Property, m: Maintenance)
  {
    if rule == AccessRule then CanAccess(caller, p, m) else CanAssign(caller, p)
  }

  /** The lookups the ticket routes share: 404 for an unknown ticket, 404 when
      its property is gone, then 403 unless the rule admits the caller. On
      success, the ticket's position and its property. */
  function Locate(tickets: seq<Maintenance>, props: seq<Property>, caller: User, id: Id, rule: Rule)
    : (r: Outcome<(nat, Property)>)
    ensures FindTicket(tickets, id).None? ==> r == Fail(404, TicketNotFound)
    ensures (FindTicket(tickets, id).Some? &&
             FindProperty(props, tickets[FindTicket(tickets, id).value].property).None?) ==>
      r == Fail(404, PropertyNotFound)
    ensures r.Fail? ==> r.code in {403, 404}
    ensures r.Ok? ==>
      && FindTicket(tickets, id) == Some(r.value.0)
      && FindProperty(props, tickets[r.value.0].property).Some?
      && r.value.1 == props[FindProperty(props, tickets[r.value.0].property).value]
    ensures r.Ok? <==>
      && FindTicket(tickets, id).Some?
      && FindProperty(props, tickets[FindTicket(tickets, id).value].property).Some?
      && Allowed(rule, caller,
                 props[FindProperty(props, tickets[FindTicket(tickets, id).value].property).value],
                 tickets[FindTicket(tickets, id).value])
  {
    match FindTicket(tickets, id)
    case None => Fail(404, TicketNotFound)
    case Some(i) =>
      match FindProperty(props, tickets[i].property)
      case None => Fail(404, PropertyNotFound)
      case Some(k) =>
        if Allowed(rule, caller, props[k], tickets[i]) then Ok((i, props[k]))
        else Fail(403, AccessDenied)
  }

  /** A requester or assignee who is not the landlord may do everything on the
      ticket but assign it. */
  lemma AssignIsStricter(tickets: seq<Maintenance>, props: seq<Property>, caller: User, id: Id)
    ensures Locate(tickets, props, caller, id, AssignRule).Ok? ==>
      Locate(tickets, props, caller, id, AccessRule).Ok?
    ensures (caller.role != Admin && Locate(tickets, props, caller, id, AccessRule).Ok? &&
             Locate(tickets, props, caller, id, AccessRule).value.1.landlord != caller.id) ==>
      Locate(tickets, props, caller, id, AssignRule) == Fail(403, AccessDenied)
  {
  }

  /** GET /:id. The ticket comes with its property, requester and assignee
      populated, so a deleted property makes the access check throw (500)
      rather than answer 404, and so does a deleted requester when the caller
      is neither admin nor landlord; a deleted assignee simply does not match. */
  function GetTicket(tickets: seq<Maintenance>, props: seq<Property>, users: seq<User>,
                     caller: User, id: Id): (r: Outcome<Maintenance>)
    ensures FindTicket(tickets, id).None? ==> r == Fail(404, TicketNotFound)
    ensures r.Fail? ==> r.code in {403, 404, 500}
    ensures r.Ok? ==> FindTicket(tickets, id).Some? && r.value == tickets[FindTicket(tickets, id).value]
    ensures r.Ok? ==>
      var m := tickets[FindTicket(tickets, id).value];
      FindProperty(props, m.property).Some? && CanAccess(caller, props[FindProperty(props, m.property).value], m)
  {
    match FindTicket(tickets, id)
    case None => Fail(404, TicketNotFound)
    case Some(i) =>
      var m := tickets[i];
      match FindProperty(props, m.property)
      case None => Fail(500, ServerError)
      case Some(k) =>
        if caller.role == Admin || props[k].landlord == caller.id then Ok(m)
        else if !UserExists(users, m.requestedBy) then Fail(500, ServerError)
        else if m.requestedBy == caller.id then Ok(m)
        else if m.assignedTo.Some? && UserExists(users, m.assignedTo.value)
             && m.assignedTo.value == caller.id then Ok(m)
        else Fail(403, AccessDenied)
  }

  predicate UserExists(users: seq<User>, uid: Id)
  {
    exists j :: 0 <= j < |users| && users[j].id == uid
  }

  /** When the property and the users the ticket names all exist (the caller
      among them), viewing follows the access rule exactly and agrees with the
      other ticket routes. */
  lemma GetFollowsAccessRule(tickets: seq<Maintenance>, props: seq<Property>, users: seq<User>,
                             caller: User, id: Id)
    requires FindTicket(tickets, id).Some?
    requires UserExists(users, tickets[FindTicket(tickets, id).value].requestedBy)
    requires UserExists(users, caller.id)
    ensures GetTicket(tickets, props, users, caller, id).Ok? <==>
      Locate(tickets, props, caller, id, AccessRule).Ok?
  {
  }

  // ---------------------------------------------------------------------------
  // PATCH /:id

  /** The nine keys PATCH /:id accepts. */
  const PatchableKeys: set<string> := {"title", "description", "priority", "status", "category",
    "scheduledDate", "cost", "images", "attachments"}

  /** The keys the model keeps in `extras`. */
  const ExtraKeys: set<string> := {"scheduledDate", "cost", "images", "attachments"}

  /** Whether the schema accepts `v` for a ticket field: the enums by name,
      the cost object with its own enum, images as `{ url, caption }`
      objects and attachments as an array of strings. A date is any string or
      number here (the date parser is not modelled); `null` clears it. */
  predicate TicketFieldOk(k: string, v: Json)
  {
    if k == "title" then v.JStr? && !AllWhitespace(v.s)
    else if k == "description" then v.JStr? && v.s != []
    else if k == "priority" then v.JStr? && ParsePriority(v.s).Some?
    else if k == "status" then v.JStr? && ParseTicketStatus(v.s).Some?
    else if k == "category" then v.JStr? && ParseCategory(v.s).Some?
    else if k == "scheduledDate" then DateCastable(v)
    else if k == "cost" then CostOk(v)
    else if k == "images" then ImageList(v)
    else StringArray(v)
  }

  predicate AllTicketFieldsOk(body: map<string, Json>)
  {
    forall k :: k in body && k in PatchableKeys ==> TicketFieldOk(k, body[k])
  }

  /** Every extra the ticket holds is a value the schema takes for it. */
  predicate ExtrasOk(m: Maintenance)
  {
    forall k :: k in m.extras && k in ExtraKeys ==> TicketFieldOk(k, m.extras[k])
  }

  /** A cost whose payment state is outside the enum, and an attachment
      given as an object, are refused. */
  lemma NestedTicketValuesChecked()
    ensures !AllTicketFieldsOk(map["cost" := JObj(map["status" := JStr("refunded")])])
    ensures !AllTicketFieldsOk(map["attachments" := JArr([JObj(map["url" := JStr("a.pdf")])])])
    ensures AllTicketFieldsOk(map["cost" := JObj(map["amount" := JNum(80.0), "status" := JStr("paid")])])
  {
    var c := map["cost" := JObj(map["status" := JStr("refunded")])];
    assert !TicketFieldOk("cost", c["cost"]);
    var a := map["attachments" := JArr([JObj(map["url" := JStr("a.pdf")])])];
    assert !TicketFieldOk("attachments", a["attachments"]) by {
      assert !StringCastable(a["attachments"].items[0]);
    }
  }

  /** `extras` with every supplied extra key replaced. */
  function MergeExtras(extras: map<string, Json>, body: map<string, Json>): (d: map<string, Json>)
    ensures forall k :: k in body && k in ExtraKeys ==> k in d && d[k] == body[k]
    ensures forall k :: k in extras && !(k in body && k in ExtraKeys) ==> k in d && d[k] == extras[k]
    ensures forall k :: k in d ==> k in extras || (k in body && k in ExtraKeys)
  {
    map k | k in extras.Keys + (body.Keys * ExtraKeys) ::
      if k in body && k in ExtraKeys then body[k] else extras[k]
  }

  /** The accepted body copied onto the ticket key by key. */
  function CopyFields(m: Maintenance, body: map<string, Json>): (r: Maintenance)
    requires AllTicketFieldsOk(body)
    ensures r.title == (if "title" in body then Trim(body["title"].s) else m.title)
    ensures r.description == (if "description" in body then body["description"].s else m.description)
    ensures r.priority == (if "priority" in body then ParsePriority(body["priority"].s).value else m.priority)
    ensures r.status == (if "status" in body then ParseTicketStatus(body["status"].s).value else m.status)
    ensures r.category == (if "category" in body then ParseCategory(body["category"].s).value else m.category)
    ensures r.extras == MergeExtras(m.extras, body)
    ensures r.(title := m.title, description := m.description, priority := m.priority,
               status := m.status, category := m.category, extras := m.extras) == m
  {
    assert "title" in body ==> TicketFieldOk("title", body["title"]);
    assert "description" in body ==> TicketFieldOk("description", body["description"]);
    assert "priority" in body ==> TicketFieldOk("priority", body["priority"]);
    assert "status" in body ==> TicketFieldOk("status", body["status"]);
    assert "category" in body ==> TicketFieldOk("category", body["category"]);
    m.(title := if "title" in body then Trim(body["title"].s) else m.title,
       description := if "description" in body then body["description"].s else m.description,
       priority := if "priority" in body then ParsePriority(body["priority"].s).value else m.priority,
       status := if "status" in body then ParseTicketStatus(body["status"].s).value else m.status,
       category := if "category" in body then ParseCategory(body["category"].s).value else m.category,
       extras := MergeExtras(m.extras, body))
  }

  /** PATCH /:id: the participant rule, then a key outside the nine is a 400
      with no change, a value the schema rejects is a 400, and otherwise
      exactly the supplied keys are written. */
  function PatchTicket(tickets: seq<Maintenance>, props: seq<Property>, caller: User, id: Id,
                       body: map<string, Json>): (r: Outcome<seq<Maintenance>>)
    ensures Locate(tickets, props, caller, id, AccessRule).Fail? ==>
      SameFailure(r, Locate(tickets, props, caller, id, AccessRule))
    ensures Locate(tickets, props, caller, id, AccessRule).Ok? && !OnlyAllowedKeys(body, PatchableKeys) ==>
      r == Fail(400, InvalidUpdates)
    ensures r.Fail? ==> r.code in {400, 403, 404}
    ensures r.Ok? <==>
      Locate(tickets, props, caller, id, AccessRule).Ok? && OnlyAllowedKeys(body, PatchableKeys)
      && AllTicketFieldsOk(body)
    ensures r.Ok? ==>
      var i := FindTicket(tickets, id).value;
      r.value == tickets[i := CopyFields(tickets[i], body)]
  {
    match Locate(tickets, props, caller, id, AccessRule)
    case Fail(c, e) => Fail(c, e)
    case Ok((i, _)) =>
      if !OnlyAllowedKeys(body, PatchableKeys) then Fail(400, InvalidUpdates)
      else if !AllTicketFieldsOk(body) then Fail(400, ValidationFailed)
      else Ok(tickets[i := CopyFields(tickets[i], body)])
  }

  /** An accepted update keeps every stored extra within the schema. */
  lemma CopyFieldsKeepsExtrasOk(m: Maintenance, body: map<string, Json>)
    requires AllTicketFieldsOk(body)
    ensures ExtrasOk(m) ==> ExtrasOk(CopyFields(m, body))
  {
  }

  /** A status written through PATCH /:id bypasses `updateStatus`: no note is
      added and the completion date is not touched. */
  lemma PatchStatusLeavesNoTrace(m: Maintenance, s: string)
    requires ParseTicketStatus(s).Some?
    ensures CopyFields(m, map["status" := JStr(s)]).notes == m.notes
    ensures CopyFields(m, map["status" := JStr(s)]).completedDate == m.completedDate
    ensures TicketStatusName(CopyFields(m, map["status" := JStr(s)]).status) == s
  {
  }

  /** An empty update changes nothing. */
  lemma PatchEmptyIsIdentity(m: Maintenance)
    ensures CopyFields(m, map[]) == m
  {
    assert MergeExtras(m.extras, map[]) == m.extras;
  }

  // ---------------------------------------------------------------------------
  // Notes, assignment, status

  /** POST /:id/notes: the participant rule, then one note by the caller with
      the trimmed content. */
  function PostNote(tickets: seq<Maintenance>, props: seq<Property>, caller: User, id: Id,
                    content: Option<string>, now: int): (r: Outcome<seq<Maintenance>>)
    ensures Locate(tickets, props, caller, id, AccessRule).Fail? ==>
      SameFailure(r, Locate(tickets, props, caller, id, AccessRule))
    ensures r.Ok? <==> Locate(tickets, props, caller, id, AccessRule).Ok?
    ensures r.Ok? ==>
      var i := FindTicket(tickets, id).value;
      && |r.value| == |tickets|
      && (forall j :: 0 <= j < |tickets| && j != i ==> r.value[j] == tickets[j])
      && r.value[i] == AddNote(tickets[i], TrimContent(content), caller.id, now)
  {
    match Locate(tickets, props, caller, id, AccessRule)
    case Fail(c, e) => Fail(c, e)
    case Ok((i, _)) => Ok(tickets[i := AddNote(tickets[i], TrimContent(content), caller.id, now)])
  }

  function TrimContent(content: Option<string>): (r: Option<string>)
    ensures r.Some? <==> content.Some?
    ensures r.Some? ==> r.value == Trim(content.value)
  {
    if content.Some? then Some(Trim(content.value)) else None
  }

  /** POST /:id/assign: admins and the property's landlord only. */
  function AssignTicket(tickets: seq<Maintenance>, props: seq<Property>, caller: User, id: Id,
                        assignedTo: Option<Id>, now: int): (r: Outcome<seq<Maintenance>>)
    ensures Locate(tickets, props, caller, id, AssignRule).Fail? ==>
      SameFailure(r, Locate(tickets, props, caller, id, AssignRule))
    ensures r.Ok? <==> Locate(tickets, props, caller, id, AssignRule).Ok?
    ensures r.Ok? ==>
      var i := FindTicket(tickets, id).value;
      && |r.value| == |tickets|
      && (forall j :: 0 <= j < |tickets| && j != i ==> r.value[j] == tickets[j])
      && r.value[i] == Assign(tickets[i], assignedTo, caller.id, now)
  {
    match Locate(tickets, props, caller, id, AssignRule)
    case Fail(c, e) => Fail(c, e)
    case Ok((i, _)) => Ok(tickets[i := Assign(tickets[i], assignedTo, caller.id, now)])
  }

  /** PATCH /:id/status: the participant rule, then `updateStatus`; only the
      four enum values are accepted. */
  function ChangeStatus(tickets: seq<Maintenance>, props: seq<Property>, caller: User, id: Id,
                        status: string, now: int): (r: Outcome<seq<Maintenance>>)
    ensures Locate(tickets, props, caller, id, AccessRule).Fail? ==>
      SameFailure(r, Locate(tickets, props, caller, id, AccessRule))
    ensures r.Ok? <==>
      Locate(tickets, props, caller, id, AccessRule).Ok? && ParseTicketStatus(status).Some?
    ensures r.Ok? ==>
      var i := FindTicket(tickets, id).value;
      && UpdateStatus(tickets[i], status, caller.id, now).Ok?
      && r.value == tickets[i := UpdateStatus(tickets[i], status, caller.id, now).value]
  {
    match Locate(tickets, props, caller, id, AccessRule)
    case Fail(c, e) => Fail(c, e)
    case Ok((i, _)) =>
      match UpdateStatus(tickets[i], status, caller.id, now)
      case Fail(c, e) => Fail(c, e)
      case Ok(m) => Ok(tickets[i := m])
  }

  /** Only the four enum values get through the status route. */
  lemma StatusRouteAcceptsOnlyEnum(tickets: seq<Maintenance>, props: seq<Property>, caller: User,
                                   id: Id, status: string, now: int)
    requires ChangeStatus(tickets, props, caller, id, status, now).Ok?
    ensures status in {"pending", "in-progress", "completed", "cancelled"}
  {
    var s := ParseTicketStatus(status).value;
    assert TicketStatusName(s) == status;
  }

  // ---------------------------------------------------------------------------
  // POST /

  /** The create route's sanitizers: the title and description are trimmed. */
  function SanitizeTicket(body: map<string, Json>): (b: map<string, Json>)
    ensures b.Keys == body.Keys
    ensures forall k :: k in body && k != "title" && k != "description" ==> b[k] == body[k]
  {
    map k | k in body ::
      if (k == "title" || k == "description") && body[k].JStr? then JStr(Trim(body[k].s)) else body[k]
  }

  /** The fields a new ticket must have besides its property. */
  const RequiredTicketKeys: set<string> := {"title", "description", "category"}

  predicate TicketBodyOk(b: map<string, Json>)
  {
    && (forall k :: k in RequiredTicketKeys ==> k in b)
    && AllTicketFieldsOk(b)
    && ("assignedTo" in b ==> b["assignedTo"].JStr?)
  }

  /** `new Maintenance({...body, requestedBy: caller})` for an accepted body:
      the requester is always the caller, priority and status take their
      defaults, and the note log starts empty. */
  function NewTicket(b: map<string, Json>, property: Id, caller: Id, newId: Id): (m: Maintenance)
    requires TicketBodyOk(b)
    ensures m.id == newId && m.property == property && m.requestedBy == caller
    ensures m.priority == (if "priority" in b then ParsePriority(b["priority"].s).value else DefaultPriority)
    ensures m.status == (if "status" in b then ParseTicketStatus(b["status"].s).value else DefaultTicketStatus)
    ensures m.notes == [] && m.completedDate.None?
    ensures m.assignedTo == (if "assignedTo" in b then Some(b["assignedTo"].s) else None)
    ensures ExtrasOk(m)
  {
    assert TicketFieldOk("title", b["title"]) && TicketFieldOk("description", b["description"]);
    assert TicketFieldOk("category", b["category"]);
    assert "priority" in b ==> TicketFieldOk("priority", b["priority"]);
    assert "status" in b ==> TicketFieldOk("status", b["status"]);
    Maintenance(newId, Trim(b["title"].s), b["description"].s, property, caller,
                if "assignedTo" in b then Some(b["assignedTo"].s) else None,
                if "priority" in b then ParsePriority(b["priority"].s).value else DefaultPriority,
                if "status" in b then ParseTicketStatus(b["status"].s).value else DefaultTicketStatus,
                ParseCategory(b["category"].s).value, None, [],
                map k | k in b.Keys * ExtraKeys :: b[k])
  }

  /** The property the body names, when it names one that exists. */
  function BodyProperty(props: seq<Property>, body: map<string, Json>): (r: Option<nat>)
    ensures r.Some? ==> ("property" in body && body["property"].JStr?
                         && r == FindProperty(props, body["property"].s))
    ensures "property" in body && body["property"].JStr? ==> r == FindProperty(props, body["property"].s)
  {
    if "property" in body && body["property"].JStr? then FindProperty(props, body["property"].s) else None
  }

  /** What a create request leaves behind: the ticket collection and the
      answer. */
  datatype Reply = Reply(tickets: seq<Maintenance>, result: Outcome<Maintenance>)

  /** The steps of POST / up to the save: 404 for a missing property, then
      the create rule (admin, landlord or active tenant; a tenancy without a
      user throws, answered with 400), then the schema check. */
  function PrepareTicket(props: seq<Property>, caller: User, body: map<string, Json>, newId: Id)
    : (r: Outcome<(Maintenance, Property)>)
    ensures BodyProperty(props, body).None? ==> r == Fail(404, PropertyNotFound)
    ensures r.Fail? ==> r.code in {400, 403, 404}
    ensures r.Ok? ==>
      && BodyProperty(props, body).Some?
      && r.value.1 == props[BodyProperty(props, body).value]
      && r.value.0.property == r.value.1.id
      && r.value.0.requestedBy == caller.id
      && r.value.0.id == newId
    ensures r.Ok? ==> TicketBodyOk(SanitizeTicket(body))
    ensures r.Ok? ==>
      caller.role == Admin || HasPropertyAccess(props[BodyProperty(props, body).value], caller.id)
    ensures BodyProperty(props, body).Some? && AllHaveUsers(props[BodyProperty(props, body).value].tenants) ==>
      var p := props[BodyProperty(props, body).value];
      (r.Ok? <==> (caller.role == Admin || HasPropertyAccess(p, caller.id)) && TicketBodyOk(SanitizeTicket(body)))
  {
    match BodyProperty(props, body)
    case None => Fail(404, PropertyNotFound)
    case Some(k) =>
      var p := props[k];
      var scan := if caller.role == Admin || p.landlord == caller.id then Match
                  else ActiveTenantScan(p.tenants, caller.id);
      if scan == Throws then Fail(400, UndefinedTenant)
      else if scan == NoMatch then Fail(403, PropertyDenied)
      else
        var b := SanitizeTicket(body);
        if !TicketBodyOk(b) then Fail(400, ValidationFailed)
        else Ok((NewTicket(b, p.id, caller.id, newId), p))
  }

  /** POST / as written: once the ticket is saved, a caller who is not the
      property's landlord reaches the notification lookup through `User`,
      which the module never imports, so the saved ticket is answered with
      400. */
  function CreateTicketAsWritten(tickets: seq<Maintenance>, props: seq<Property>, caller: User,
                                 body: map<string, Json>, newId: Id): (r: Reply)
    ensures PrepareTicket(props, caller, body, newId).Fail? ==>
      r.tickets == tickets && SameFailure(r.result, PrepareTicket(props, caller, body, newId))
    ensures PrepareTicket(props, caller, body, newId).Ok? ==>
      r.tickets == tickets + [PrepareTicket(props, caller, body, newId).value.0]
  {
    match PrepareTicket(props, caller, body, newId)
    case Fail(c, e) => Reply(tickets, Fail(c, e))
    case Ok((m, p)) =>
      var stored := tickets + [m];
      if p.landlord != caller.id then Reply(stored, Fail(400, UserNotDefined))
      else Reply(stored, Ok(m))
  }

  /** For every accepted request by a tenant or an admin who is not the
      landlord, the ticket is stored and yet the answer is an error. */
  lemma AsWrittenStoresButRefuses(tickets: seq<Maintenance>, props: seq<Property>, caller: User,
                                  body: map<string, Json>, newId: Id)
    requires PrepareTicket(props, caller, body, newId).Ok?
    requires PrepareTicket(props, caller, body, newId).value.1.landlord != caller.id
    ensures |CreateTicketAsWritten(tickets, props, caller, body, newId).tickets| == |tickets| + 1
    ensures CreateTicketAsWritten(tickets, props, caller, body, newId).result == Fail(400, UserNotDefined)
  {
  }

  /** POST / as intended: the landlord lookup succeeds, so an accepted
      request is stored and answered with the stored ticket. */
  function CreateTicket(tickets: seq<Maintenance>, props: seq<Property>, caller: User,
                        body: map<string, Json>, newId: Id): (r: Reply)
    ensures r.result.Ok? <==> PrepareTicket(props, caller, body, newId).Ok?
    ensures r.result.Ok? ==> r.result.value.requestedBy == caller.id
    ensures r.result.Fail? ==> SameFailure(r.result, PrepareTicket(props, caller, body, newId))
  {
    match PrepareTicket(props, caller, body, newId)
    case Fail(c, e) => Reply(tickets, Fail(c, e))
    case Ok((m, _)) => Reply(tickets + [m], Ok(m))
  }

  /** The corrected route stores a ticket exactly when it reports one, and the
      stored ticket is the one reported; it agrees with the route as written
      on what is stored, and on the answer whenever the caller is the
      landlord. */
  lemma CreateReportsWhatItStores(tickets: seq<Maintenance>, props: seq<Property>, caller: User,
                                  body: map<string, Json>, newId: Id)
    ensures var r := CreateTicket(tickets, props, caller, body, newId);
      && (r.result.Ok? ==> r.tickets == tickets + [r.result.value])
      && (r.result.Fail? ==> r.tickets == tickets)
    ensures CreateTicket(tickets, props, caller, body, newId).tickets ==
      CreateTicketAsWritten(tickets, props, caller, body, newId).tickets
    ensures (PrepareTicket(props, caller, body, newId).Ok? &&
             PrepareTicket(props, caller, body, newId).value.1.landlord == caller.id) ==>
      CreateTicket(tickets, props, caller, body, newId) == CreateTicketAsWritten(tickets, props, caller, body, newId)
  {
  }

  /** Whatever the body claims, the requester of a new ticket is its creator. */
  lemma RequesterIsCaller(tickets: seq<Maintenance>, props: seq<Property>, caller: User,
                          body: map<string, Json>, claimed: Json, newId: Id)
    ensures var r := CreateTicket(tickets, props, caller, body["requestedBy" := claimed], newId);
      r.result.Ok? ==> r.tickets[|tickets|].requestedBy == caller.id
  {
  }

  // ---------------------------------------------------------------------------
  // GET /

  datatype TicketParams = TicketParams(
    property: Option<string>, status: Option<string>, priority: Option<string>,
    category: Option<string>, assignedTo: Option<string>, requestedBy: Option<string>)

  /** The `property` condition: one id, or any of a list (`$in`). */
  datatype PropertyFilter = Is(id: Id) | Among(ids: seq<Id>)

  /** The query the list route builds; an absent member places no condition. */
  datatype TicketQuery = TicketQuery(
    property: Option<PropertyFilter>, status: Option<string>, priority: Option<string>,
    category: Option<string>, assignedTo: Option<string>, requestedBy: Option<string>)

  /** The ids of the properties `uid` owns, in collection order. */
  function OwnedIds(props: seq<Property>, uid: Id): (ids: seq<Id>)
    ensures forall x :: x in ids <==> exists k :: 0 <= k < |props| && props[k].landlord == uid && props[k].id == x
  {
    if props == [] then []
    else
      var rest := OwnedIds(props[1..], uid);
      assert forall k :: 1 <= k < |props| ==> props[k] == props[1..][k - 1];
      if props[0].landlord == uid then [props[0].id] + rest else rest
  }

  /** The filter for GET /: the truthy parameters, then a tenant's requester
      condition is forced to the tenant and a landlord's property condition to
      the landlord's own properties. */
  function BuildTicketQuery(q: TicketParams, caller: User, props: seq<Property>): (r: TicketQuery)
    ensures caller.role == Tenant ==> r.requestedBy == Some(caller.id)
    ensures caller.role == Landlord ==> r.property == Some(Among(OwnedIds(props, caller.id)))
    ensures caller.role != Tenant ==> (r.requestedBy.Some? <==> Given(q.requestedBy))
    ensures caller.role != Tenant && r.requestedBy.Some? ==> r.requestedBy == q.requestedBy
    ensures caller.role != Landlord ==> (r.property.Some? <==> Given(q.property))
    ensures caller.role != Landlord && r.property.Some? ==> r.property == Some(Is(q.property.value))
    ensures (r.status.Some? <==> Given(q.status)) && (r.status.Some? ==> r.status == q.status)
    ensures (r.priority.Some? <==> Given(q.priority)) && (r.priority.Some? ==> r.priority == q.priority)
    ensures (r.category.Some? <==> Given(q.category)) && (r.category.Some? ==> r.category == q.category)
    ensures (r.assignedTo.Some? <==> Given(q.assignedTo)) && (r.assignedTo.Some? ==> r.assignedTo == q.assignedTo)
  {
    TicketQuery(
      if caller.role == Landlord then Some(Among(OwnedIds(props, caller.id)))
      else if Given(q.property) then Some(Is(q.property.value)) else None,
      if Given(q.status) then q.status else None,
      if Given(q.priority) then q.priority else None,
      if Given(q.category) then q.category else None,
      if Given(q.assignedTo) then q.assignedTo else None,
      if caller.role == Tenant then Some(caller.id)
      else if Given(q.requestedBy) then q.requestedBy else None)
  }

  /** Whether a ticket satisfies every condition of the query. */
  predicate Matches(m: Maintenance, q: TicketQuery)
  {
    && (q.property.Some? ==>
          (if q.property.value.Is? then m.property == q.property.value.id
           else m.property in q.property.value.ids))
    && (q.status.Some? ==> TicketStatusName(m.status) == q.status.value)
    && (q.priority.Some? ==> PriorityName(m.priority) == q.priority.value)
    && (q.category.Some? ==> CategoryName(m.category) == q.category.value)
    && (q.assignedTo.Some? ==> m.assignedTo == q.assignedTo)
    && (q.requestedBy.Some? ==> m.requestedBy == q.requestedBy.value)
  }

  /** `Maintenance.find(query)`: the matching tickets in collection order. */
  function Select(tickets: seq<Maintenance>, q: TicketQuery): (r: seq<Maintenance>)
    ensures |r| <= |tickets|
    ensures forall m :: m in r <==> m in tickets && Matches(m, q)
  {
    if tickets == [] then []
    else
      var rest := Select(tickets[1..], q);
      assert forall m :: m in tickets <==> m == tickets[0] || m in tickets[1..];
      if Matches(tickets[0], q) then [tickets[0]] + rest else rest
  }

  /** `skip(s).limit(n)`: a limit of 0 means no limit, and a negative one is
      taken by its magnitude. */
  function Window<T>(xs: seq<T>, skip: nat, n: int): (r: seq<T>)
    ensures n != 0 ==> |r| <= if n > 0 then n else -n
    ensures skip >= |xs| ==> r == []
    ensures skip < |xs| ==> r != [] && r[0] == xs[skip]
    ensures forall j :: 0 <= j < |r| ==> skip + j < |xs| && r[j] == xs[skip + j]
    ensures skip + |r| < |xs| ==> n != 0 && |r| == (if n > 0 then n else -n)
  {
    var start := if skip < |xs| then skip else |xs|;
    var count := if n > 0 then n else -n;
    var stop := if n == 0 || start + count > |xs| then |xs| else start + count;
    xs[start..stop]
  }

  /** One page of the list, with its totals. */
  datatype TicketPage = TicketPage(items: seq<Maintenance>, currentPage: int, totalPages: PageCount,
                                   totalRequests: nat)

  /** GET /: the scoped query, the page `skip((page - 1) * limit)` of it with
      `limit` entries, the page number as given and `ceil(total / limit)`. A
      negative skip makes the database refuse the query, answered with 500.
      The tickets are taken to be held newest first, the order the route
      sorts by. */
  function ListTickets(tickets: seq<Maintenance>, props: seq<Property>, caller: User,
                       q: TicketParams, page: int, limit: int): (r: Outcome<TicketPage>)
    ensures r.Fail? <==> (page - 1) * limit < 0
    ensures r.Fail? ==> r == Fail(500, ServerError)
    ensures r.Ok? ==>
      var all := Select(tickets, BuildTicketQuery(q, caller, props));
      && r.value.totalRequests == |all|
      && r.value.currentPage == page
      && r.value.totalPages == TotalPages(|all|, limit)
      && r.value.items == Window(all, (page - 1) * limit, limit)
  {
    var skip := (page - 1) * limit;
    if skip < 0 then Fail(500, ServerError)
    else
      var all := Select(tickets, BuildTicketQuery(q, caller, props));
      Ok(TicketPage(Window(all, skip, limit), page, TotalPages(|all|, limit), |all|))
  }

  /** Every item on a page is a ticket of the collection that the scoped query
      admits. */
  lemma ListedItemsMatch(tickets: seq<Maintenance>, props: seq<Property>, caller: User,
                         q: TicketParams, page: int, limit: int, m: Maintenance)
    requires ListTickets(tickets, props, caller, q, page, limit).Ok?
    requires m in ListTickets(tickets, props, caller, q, page, limit).value.items
    ensures m in tickets && Matches(m, BuildTicketQuery(q, caller, props))
  {
    var all := Select(tickets, BuildTicketQuery(q, caller, props));
    var items := ListTickets(tickets, props, caller, q, page, limit).value.items;
    var j :| 0 <= j < |items| && items[j] == m;
    assert m == all[(page - 1) * limit + j];
  }

  /** A tenant only ever sees their own requests, whatever requester the query
      string names. */
  lemma TenantSeesOwnRequests(tickets: seq<Maintenance>, props: seq<Property>, caller: User,
                              q: TicketParams, page: int, limit: int, m: Maintenance)
    requires caller.role == Tenant
    requires ListTickets(tickets, props, caller, q, page, limit).Ok?
    requires m in ListTickets(tickets, props, caller, q, page, limit).value.items
    ensures m.requestedBy == caller.id
  {
    ListedItemsMatch(tickets, props, caller, q, page, limit, m);
  }

  /** A landlord only ever sees requests on properties they own, whatever
      property the query string names. */
  lemma LandlordSeesOwnProperties(tickets: seq<Maintenance>, props: seq<Property>, caller: User,
                                  q: TicketParams, page: int, limit: int, m: Maintenance)
    requires caller.role == Landlord
    requires ListTickets(tickets, props, caller, q, page, limit).Ok?
    requires m in ListTickets(tickets, props, caller, q, page, limit).value.items
    ensures exists k :: 0 <= k < |props| && props[k].id == m.property && props[k].landlord == caller.id
  {
    ListedItemsMatch(tickets, props, caller, q, page, limit, m);
    assert m.property in OwnedIds(props, caller.id);
  }

  /** With a positive limit, consecutive pages from the first one cover every
      matching ticket: the one at position j of the result is item j % limit
      of page j / limit + 1. */
  lemma PagesCoverResult(tickets: seq<Maintenance>, props: seq<Property>, caller: User,
                         q: TicketParams, limit: int, j: nat)
    requires limit > 0
    requires j < |Select(tickets, BuildTicketQuery(q, caller, props))|
    ensures var r := ListTickets(tickets, props, caller, q, j / limit + 1, limit);
      && r.Ok? && j % limit < |r.value.items|
      && r.value.items[j % limit] == Select(tickets, BuildTicketQuery(q, caller, props))[j]
  {
    var all := Select(tickets, BuildTicketQuery(q, caller, props));
    PageSkip(j, limit);
    WindowHolds(all, (j / limit) * limit, limit, j % limit);
  }

  /** The skip of page `j / limit + 1` lands `j % limit` entries before `j`. */
  lemma PageSkip(j: nat, limit: int)
    requires limit > 0
    ensures (j / limit + 1 - 1) * limit == (j / limit) * limit
    ensures 0 <= (j / limit) * limit
    ensures (j / limit) * limit + j % limit == j
    ensures j % limit < limit
  {
  }

  /** An index of the collection that is fewer than `n` entries past the skip
      falls inside the window. */
  lemma WindowHolds<T>(xs: seq<T>, skip: nat, n: int, k: nat)
    requires n > 0 && k < n && skip + k < |xs|
    ensures k < |Window(xs, skip, n)| && Window(xs, skip, n)[k] == xs[skip + k]
  {
    var w := Window(xs, skip, n);
    if skip + |w| >= |xs| {
      assert k < |w|;
    } else {
      assert |w| == n;
    }
  }
}

=== FILE: paging.dfy ===
/** The page count list routes report: `Math.ceil(total / limit)`, with the
    division done in floating point. */
module Paging {

  /** A JavaScript number as it can come out of the page count: an integer, or
      `Infinity` (a positive total over a zero limit), or `NaN` (0 / 0). */
  datatype PageCount = Pages(n: int) | Infinite | NotANumber

  function TotalPages(total: nat, limit: int): (r: PageCount)
    ensures limit > 0 ==> r.Pages? && (r.n - 1) * limit < total <= r.n * limit
    ensures limit < 0 ==> r.Pages? && r.n * limit <= total < (r.n - 1) * limit
    ensures limit == 0 ==> r == (if total == 0 then NotANumber else Infinite)
  {
    if limit > 0 then Pages((total + limit - 1) / limit)
    else if limit < 0 then Pages(-(total / -limit))
    else if total == 0 then NotANumber
    else Infinite
  }

  /** With a positive limit there are no pages exactly when there is nothing to
      list, and never more pages than items. */
  lemma PageCountBounds(total: nat, limit: int)
    requires limit > 0
    ensures TotalPages(total, limit).n == 0 <==> total == 0
    ensures 0 <= TotalPages(total, limit).n <= total
  {
  }

  /** With a positive limit the pages cover every item: the item at position k
      (from 0) is on page k / limit + 1, which is a page that exists. */
  lemma ItemOnSomePage(total: nat, limit: int, k: nat)
    requires limit > 0 && k < total
    ensures 1 <= k / limit + 1 <= TotalPages(total, limit).n
  {
    var n := TotalPages(total, limit).n;
    assert k < n * limit;
  }
}

=== FILE: pattern.dfy ===
/** A fixed-length character-class matcher: the fragment of regular expressions
    (`^IE\d{2}[A-Z]{4}\d{14}$` and the like) that the front-end validators use. */
module Pattern {

  import opened Text

  /** One position of an anchored pattern without alternation or open repetition. */
  datatype Class =
    | Digit          // \d
    | Upper          // [A-Z]
    | UpperOrDigit   // [A-Z0-9]
    | Space          // \s
    | Lit(c: char)   // a literal character

  predicate InClass(c: char, k: Class)
  {
    match k
    case Digit => IsDigit(c)
    case Upper => IsUpper(c)
    case UpperOrDigit => IsUpper(c) || IsDigit(c)
    case Space => IsWhitespace(c)
    case Lit(l) => c == l
  }

  /** `k{n}`. */
  function Repeat(k: Class, n: nat): (p: seq<Class>)
    ensures |p| == n
    ensures forall i :: 0 <= i < n ==> p[i] == k
  {
    seq(n, _ => k)
  }

  /** Anchored match, consuming one character per class from the left. */
  predicate Matches(s: string, p: seq<Class>)
    decreases |p|
  {
    if p == [] then s == []
    else s != [] && InClass(s[0], p[0]) && Matches(s[1..], p[1..])
  }

  /** The matcher accepts exactly the strings of the pattern's length whose every
      character lies in the class at the same position. */
  lemma {:induction false} MatchesIff(s: string, p: seq<Class>)
    ensures Matches(s, p) <==> |s| == |p| && forall i :: 0 <= i < |s| ==> InClass(s[i], p[i])
    decreases |p|
  {
    if p != [] && s != [] {
      MatchesIff(s[1..], p[1..]);
      if |s| == |p| && forall i :: 0 <= i < |s| ==> InClass(s[i], p[i]) {
        forall i | 0 <= i < |s| - 1 ensures InClass(s[1..][i], p[1..][i])
        {
          assert s[1..][i] == s[i + 1] && p[1..][i] == p[i + 1];
        }
      }
      if Matches(s, p) {
        forall i | 0 <= i < |s| ensures InClass(s[i], p[i])
        {
          if i > 0 { assert s[i] == s[1..][i - 1] && p[i] == p[1..][i - 1]; }
        }
      }
    }
  }
}

=== FILE: property_model.dfy ===
/** The property document: schema enums and defaults, tenancies, ratings and
    `calculateAverageRating`. */
module PropertyModel {

  import opened Common
  import opened Text
  import opened Casts

  datatype PropertyKind = Apartment | House | Condo | Townhouse | Studio

  function KindName(k: PropertyKind): string
  {
    match k
    case Apartment => "apartment"
    case House => "house"
    case Condo => "condo"
    case Townhouse => "townhouse"
    case Studio => "studio"
  }

  function ParseKind(s: string): (r: Option<PropertyKind>)
    ensures r.Some? ==> KindName(r.value) == s
    ensures forall k: PropertyKind :: s == KindName(k) ==> r == Some(k)
  {
    if s == "apartment" then Some(Apartment)
    else if s == "house" then Some(House)
    else if s == "condo" then Some(Condo)
    else if s == "townhouse" then Some(Townhouse)
    else if s == "studio" then Some(Studio)
    else None
  }

  /** `maintenance` is spelled out here to keep it apart from tickets. */
  datatype PropertyStatus = Available | Rented | UnderMaintenance | Unavailable

  function StatusName(s: PropertyStatus): string
  {
    match s
    case Available => "available"
    case Rented => "rented"
    case UnderMaintenance => "maintenance"
    case Unavailable => "unavailable"
  }

  function ParseStatus(s: string): (r: Option<PropertyStatus>)
    ensures r.Some? ==> StatusName(r.value) == s
    ensures forall x: PropertyStatus :: s == StatusName(x) ==> r == Some(x)
  {
    if s == "available" then Some(Available)
    else if s == "rented" then Some(Rented)
    else if s == "maintenance" then Some(UnderMaintenance)
    else if s == "unavailable" then Some(Unavailable)
    else None
  }

  const DefaultStatus: PropertyStatus := Available

  datatype TenancyStatus = Active | Pending | Ended

  /** The status a tenancy entry gets when none is given. */
  const DefaultTenancyStatus: TenancyStatus := Pending

  function TenancyStatusName(s: TenancyStatus): string
  {
    match s
    case Active => "active"
    case Pending => "pending"
    case Ended => "ended"
  }

  function ParseTenancyStatus(s: string): (r: Option<TenancyStatus>)
    ensures r.Some? ==> TenancyStatusName(r.value) == s
    ensures forall x: TenancyStatus :: s == TenancyStatusName(x) ==> r == Some(x)
  {
    if s == "active" then Some(Active)
    else if s == "pending" then Some(Pending)
    else if s == "ended" then Some(Ended)
    else None
  }

  /** A tenancy entry. Its `user` is not required by the schema, so it may be
      absent; the dates are kept as the request gave them (`null` when not
      given). */
  datatype Tenancy = Tenancy(id: Id, user: Option<Id>, startDate: Json, endDate: Json,
                             status: TenancyStatus)

  predicate TenancyStatusOk(v: Json) { v.JNull? || (v.JStr? && ParseTenancyStatus(v.s).Some?) }

  /** A user reference: an id, or `null` for none. */
  predicate UserRefOk(v: Json) { v.JStr? || v.JNull? }

  /** One element of a `tenants` list given in a request body: an object whose
      user, dates and status cast to the sub-document's paths. */
  predicate TenancyEntryOk(v: Json)
  {
    && v.JObj?
    && FieldPasses(v.fields, "user", UserRefOk)
    && FieldPasses(v.fields, "startDate", DateCastable)
    && FieldPasses(v.fields, "endDate", DateCastable)
    && FieldPasses(v.fields, "status", TenancyStatusOk)
  }

  predicate TenancyListOk(v: Json)
  {
    v.JArr? && forall i :: 0 <= i < |v.items| ==> TenancyEntryOk(v.items[i])
  }

  /** The entry the sub-document cast makes of an accepted element, under the
      id Mongoose generates for it. The user is kept when one is named; the
      status is the one named, and pending otherwise. */
  function CastTenancy(v: Json, id: Id): (t: Tenancy)
    requires TenancyEntryOk(v)
    ensures t.id == id
    ensures t.user.Some? <==> "user" in v.fields && v.fields["user"].JStr?
    ensures t.user.Some? ==> v.fields["user"] == JStr(t.user.value)
    ensures "status" in v.fields && v.fields["status"].JStr? ==>
      v.fields["status"] == JStr(TenancyStatusName(t.status))
    ensures !("status" in v.fields && v.fields["status"].JStr?) ==> t.status == DefaultTenancyStatus
    ensures t.startDate == (if "startDate" in v.fields then v.fields["startDate"] else JNull)
    ensures t.endDate == (if "endDate" in v.fields then v.fields["endDate"] else JNull)
  {
    var f := v.fields;
    Tenancy(id,
            if "user" in f && f["user"].JStr? then Some(f["user"].s) else None,
            if "startDate" in f then f["startDate"] else JNull,
            if "endDate" in f then f["endDate"] else JNull,
            if "status" in f && f["status"].JStr? then ParseTenancyStatus(f["status"].s).value
            else DefaultTenancyStatus)
  }

  /** A rating entry; the schema bounds `rating` to [1, 5] but does not make it
      an integer. */
  datatype Rating = Rating(user: Id, rating: real, comment: Option<string>, date: int)

  const MinRating: real := 1.0
  const MaxRating: real := 5.0

  const Parkings: set<string> := {"none", "street", "garage", "both"}

  predicate ParkingOk(v: Json) { EnumOk(v, Parkings) }

  /** The `specifications` object: four numbers and a parking kind from the
      enum. */
  predicate SpecificationsOk(v: Json)
  {
    && NestedOk(v)
    && (v.JObj? ==>
          && FieldPasses(v.fields, "bedrooms", NumberCastable)
          && FieldPasses(v.fields, "bathrooms", NumberCastable)
          && FieldPasses(v.fields, "squareFeet", NumberCastable)
          && FieldPasses(v.fields, "yearBuilt", NumberCastable)
          && FieldPasses(v.fields, "parking", ParkingOk))
  }

  /** The `availability` object: two dates. */
  predicate AvailabilityOk(v: Json)
  {
    && NestedOk(v)
    && (v.JObj? ==>
          FieldPasses(v.fields, "startDate", DateCastable) && FieldPasses(v.fields, "endDate", DateCastable))
  }

  /** A property. `details` holds the structured fields the model stores as
      given (`address`, `price`, `features`, `amenities`, `images`,
      `specifications`, `rules`, `availability`). */
  datatype Property = Property(
    id: Id,
    title: string,
    description: string,
    kind: PropertyKind,
    status: PropertyStatus,
    landlord: Id,
    tenants: seq<Tenancy>,
    ratings: seq<Rating>,
    averageRating: real,
    details: map<string, Json>)

  const DefaultCurrency: string := "USD"
  const DefaultPeriod: string := "monthly"
  const Periods: set<string> := {"monthly", "weekly", "yearly"}
  const AddressParts: set<string> := {"street", "city", "state", "zipCode", "country"}

  /** A required string path: present, a string, and not empty. */
  predicate RequiredString(fields: map<string, Json>, k: string)
  {
    k in fields && fields[k].JStr? && fields[k].s != []
  }

  /** The address sub-document: all five parts are required strings. */
  predicate AddressOk(j: Json)
  {
    j.JObj? && forall k :: k in AddressParts ==> RequiredString(j.fields, k)
  }

  /** The price sub-document: a required number, an optional currency that is
      text or `null`, and an optional period from the enum, which passes `null`
      too. */
  predicate PriceOk(j: Json)
  {
    && j.JObj?
    && "amount" in j.fields && j.fields["amount"].JNum?
    && ("currency" in j.fields ==> j.fields["currency"].JStr? || j.fields["currency"].JNull?)
    && ("period" in j.fields ==> EnumOk(j.fields["period"], Periods))
  }

  /** Construction-time defaults of the price sub-document. */
  function WithPriceDefaults(j: Json): (r: Json)
    requires j.JObj?
    ensures r.JObj? && r.fields.Keys == j.fields.Keys + {"currency", "period"}
    ensures forall k :: k in j.fields ==> r.fields[k] == j.fields[k]
    ensures "currency" !in j.fields ==> r.fields["currency"] == JStr(DefaultCurrency)
    ensures "period" !in j.fields ==> r.fields["period"] == JStr(DefaultPeriod)
  {
    var withCurrency := if "currency" in j.fields then j.fields
                        else j.fields["currency" := JStr(DefaultCurrency)];
    var withPeriod := if "period" in withCurrency then withCurrency
                      else withCurrency["period" := JStr(DefaultPeriod)];
    JObj(withPeriod)
  }

  /** A defaulted price still passes validation when the given one did. */
  lemma PriceDefaultsValid(j: Json)
    requires PriceOk(j)
    ensures PriceOk(WithPriceDefaults(j))
  {
  }

  /** The result of `tenants.some(t => t.user.toString() === uid && t.status
      === 'active')`: a match, none, or a TypeError from an entry without a
      user reached before any match. */
  datatype Scan = Match | NoMatch | Throws

  predicate IsActiveTenant(t: Tenancy, uid: Id)
  {
    t.user == Some(uid) && t.status == Active
  }

  predicate AllHaveUsers(ts: seq<Tenancy>)
  {
    forall i :: 0 <= i < |ts| ==> ts[i].user.Some?
  }

  function ActiveTenantScan(ts: seq<Tenancy>, uid: Id): (r: Scan)
    ensures r == Throws ==> exists i :: 0 <= i < |ts| && ts[i].user.None?
    ensures r == Match ==> exists i :: 0 <= i < |ts| && IsActiveTenant(ts[i], uid)
    ensures r == NoMatch ==> forall i :: 0 <= i < |ts| ==> !IsActiveTenant(ts[i], uid)
    ensures AllHaveUsers(ts) ==>
      (r == Match <==> exists i :: 0 <= i < |ts| && IsActiveTenant(ts[i], uid))
  {
    if ts == [] then NoMatch
    else if ts[0].user.None? then Throws
    else if IsActiveTenant(ts[0], uid) then Match
    else
      var r := ActiveTenantScan(ts[1..], uid);
      assert forall i :: 1 <= i < |ts| ==> ts[i] == ts[1..][i - 1];
      assert AllHaveUsers(ts) ==> AllHaveUsers(ts[1..]);
      r
  }

  /** Sum of the rating values, left to right. */
  function Sum(xs: seq<real>): real
  {
    if xs == [] then 0.0 else Sum(xs[..|xs| - 1]) + xs[|xs| - 1]
  }

  function Values(rs: seq<Rating>): (vs: seq<real>)
    ensures |vs| == |rs| && forall i :: 0 <= i < |rs| ==> vs[i] == rs[i].rating
  {
    seq(|rs|, i requires 0 <= i < |rs| => rs[i].rating)
  }

  /** `calculateAverageRating`: with no ratings it returns 0 and leaves the
      stored average alone; otherwise it stores and returns sum / count. */
  function CalculateAverageRating(p: Property): (r: (Property, real))
    ensures p.ratings == [] ==> r == (p, 0.0)
    ensures p.ratings != [] ==> r.0 == p.(averageRating := r.1)
    ensures p.ratings != [] ==> r.1 * (|p.ratings| as real) == Sum(Values(p.ratings))
  {
    if p.ratings == [] then (p, 0.0)
    else
      var n := |p.ratings| as real;
      var avg := Sum(Values(p.ratings)) / n;
      (p.(averageRating := avg), avg)
  }

  lemma {:induction false} SumAppend(a: seq<real>, b: seq<real>)
    ensures Sum(a + b) == Sum(a) + Sum(b)
    decreases |b|
  {
    if b == [] {
      assert a + b == a;
    } else {
      var b' := b[..|b| - 1];
      assert (a + b)[..|a + b| - 1] == a + b';
      SumAppend(a, b');
    }
  }

  /** The sum depends only on the multiset of values. */
  lemma {:induction false} SumPermutation(xs: seq<real>, ys: seq<real>)
    requires multiset(xs) == multiset(ys)
    ensures Sum(xs) == Sum(ys)
    decreases |xs|
  {
    if xs == [] {
      assert |multiset(ys)| == 0;
      assert ys == [];
    } else {
      var x := xs[|xs| - 1];
      var xs' := xs[..|xs| - 1];
      assert xs == xs' + [x];
      assert x in multiset(ys);
      var i :| 0 <= i < |ys| && ys[i] == x;
      var ys' := ys[..i] + ys[i + 1..];
      assert ys == ys[..i] + [x] + ys[i + 1..];
      assert multiset(ys') == multiset(ys) - multiset{x};
      assert multiset(xs') == multiset(xs) - multiset{x};
      SumPermutation(xs', ys');
      SumAppend(ys[..i] + [x], ys[i + 1..]);
      SumAppend(ys[..i], [x]);
      SumAppend(ys[..i], ys[i + 1..]);
      assert Sum([x]) == Sum([]) + x;
    }
  }

  /** Reordering the ratings never changes the average. */
  lemma AverageIgnoresOrder(p: Property, q: Property)
    requires multiset(Values(p.ratings)) == multiset(Values(q.ratings))
    ensures CalculateAverageRating(p).1 == CalculateAverageRating(q).1
  {
    SumPermutation(Values(p.ratings), Values(q.ratings));
    assert |Values(p.ratings)| == |multiset(Values(p.ratings))| == |Values(q.ratings)|;
  }

  predicate RatingsInRange(rs: seq<Rating>)
  {
    forall i :: 0 <= i < |rs| ==> MinRating <= rs[i].rating <= MaxRating
  }

  lemma {:induction false} SumBounds(xs: seq<real>)
    requires forall i :: 0 <= i < |xs| ==> MinRating <= xs[i] <= MaxRating
    ensures (|xs| as real) * MinRating <= Sum(xs) <= (|xs| as real) * MaxRating
    decreases |xs|
  {
    if xs != [] {
      SumBounds(xs[..|xs| - 1]);
    }
  }

  /** When every rating lies in [1, 5], so does a non-empty average. */
  lemma AverageInRange(p: Property)
    requires RatingsInRange(p.ratings) && p.ratings != []
    ensures MinRating <= CalculateAverageRating(p).1 <= MaxRating
  {
    var vs := Values(p.ratings);
    SumBounds(vs);
    ScaleBounds(CalculateAverageRating(p).1, |vs| as real, Sum(vs), MinRating, MaxRating);
  }

  /** Dividing bounds on `x * n` by a positive `n`. */
  lemma ScaleBounds(x: real, n: real, s: real, lo: real, hi: real)
    requires n > 0.0 && x * n == s
    requires n * lo <= s <= n * hi
    ensures lo <= x <= hi
  {
    assert x * n - n * lo == n * (x - lo);
    assert n * hi - x * n == n * (hi - x);
  }

  /** `Property.findById`: the position of the property with that id. */
  function FindProperty(db: seq<Property>, id: Id): (r: Option<nat>)
    ensures r.Some? ==> r.value < |db| && db[r.value].id == id
    ensures r.Some? ==> forall j :: 0 <= j < r.value ==> db[j].id != id
    ensures r.None? <==> forall j :: 0 <= j < |db| ==> db[j].id != id
  {
    Find(db, (p: Property) => p.id == id)
  }
}

=== FILE: property_routes.dfy ===
/** The property routes over the property collection as a sequence: the list
    filter, create, the whitelisted update, delete, tenant add and removal, and
    one rating per user. The caller is the user `auth` produced. */
module PropertyRoutes {

  import opened Common
  import opened Text
  import opened UserModel
  import opened PropertyModel
  import opened AuthMiddleware
  import opened Casts

  const TenantNotFound: string := "Tenant not found"
  const AlreadyRated: string := "You have already rated this property"

  datatype ListParams = ListParams(
    kind: Option<string>, minPrice: Option<string>, maxPrice: Option<string>,
    bedrooms: Option<string>, bathrooms: Option<string>, city: Option<string>,
    status: Option<string>)

  /** The `price.amount` condition: `$gte` and `$lte` bounds. */
  datatype PriceRange = PriceRange(gte: Option<real>, lte: Option<real>)

  /** The query the list route builds; an absent member places no condition.
      `city` is matched case-insensitively as a pattern. */
  datatype PropertyQuery = PropertyQuery(
    kind: Option<string>, status: Option<string>, city: Option<string>,
    price: Option<PriceRange>, bedrooms: Option<real>, bathrooms: Option<real>)

  function Keep(p: Option<string>): (r: Option<string>)
    ensures r.Some? <==> Given(p)
    ensures r.Some? ==> r == p
  {
    if Given(p) then p else None
  }

  function KeepNumber(p: Option<string>, number: string -> real): (r: Option<real>)
    ensures r.Some? <==> Given(p)
    ensures r.Some? ==> r.value == number(p.value)
  {
    if Given(p) then Some(number(p.value)) else None
  }

  /** GET / filter construction; `number` stands for JavaScript's `Number`. */
  function BuildQuery(q: ListParams, number: string -> real): (r: PropertyQuery)
    ensures r.price.None? <==> !Given(q.minPrice) && !Given(q.maxPrice)
    ensures r.price.Some? ==> (r.price.value.gte.Some? <==> Given(q.minPrice))
    ensures r.price.Some? ==> (r.price.value.lte.Some? <==> Given(q.maxPrice))
    ensures r.price.Some? && r.price.value.gte.Some? ==> r.price.value.gte.value == number(q.minPrice.value)
    ensures r.price.Some? && r.price.value.lte.Some? ==> r.price.value.lte.value == number(q.maxPrice.value)
    ensures r.kind.Some? <==> Given(q.kind)
    ensures r.status.Some? <==> Given(q.status)
    ensures r.city.Some? <==> Given(q.city)
  {
    PropertyQuery(
      Keep(q.kind), Keep(q.status), Keep(q.city),
      if Given(q.minPrice) || Given(q.maxPrice)
      then Some(PriceRange(KeepNumber(q.minPrice, number), KeepNumber(q.maxPrice, number)))
      else None,
      KeepNumber(q.bedrooms, number), KeepNumber(q.bathrooms, number))
  }

  /** Whether a price amount satisfies the query's price condition. */
  predicate PriceMatches(amount: real, price: Option<PriceRange>)
  {
    price.Some? ==>
      && (price.value.gte.Some? ==> amount >= price.value.gte.value)
      && (price.value.lte.Some? ==> amount <= price.value.lte.value)
  }

  /** The price condition admits exactly the amounts within the bounds that
      were given, and everything when neither was. */
  lemma PriceFilterMeaning(q: ListParams, number: string -> real, amount: real)
    ensures PriceMatches(amount, BuildQuery(q, number).price) <==>
      && (Given(q.minPrice) ==> amount >= number(q.minPrice.value))
      && (Given(q.maxPrice) ==> amount <= number(q.maxPrice.value))
  {
  }

  /** The twelve keys PATCH /:id accepts. */
  const UpdatableKeys: set<string> := {"title", "description", "type", "address", "price",
    "features", "amenities", "images", "status", "specifications", "rules", "availability"}

  /** The keys the model keeps in `details`. */
  const DetailKeys: set<string> := {"address", "price", "features", "amenities", "images",
    "specifications", "rules", "availability"}

  /** Whether the schema accepts `v` for the updatable key `k`: the enums by
      name, the nested objects with their own numbers, dates and parking enum,
      images as `{ url, caption }` objects, and the other lists as arrays of
      strings. */
  predicate FieldOk(k: string, v: Json)
  {
    if k == "title" then v.JStr? && !AllWhitespace(v.s)
    else if k == "description" then v.JStr? && v.s != []
    else if k == "type" then v.JStr? && ParseKind(v.s).Some?
    else if k == "status" then v.JStr? && ParseStatus(v.s).Some?
    else if k == "address" then AddressOk(v)
    else if k == "price" then PriceOk(v)
    else if k == "specifications" then SpecificationsOk(v)
    else if k == "availability" then AvailabilityOk(v)
    else if k == "images" then ImageList(v)
    else StringArray(v)
  }

  /** The title as stored: trimmed. */
  function StoredTitle(v: Json): string
  {
    if v.JStr? then Trim(v.s) else []
  }

  function SetKind(v: Json, current: PropertyKind): PropertyKind
  {
    if v.JStr? && ParseKind(v.s).Some? then ParseKind(v.s).value else current
  }

  function SetStatus(v: Json, current: PropertyStatus): PropertyStatus
  {
    if v.JStr? && ParseStatus(v.s).Some? then ParseStatus(v.s).value else current
  }

  /** `details` with every supplied structured key replaced. */
  function MergeDetails(details: map<string, Json>, body: map<string, Json>): (d: map<string, Json>)
    ensures forall k :: k in body && k in DetailKeys ==> k in d && d[k] == body[k]
    ensures forall k :: k in details && !(k in body && k in DetailKeys) ==> k in d && d[k] == details[k]
    ensures forall k :: k in d ==> k in details || (k in body && k in DetailKeys)
  {
    map k | k in details.Keys + (body.Keys * DetailKeys) ::
      if k in body && k in DetailKeys then body[k] else details[k]
  }

  /** PATCH /:id after access is granted: a key outside the twelve is a 400
      with no change; a value the schema rejects is a 400; otherwise exactly
      the supplied keys are written. Ownership, tenancies and ratings never
      change. */
  function PatchProperty(p: Property, body: map<string, Json>): (r: Outcome<Property>)
    ensures !OnlyAllowedKeys(body, UpdatableKeys) ==> r == Fail(400, InvalidUpdates)
    ensures r.Fail? ==> r.code == 400
    ensures r.Ok? <==> (OnlyAllowedKeys(body, UpdatableKeys)
      && forall k :: k in body ==> FieldOk(k, body[k]))
    ensures r.Ok? ==>
      && r.value.id == p.id && r.value.landlord == p.landlord
      && r.value.tenants == p.tenants && r.value.ratings == p.ratings
      && r.value.averageRating == p.averageRating
    ensures r.Ok? ==>
      && r.value.title == (if "title" in body then Trim(body["title"].s) else p.title)
      && r.value.description == (if "description" in body then body["description"].s else p.description)
      && r.value.kind == (if "type" in body then ParseKind(body["type"].s).value else p.kind)
      && r.value.status == (if "status" in body then ParseStatus(body["status"].s).value else p.status)
      && r.value.details == MergeDetails(p.details, body)
  {
    if !OnlyAllowedKeys(body, UpdatableKeys) then Fail(400, InvalidUpdates)
    else if exists k :: k in body && !FieldOk(k, body[k]) then Fail(400, ValidationFailed)
    else
      Ok(p.(
        title := if "title" in body then StoredTitle(body["title"]) else p.title,
        description := if "description" in body then body["description"].s else p.description,
        kind := if "type" in body then SetKind(body["type"], p.kind) else p.kind,
        status := if "status" in body then SetStatus(body["status"], p.status) else p.status,
        details := MergeDetails(p.details, body)))
  }

  /** An empty update changes nothing. */
  lemma PatchEmptyIsIdentity(p: Property)
    ensures PatchProperty(p, map[]) == Ok(p)
  {
    assert MergeDetails(p.details, map[]) == p.details;
  }

  /** A price whose currency and period are `null` is accepted and stored as
      given: `String` takes `null`, and the period enum passes it. */
  lemma PatchKeepsNullPrice(p: Property, amount: real)
    ensures var price := JObj(map["amount" := JNum(amount), "currency" := JNull, "period" := JNull]);
      && PatchProperty(p, map["price" := price]).Ok?
      && PatchProperty(p, map["price" := price]).value.details["price"] == price
  {
    var price := JObj(map["amount" := JNum(amount), "currency" := JNull, "period" := JNull]);
    assert FieldOk("price", price);
  }

  /** PATCH /:id: access first (404, 403), then the update. */
  function UpdateProperty(db: seq<Property>, caller: User, id: Id, body: map<string, Json>)
    : (r: Outcome<seq<Property>>)
    ensures VerifyPropertyAccess(db, id, caller).Fail? ==> SameFailure(r, VerifyPropertyAccess(db, id, caller))
    ensures VerifyPropertyAccess(db, id, caller).Ok? ==>
      var i := VerifyPropertyAccess(db, id, caller).value;
      && (r.Fail? ==> SameFailure(r, PatchProperty(db[i], body)))
      && (r.Ok? ==> PatchProperty(db[i], body).Ok? && r.value == db[i := PatchProperty(db[i], body).value])
    ensures r.Ok? ==> |r.value| == |db|
  {
    match VerifyPropertyAccess(db, id, caller)
    case Fail(c, e) => Fail(c, e)
    case Ok(i) =>
      match PatchProperty(db[i], body)
      case Fail(c, e) => Fail(c, e)
      case Ok(p) => Ok(db[i := p])
  }

  /** The request body after the create route's sanitizers: the title, the
      description and the five address parts are trimmed. */
  function Sanitize(body: map<string, Json>): (b: map<string, Json>)
    ensures b.Keys == body.Keys
    ensures forall k :: k in body && k !in {"title", "description", "address"} ==> b[k] == body[k]
  {
    map k | k in body :: SanitizeValue(k, body[k])
  }

  /** One body value after the sanitizers. */
  function SanitizeValue(k: string, v: Json): (w: Json)
    ensures k !in {"title", "description", "address"} ==> w == v
  {
    if (k == "title" || k == "description") && v.JStr? then JStr(Trim(v.s))
    else if k == "address" && v.JObj? then TrimAddress(v.fields)
    else v
  }

  /** The address with its five parts trimmed. */
  function TrimAddress(fields: map<string, Json>): (w: Json)
    ensures w.JObj? && w.fields.Keys == fields.Keys
  {
    JObj(map a | a in fields ::
      if a in AddressParts && fields[a].JStr? then JStr(Trim(fields[a].s)) else fields[a])
  }

  /** The paths a new property must have. */
  const RequiredKeys: set<string> := {"title", "description", "type", "address", "price"}

  predicate RequiredPresent(body: map<string, Json>)
  {
    forall k :: k in RequiredKeys ==> k in body
  }

  /** Every updatable field the body supplies is accepted. */
  predicate AllFieldsOk(body: map<string, Json>)
  {
    forall k :: k in body && k in UpdatableKeys ==> FieldOk(k, body[k])
  }

  /** A `tenants` list in the body, if any, casts entry by entry. */
  predicate TenantsOk(body: map<string, Json>)
  {
    "tenants" in body ==> TenancyListOk(body["tenants"])
  }

  /** The tenancies a create body seeds, the `i`-th under the generated id
      `tenancyIds(i)`. */
  function SeedTenancies(body: map<string, Json>, tenancyIds: nat -> Id): (ts: seq<Tenancy>)
    requires TenantsOk(body)
    ensures "tenants" !in body ==> ts == []
    ensures "tenants" in body ==> |ts| == |body["tenants"].items|
    ensures "tenants" in body ==>
      forall i :: 0 <= i < |ts| ==> ts[i] == CastTenancy(body["tenants"].items[i], tenancyIds(i))
  {
    if "tenants" !in body then []
    else
      var items := body["tenants"].items;
      seq(|items|, i requires 0 <= i < |items| => CastTenancy(items[i], tenancyIds(i)))
  }

  /** The document built from an accepted, sanitized body. */
  function Build(b: map<string, Json>, landlord: Id, newId: Id, tenancyIds: nat -> Id): (p: Property)
    requires RequiredPresent(b) && AllFieldsOk(b) && TenantsOk(b)
    ensures p.id == newId && p.landlord == landlord
    ensures p.tenants == SeedTenancies(b, tenancyIds)
    ensures p.ratings == [] && p.averageRating == 0.0
    ensures p.status == (if "status" in b then ParseStatus(b["status"].s).value else DefaultStatus)
    ensures p.details.Keys == b.Keys * DetailKeys
  {
    assert FieldOk("title", b["title"]) && FieldOk("description", b["description"]);
    assert FieldOk("type", b["type"]) && FieldOk("price", b["price"]);
    assert "status" in b ==> FieldOk("status", b["status"]);
    var details := map k | k in b.Keys * DetailKeys ::
      if k == "price" then WithPriceDefaults(b[k]) else b[k];
    Property(newId, Trim(b["title"].s), b["description"].s, ParseKind(b["type"].s).value,
             if "status" in b then ParseStatus(b["status"].s).value else DefaultStatus,
             landlord, SeedTenancies(b, tenancyIds), [], 0.0, details)
  }

  /** `new Property({...body, landlord: caller})` and its validation: the
      required fields must be present, every supplied updatable field
      accepted and every seeded tenancy castable; the landlord is always the
      caller and the price gets its defaults. The tenancies the body lists
      are stored; the other keys the schema knows beyond the twelve
      updatable ones are not part of this model. */
  function NewProperty(body: map<string, Json>, landlord: Id, newId: Id, tenancyIds: nat -> Id)
    : (r: Outcome<Property>)
    ensures r.Fail? ==> r == Fail(400, ValidationFailed)
    ensures r.Ok? <==> RequiredPresent(body) && AllFieldsOk(Sanitize(body)) && TenantsOk(body)
    ensures r.Ok? ==>
      && r.value.id == newId && r.value.landlord == landlord
      && r.value.tenants == SeedTenancies(body, tenancyIds)
      && r.value.ratings == [] && r.value.averageRating == 0.0
      && r.value.status == (if "status" in body then ParseStatus(body["status"].s).value
                            else DefaultStatus)
      && r.value.details.Keys == body.Keys * DetailKeys
  {
    var b := Sanitize(body);
    SanitizeKeepsUntrimmed(body, tenancyIds);
    if !RequiredPresent(b) || !AllFieldsOk(b) || !TenantsOk(b) then Fail(400, ValidationFailed)
    else Ok(Build(b, landlord, newId, tenancyIds))
  }

  /** The sanitizers leave the keys, the status and the tenancies alone. */
  lemma SanitizeKeepsUntrimmed(body: map<string, Json>, tenancyIds: nat -> Id)
    ensures RequiredPresent(Sanitize(body)) <==> RequiredPresent(body)
    ensures TenantsOk(Sanitize(body)) <==> TenantsOk(body)
    ensures TenantsOk(body) ==> SeedTenancies(Sanitize(body), tenancyIds) == SeedTenancies(body, tenancyIds)
    ensures "status" in body ==> Sanitize(body)["status"] == body["status"]
  {
  }

  /** Whatever the body says about the landlord, a new property belongs to its
      creator. */
  lemma NewPropertyIgnoresBodyLandlord(body: map<string, Json>, claimed: Json, landlord: Id, newId: Id,
                                       tenancyIds: nat -> Id)
    ensures NewProperty(body["landlord" := claimed], landlord, newId, tenancyIds).Ok? ==>
      NewProperty(body["landlord" := claimed], landlord, newId, tenancyIds).value.landlord == landlord
  {
  }

  /** A user the create body lists as an active tenant can reach the new
      property at once, through the same rule the access check applies. */
  lemma SeededActiveTenantHasAccess(body: map<string, Json>, landlord: Id, newId: Id,
                                    tenancyIds: nat -> Id, k: nat, uid: Id)
    requires NewProperty(body, landlord, newId, tenancyIds).Ok?
    requires "tenants" in body && k < |body["tenants"].items|
    requires body["tenants"].items[k].JObj?
    requires var f := body["tenants"].items[k].fields;
      "user" in f && f["user"] == JStr(uid) && "status" in f && f["status"] == JStr("active")
    ensures HasPropertyAccess(NewProperty(body, landlord, newId, tenancyIds).value, uid)
  {
    var p := NewProperty(body, landlord, newId, tenancyIds).value;
    var t := p.tenants[k];
    assert t == CastTenancy(body["tenants"].items[k], tenancyIds(k));
    assert IsActiveTenant(t, uid);
  }

  /** POST /: landlords and admins only (403 otherwise), then create. */
  function CreateProperty(db: seq<Property>, caller: User, body: map<string, Json>, newId: Id,
                          tenancyIds: nat -> Id): (r: Outcome<seq<Property>>)
    ensures caller.role !in [Landlord, Admin] ==> r == Fail(403, RoleDenied)
    ensures r.Ok? ==> caller.role in [Landlord, Admin]
    ensures caller.role in [Landlord, Admin] ==>
      (r.Ok? <==> NewProperty(body, caller.id, newId, tenancyIds).Ok?)
    ensures r.Ok? ==> (NewProperty(body, caller.id, newId, tenancyIds).Ok?
      && r.value == db + [NewProperty(body, caller.id, newId, tenancyIds).value])
    ensures r.Ok? ==> r.value[|db|].landlord == caller.id
  {
    match CheckRole([Landlord, Admin], caller)
    case Fail(c, e) => Fail(c, e)
    case Ok(_) =>
      match NewProperty(body, caller.id, newId, tenancyIds)
      case Fail(c, e) => Fail(c, e)
      case Ok(p) => Ok(db + [p])
  }

  /** DELETE /:id: after access is granted the property is removed and the
      rest keep their order. */
  function DeleteProperty(db: seq<Property>, caller: User, id: Id): (r: Outcome<seq<Property>>)
    ensures VerifyPropertyAccess(db, id, caller).Fail? ==> SameFailure(r, VerifyPropertyAccess(db, id, caller))
    ensures r.Ok? ==>
      var i := VerifyPropertyAccess(db, id, caller).value;
      VerifyPropertyAccess(db, id, caller).Ok? && r.value == db[..i] + db[i + 1..]
    ensures r.Ok? ==> |r.value| == |db| - 1
    ensures VerifyPropertyAccess(db, id, caller).Ok? ==> r.Ok?
  {
    match VerifyPropertyAccess(db, id, caller)
    case Fail(c, e) => Fail(c, e)
    case Ok(i) => Ok(db[..i] + db[i + 1..])
  }

  predicate IdsUnique(db: seq<Property>)
  {
    forall i, j :: 0 <= i < j < |db| ==> db[i].id != db[j].id
  }

  /** With unique ids, a deleted property is gone and every other one remains. */
  lemma DeleteRemovesExactly(db: seq<Property>, caller: User, id: Id)
    requires IdsUnique(db)
    requires DeleteProperty(db, caller, id).Ok?
    ensures forall p :: p in DeleteProperty(db, caller, id).value <==> p in db && p.id != id
  {
    var i := VerifyPropertyAccess(db, id, caller).value;
    var after := DeleteProperty(db, caller, id).value;
    assert after == db[..i] + db[i + 1..];
    forall p
      ensures p in after <==> p in db && p.id != id
    {
      if p in after {
        var k :| 0 <= k < |after| && after[k] == p;
        if k < i {
          assert after[k] == db[k];
        } else {
          assert after[k] == db[k + 1];
        }
      }
      if p in db && p.id != id {
        var k :| 0 <= k < |db| && db[k] == p;
        if k < i {
          assert after[k] == p;
        } else {
          assert k != i;
          assert after[k - 1] == p;
        }
      }
    }
  }

  /** POST /:id/tenants: after access is granted one tenancy is appended, in
      status active; dates the schema cannot cast are a 400. Nothing else
      about the property changes. */
  function AddTenant(db: seq<Property>, caller: User, id: Id, tenancyId: Id, userId: Option<Id>,
                     startDate: Json, endDate: Json): (r: Outcome<seq<Property>>)
    ensures VerifyPropertyAccess(db, id, caller).Fail? ==> SameFailure(r, VerifyPropertyAccess(db, id, caller))
    ensures r.Ok? <==>
      VerifyPropertyAccess(db, id, caller).Ok? && DateCastable(startDate) && DateCastable(endDate)
    ensures VerifyPropertyAccess(db, id, caller).Ok? && r.Fail? ==> r == Fail(400, ValidationFailed)
    ensures r.Ok? ==>
      var i := VerifyPropertyAccess(db, id, caller).value;
      && VerifyPropertyAccess(db, id, caller).Ok?
      && |r.value| == |db| && (forall j :: 0 <= j < |db| && j != i ==> r.value[j] == db[j])
      && r.value[i].(tenants := db[i].tenants) == db[i]
      && r.value[i].tenants == db[i].tenants + [Tenancy(tenancyId, userId, startDate, endDate, Active)]
  {
    match VerifyPropertyAccess(db, id, caller)
    case Fail(c, e) => Fail(c, e)
    case Ok(i) =>
      if !DateCastable(startDate) || !DateCastable(endDate) then Fail(400, ValidationFailed)
      else
        var p := db[i];
        Ok(db[i := p.(tenants := p.tenants + [Tenancy(tenancyId, userId, startDate, endDate, Active)])])
  }

  /** The user a new tenancy names becomes an active tenant: they pass the
      access rule on the updated property, and when its earlier tenancies all
      name a user, the access check itself lets them through. */
  lemma AddTenantGrantsAccess(db: seq<Property>, caller: User, id: Id, tenancyId: Id, uid: Id,
                              startDate: Json, endDate: Json, tenant: User)
    requires AddTenant(db, caller, id, tenancyId, Some(uid), startDate, endDate).Ok?
    requires tenant.id == uid
    ensures var after := AddTenant(db, caller, id, tenancyId, Some(uid), startDate, endDate).value;
      && FindProperty(after, id) == FindProperty(db, id)
      && HasPropertyAccess(after[FindProperty(db, id).value], uid)
    ensures var after := AddTenant(db, caller, id, tenancyId, Some(uid), startDate, endDate).value;
      AllHaveUsers(db[FindProperty(db, id).value].tenants) ==> VerifyPropertyAccess(after, id, tenant).Ok?
  {
    var after := AddTenant(db, caller, id, tenancyId, Some(uid), startDate, endDate).value;
    var i := VerifyPropertyAccess(db, id, caller).value;
    assert forall j :: 0 <= j < |db| ==> after[j].id == db[j].id;
    SameIdsSameFind(db, after, id);
    var ts := after[i].tenants;
    assert IsActiveTenant(ts[|ts| - 1], uid);
    if AllHaveUsers(db[i].tenants) {
      assert AllHaveUsers(ts);
      PropertyAccessIff(after, id, tenant);
    }
  }

  /** Two collections with the same ids in the same places find the same
      position for every id. */
  lemma SameIdsSameFind(a: seq<Property>, b: seq<Property>, id: Id)
    requires |a| == |b| && forall j :: 0 <= j < |a| ==> a[j].id == b[j].id
    ensures FindProperty(a, id) == FindProperty(b, id)
  {
    var fa := FindProperty(a, id);
    var fb := FindProperty(b, id);
    if fa.Some? && fb.Some? {
      assert !(fa.value < fb.value) && !(fb.value < fa.value);
    }
  }

  /** The tenancy `tenants.id(tenantId)` finds. */
  function FindTenancy(ts: seq<Tenancy>, tenancyId: Id): (r: Option<nat>)
    ensures r.Some? ==> r.value < |ts| && ts[r.value].id == tenancyId
    ensures r.None? <==> forall j :: 0 <= j < |ts| ==> ts[j].id != tenancyId
  {
    Find(ts, (t: Tenancy) => t.id == tenancyId)
  }

  /** The tenancy list with one entry ended. */
  function EndTenancy(ts: seq<Tenancy>, k: nat): (r: seq<Tenancy>)
    requires k < |ts|
    ensures |r| == |ts| && r[k] == ts[k].(status := Ended)
    ensures forall j :: 0 <= j < |ts| && j != k ==> r[j] == ts[j]
  {
    ts[k := ts[k].(status := Ended)]
  }

  /** DELETE /:id/tenants/:tenantId: after access is granted the entry is kept
      and marked ended; an unknown tenancy id is a 404. */
  function RemoveTenant(db: seq<Property>, caller: User, id: Id, tenancyId: Id)
    : (r: Outcome<seq<Property>>)
    ensures VerifyPropertyAccess(db, id, caller).Fail? ==> SameFailure(r, VerifyPropertyAccess(db, id, caller))
    ensures VerifyPropertyAccess(db, id, caller).Ok? ==>
      var i := VerifyPropertyAccess(db, id, caller).value;
      && (FindTenancy(db[i].tenants, tenancyId).None? ==> r == Fail(404, TenantNotFound))
      && (FindTenancy(db[i].tenants, tenancyId).Some? ==> r.Ok?)
      && (r.Ok? ==>
        var k := FindTenancy(db[i].tenants, tenancyId).value;
        r.value == db[i := db[i].(tenants := EndTenancy(db[i].tenants, k))])
  {
    match VerifyPropertyAccess(db, id, caller)
    case Fail(c, e) => Fail(c, e)
    case Ok(i) =>
      var p := db[i];
      match FindTenancy(p.tenants, tenancyId)
      case None => Fail(404, TenantNotFound)
      case Some(k) => Ok(db[i := p.(tenants := EndTenancy(p.tenants, k))])
  }

  /** Ending a tenancy twice is the same as ending it once. */
  lemma EndTenancyIdempotent(ts: seq<Tenancy>, k: nat)
    requires k < |ts|
    ensures EndTenancy(EndTenancy(ts, k), k) == EndTenancy(ts, k)
  {
  }

  /** A user whose only active tenancy is ended loses tenant access. */
  lemma EndedTenantLosesAccess(p: Property, k: nat, uid: Id)
    requires k < |p.tenants| && p.landlord != uid
    requires forall j :: 0 <= j < |p.tenants| && j != k ==> !IsActiveTenant(p.tenants[j], uid)
    ensures !HasPropertyAccess(p.(tenants := EndTenancy(p.tenants, k)), uid)
  {
    var ts := EndTenancy(p.tenants, k);
    assert !IsActiveTenant(ts[k], uid);
    assert forall j :: 0 <= j < |ts| ==> !IsActiveTenant(ts[j], uid);
  }

  /** Through the route: once the addressed tenancy is ended, a user who is
      not the landlord and holds no other active tenancy there has lost access. */
  lemma RemoveTenantRevokesAccess(db: seq<Property>, caller: User, id: Id, tenancyId: Id, uid: Id)
    requires RemoveTenant(db, caller, id, tenancyId).Ok?
    ensures FindProperty(db, id).Some?
    ensures var i := FindProperty(db, id).value;
      && FindTenancy(db[i].tenants, tenancyId).Some?
      && |RemoveTenant(db, caller, id, tenancyId).value| == |db|
      && (var k := FindTenancy(db[i].tenants, tenancyId).value;
          db[i].landlord != uid
          && (forall j :: 0 <= j < |db[i].tenants| && j != k ==> !IsActiveTenant(db[i].tenants[j], uid))
          ==> !HasPropertyAccess(RemoveTenant(db, caller, id, tenancyId).value[i], uid))
  {
    var i := VerifyPropertyAccess(db, id, caller).value;
    var k := FindTenancy(db[i].tenants, tenancyId).value;
    var after := RemoveTenant(db, caller, id, tenancyId).value;
    assert after[i] == db[i].(tenants := EndTenancy(db[i].tenants, k));
    if db[i].landlord != uid
       && forall j :: 0 <= j < |db[i].tenants| && j != k ==> !IsActiveTenant(db[i].tenants[j], uid)
    {
      EndedTenantLosesAccess(db[i], k, uid);
    }
  }

  function HasRated(rs: seq<Rating>, uid: Id): (b: bool)
    ensures b <==> exists j :: 0 <= j < |rs| && rs[j].user == uid
  {
    Find(rs, (x: Rating) => x.user == uid).Some?
  }

  /** The rating value the schema accepts: a number in [1, 5]. */
  function CastRating(v: Json): (r: Option<real>)
    ensures r.Some? <==> v.JNum? && MinRating <= v.n <= MaxRating
    ensures r.Some? ==> r.value == v.n
  {
    if v.JNum? && MinRating <= v.n <= MaxRating then Some(v.n) else None
  }

  function TrimComment(comment: Option<string>): Option<string>
  {
    if comment.Some? then Some(Trim(comment.value)) else None
  }

  /** One rating appended and the average recomputed. */
  function Rate(p: Property, uid: Id, v: real, comment: Option<string>, now: int): (q: Property)
    ensures q.ratings == p.ratings + [Rating(uid, v, TrimComment(comment), now)]
    ensures q.averageRating * (|q.ratings| as real) == Sum(Values(q.ratings))
    ensures q.(averageRating := p.averageRating, ratings := p.ratings) == p
  {
    CalculateAverageRating(p.(ratings := p.ratings + [Rating(uid, v, TrimComment(comment), now)])).0
  }

  /** POST /:id/ratings (any signed-in user, no property access check): 404
      for an unknown property, 400 if the caller has rated it already or the
      value is rejected; otherwise one rating is appended, with a trimmed
      comment, and the average is recomputed. */
  function AddRating(db: seq<Property>, caller: User, id: Id, rating: Json, comment: Option<string>,
                     now: int): (r: Outcome<seq<Property>>)
    ensures FindProperty(db, id).None? ==> r == Fail(404, PropertyNotFound)
    ensures FindProperty(db, id).Some? && HasRated(db[FindProperty(db, id).value].ratings, caller.id) ==>
      r == Fail(400, AlreadyRated)
    ensures r.Fail? ==> r.code in {400, 404}
    ensures r.Ok? <==>
      && FindProperty(db, id).Some? && CastRating(rating).Some?
      && !HasRated(db[FindProperty(db, id).value].ratings, caller.id)
    ensures r.Ok? ==>
      var i := FindProperty(db, id).value;
      r.value == db[i := Rate(db[i], caller.id, rating.n, comment, now)]
  {
    match FindProperty(db, id)
    case None => Fail(404, PropertyNotFound)
    case Some(i) =>
      if HasRated(db[i].ratings, caller.id) then Fail(400, AlreadyRated)
      else
        match CastRating(rating)
        case None => Fail(400, ValidationFailed)
        case Some(v) => Ok(db[i := Rate(db[i], caller.id, v, comment, now)])
  }

  /** No user holds two ratings on a property. */
  predicate OneRatingPerUser(rs: seq<Rating>)
  {
    forall i, j :: 0 <= i < j < |rs| ==> rs[i].user != rs[j].user
  }

  /** Rating keeps every rating of the property within [1, 5] and at most one
      per user, so the stored average stays within [1, 5]. */
  lemma AddRatingKeepsInvariants(db: seq<Property>, caller: User, id: Id, rating: Json,
                                 comment: Option<string>, now: int)
    requires AddRating(db, caller, id, rating, comment, now).Ok?
    requires OneRatingPerUser(db[FindProperty(db, id).value].ratings)
    requires RatingsInRange(db[FindProperty(db, id).value].ratings)
    ensures var p := AddRating(db, caller, id, rating, comment, now).value[FindProperty(db, id).value];
      && OneRatingPerUser(p.ratings) && RatingsInRange(p.ratings)
      && MinRating <= p.averageRating <= MaxRating
  {
    var i := FindProperty(db, id).value;
    var p := Rate(db[i], caller.id, rating.n, comment, now);
    assert AddRating(db, caller, id, rating, comment, now).value[i] == p;
    RateKeepsInvariants(db[i], caller.id, rating.n, comment, now);
  }

  lemma RateKeepsInvariants(q: Property, uid: Id, v: real, comment: Option<string>, now: int)
    requires !HasRated(q.ratings, uid) && MinRating <= v <= MaxRating
    requires OneRatingPerUser(q.ratings) && RatingsInRange(q.ratings)
    ensures var p := Rate(q, uid, v, comment, now);
      && OneRatingPerUser(p.ratings) && RatingsInRange(p.ratings)
      && MinRating <= p.averageRating <= MaxRating
  {
    var x := Rating(uid, v, TrimComment(comment), now);
    AppendNewRater(q.ratings, x);
    var p := Rate(q, uid, v, comment, now);
    AverageInRange(p);
  }

  /** Appending a rating by a user who has none keeps the ratings in range
      and one per user. */
  lemma AppendNewRater(rs: seq<Rating>, x: Rating)
    requires !HasRated(rs, x.user) && MinRating <= x.rating <= MaxRating
    requires OneRatingPerUser(rs) && RatingsInRange(rs)
    ensures OneRatingPerUser(rs + [x]) && RatingsInRange(rs + [x])
  {
    var ys := rs + [x];
    forall a, b | 0 <= a < b < |ys|
      ensures ys[a].user != ys[b].user
    {
      assert ys[a] == rs[a];
      if b < |rs| {
        assert ys[b] == rs[b];
      }
    }
  }
}

=== FILE: store.dfy ===
/** The persisted client store (`useStore`): setters that each replace one
    field, two appenders, the dark-mode toggle, and `partialize`, which selects
    what is written to local storage. */
module Store {

  import opened Common

  datatype StoreState = StoreState(
    user: Json,
    properties: seq<Json>,
    maintenanceRequests: seq<Json>,
    sidebarOpen: bool,
    darkMode: bool)

  function InitialStore(): (s: StoreState)
    ensures s.user == JNull && s.properties == [] && s.maintenanceRequests == []
    ensures s.sidebarOpen && !s.darkMode
  {
    StoreState(JNull, [], [], true, false)
  }

  function SetUser(s: StoreState, u: Json): (t: StoreState)
    ensures t.user == u && t.(user := s.user) == s
  {
    s.(user := u)
  }

  function SetProperties(s: StoreState, ps: seq<Json>): (t: StoreState)
    ensures t.properties == ps && t.(properties := s.properties) == s
  {
    s.(properties := ps)
  }

  function AddProperty(s: StoreState, p: Json): (t: StoreState)
    ensures |t.properties| == |s.properties| + 1
    ensures t.properties[..|s.properties|] == s.properties && t.properties[|s.properties|] == p
    ensures t.(properties := s.properties) == s
  {
    s.(properties := s.properties + [p])
  }

  function SetMaintenanceRequests(s: StoreState, rs: seq<Json>): (t: StoreState)
    ensures t.maintenanceRequests == rs && t.(maintenanceRequests := s.maintenanceRequests) == s
  {
    s.(maintenanceRequests := rs)
  }

  function AddMaintenanceRequest(s: StoreState, r: Json): (t: StoreState)
    ensures |t.maintenanceRequests| == |s.maintenanceRequests| + 1
    ensures t.maintenanceRequests[..|s.maintenanceRequests|] == s.maintenanceRequests
    ensures t.maintenanceRequests[|s.maintenanceRequests|] == r
    ensures t.(maintenanceRequests := s.maintenanceRequests) == s
  {
    s.(maintenanceRequests := s.maintenanceRequests + [r])
  }

  function SetSidebarOpen(s: StoreState, open: bool): (t: StoreState)
    ensures t.sidebarOpen == open && t.(sidebarOpen := s.sidebarOpen) == s
  {
    s.(sidebarOpen := open)
  }

  function ToggleDarkMode(s: StoreState): (t: StoreState)
    ensures t.darkMode != s.darkMode && t.(darkMode := s.darkMode) == s
  {
    s.(darkMode := !s.darkMode)
  }

  /** Toggling twice restores the state. */
  lemma ToggleTwice(s: StoreState)
    ensures ToggleDarkMode(ToggleDarkMode(s)) == s
  {
  }

  /** The part of the store kept in local storage. */
  datatype Persisted = Persisted(user: Json, darkMode: bool)

  function Partialize(s: StoreState): (p: Persisted)
    ensures p.user == s.user && p.darkMode == s.darkMode
  {
    Persisted(s.user, s.darkMode)
  }

  /** Rehydration: the persisted fields are merged over a fresh state. */
  function Rehydrate(s: StoreState, p: Persisted): (t: StoreState)
    ensures t.user == p.user && t.darkMode == p.darkMode
    ensures t.properties == s.properties && t.maintenanceRequests == s.maintenanceRequests
    ensures t.sidebarOpen == s.sidebarOpen
  {
    s.(user := p.user, darkMode := p.darkMode)
  }

  /** Persisting and reloading restores exactly the user and the theme; the
      lists and the sidebar come back at their initial values. */
  lemma PersistRoundTrip(s: StoreState)
    ensures Partialize(Rehydrate(InitialStore(), Partialize(s))) == Partialize(s)
    ensures var t := Rehydrate(InitialStore(), Partialize(s));
      t.properties == [] && t.maintenanceRequests == [] && t.sidebarOpen
  {
  }

  /** Two states with the same user and theme persist identically, whatever
      their lists and sidebar hold. */
  lemma PartializeIgnoresOthers(s: StoreState, t: StoreState)
    ensures Partialize(s) == Partialize(t) <==> s.user == t.user && s.darkMode == t.darkMode
  {
  }
}

=== FILE: text.dfy ===
/** Character classes and string helpers with JavaScript's meaning:
    `\s` and `String.prototype.trim` whitespace, and ASCII `\d`, `[A-Z]`, `[a-z]`. */
module Text {

  import opened Common

  /** JavaScript's WhiteSpace and LineTerminator code points (what `\s` and `trim` use). */
  predicate IsWhitespace(c: char)
  {
    || c == ' ' || c == '\t' || c == '\n' || c == '\r'
    || c == '\U{0B}' || c == '\U{0C}' || c == '\U{A0}' || c == '\U{1680}'
    || ('\U{2000}' <= c <= '\U{200A}')
    || c == '\U{2028}' || c == '\U{2029}' || c == '\U{202F}' || c == '\U{205F}'
    || c == '\U{3000}' || c == '\U{FEFF}'
  }

  /** The characters `.` in a JavaScript regular expression does not match. */
  predicate IsLineTerminator(c: char)
  {
    c == '\n' || c == '\r' || c == '\U{2028}' || c == '\U{2029}'
  }

  predicate IsDigit(c: char) { '0' <= c <= '9' }
  predicate IsUpper(c: char) { 'A' <= c <= 'Z' }
  predicate IsLower(c: char) { 'a' <= c <= 'z' }

  predicate AllWhitespace(s: string)
  {
    forall i :: 0 <= i < |s| ==> IsWhitespace(s[i])
  }

  predicate NoWhitespace(s: string)
  {
    forall i :: 0 <= i < |s| ==> !IsWhitespace(s[i])
  }

  /** Drops leading whitespace: the result is a suffix that starts with a
      non-whitespace character, and everything dropped was whitespace. */
  function TrimStart(s: string): (r: string)
    ensures |r| <= |s| && r == s[|s| - |r|..]
    ensures r == [] || !IsWhitespace(r[0])
    ensures AllWhitespace(s[..|s| - |r|])
  {
    if s == [] || !IsWhitespace(s[0]) then s
    else
      var r := TrimStart(s[1..]);
      assert s[1..][..|s| - 1 - |r|] == s[1..|s| - |r|];
      r
  }

  /** Drops trailing whitespace: the result is a prefix that ends with a
      non-whitespace character, and everything dropped was whitespace. */
  function TrimEnd(s: string): (r: string)
    ensures |r| <= |s| && r == s[..|r|]
    ensures r == [] || !IsWhitespace(r[|r| - 1])
    ensures AllWhitespace(s[|r|..])
  {
    if s == [] || !IsWhitespace(s[|s| - 1]) then s
    else
      var r := TrimEnd(s[..|s| - 1]);
      assert s[..|s| - 1][|r|..] == s[|r|..|s| - 1];
      r
  }

  /** `String.prototype.trim`. */
  function Trim(s: string): (r: string)
    ensures |r| <= |s|
    ensures r == [] || (!IsWhitespace(r[0]) && !IsWhitespace(r[|r| - 1]))
  {
    TrimEnd(TrimStart(s))
  }

  /** Trimming leaves nothing exactly when the string is all whitespace. */
  lemma TrimEmptyIff(s: string)
    ensures Trim(s) == [] <==> AllWhitespace(s)
  {
    var t := TrimStart(s);
    if Trim(s) == [] {
      assert AllWhitespace(t[0..]);
      assert t == [];
      assert s[..|s|] == s;
    } else {
      assert t != [];
      assert t[0] == s[|s| - |t|];
    }
  }

  /** Trimming is idempotent. */
  lemma TrimIdempotent(s: string)
    ensures Trim(Trim(s)) == Trim(s)
  {
  }

  /** `s.replace(/\s/g, '')`: every whitespace character removed, order kept. */
  function RemoveWhitespace(s: string): (r: string)
    ensures |r| <= |s|
    ensures NoWhitespace(r)
    ensures forall c :: c in r ==> c in s
  {
    if s == [] then []
    else if IsWhitespace(s[|s| - 1]) then RemoveWhitespace(s[..|s| - 1])
    else RemoveWhitespace(s[..|s| - 1]) + [s[|s| - 1]]
  }

  lemma {:induction false} RemoveWhitespaceAppend(a: string, b: string)
    ensures RemoveWhitespace(a + b) == RemoveWhitespace(a) + RemoveWhitespace(b)
    decreases |b|
  {
    if b == [] {
      assert a + b == a;
    } else {
      var b' := b[..|b| - 1];
      assert (a + b)[..|a + b| - 1] == a + b';
      RemoveWhitespaceAppend(a, b');
    }
  }

  /** A string without whitespace is left as it is. */
  lemma {:induction false} RemoveWhitespaceNoop(s: string)
    requires NoWhitespace(s)
    ensures RemoveWhitespace(s) == s
  {
    if s != [] {
      RemoveWhitespaceNoop(s[..|s| - 1]);
      assert s[..|s| - 1] + [s[|s| - 1]] == s;
    }
  }

  /** Inserting a whitespace character anywhere does not change the stripped text. */
  lemma InsertWhitespaceInvisible(a: string, w: char, b: string)
    requires IsWhitespace(w)
    ensures RemoveWhitespace(a + [w] + b) == RemoveWhitespace(a + b)
  {
    RemoveWhitespaceAppend(a + [w], b);
    RemoveWhitespaceAppend(a, [w]);
    RemoveWhitespaceAppend(a, b);
    assert [w][..0] == [];
  }

  /** The length JavaScript reports for `s` (`.length`): UTF-16 code units,
      so a character outside the Basic Multilingual Plane counts twice. */
  function Utf16Length(s: string): (n: nat)
    ensures |s| <= n <= 2 * |s|
    ensures n == 0 <==> s == []
    ensures (forall i :: 0 <= i < |s| ==> s[i] < '\U{10000}') ==> n == |s|
  {
    if s == [] then 0
    else (if s[0] < '\U{10000}' then 1 else 2) + Utf16Length(s[1..])
  }

  /** The JavaScript length of a concatenation is the sum of the lengths. */
  lemma {:induction false} Utf16LengthAppend(a: string, b: string)
    ensures Utf16Length(a + b) == Utf16Length(a) + Utf16Length(b)
  {
    if a == [] {
      assert a + b == b;
    } else {
      assert (a + b)[0] == a[0] && (a + b)[1..] == a[1..] + b;
      Utf16LengthAppend(a[1..], b);
    }
  }

  /** ASCII upper-casing of one character. */
  function UpperChar(c: char): (r: char)
    ensures IsLower(c) ==> IsUpper(r) && r as int == c as int - 32
    ensures !IsLower(c) ==> r == c
  {
    if IsLower(c) then (c as int - 32) as char else c
  }

  function LowerChar(c: char): (r: char)
    ensures IsUpper(c) ==> IsLower(r) && r as int == c as int + 32
    ensures !IsUpper(c) ==> r == c
  {
    if IsUpper(c) then (c as int + 32) as char else c
  }

  /** `toUpperCase` restricted to ASCII letters. */
  function ToUpper(s: string): (r: string)
    ensures |r| == |s|
    ensures forall i :: 0 <= i < |s| ==> r[i] == UpperChar(s[i])
  {
    seq(|s|, i requires 0 <= i < |s| => UpperChar(s[i]))
  }

  /** `toLowerCase` restricted to ASCII letters. */
  function ToLower(s: string): (r: string)
    ensures |r| == |s|
    ensures forall i :: 0 <= i < |s| ==> r[i] == LowerChar(s[i])
  {
    seq(|s|, i requires 0 <= i < |s| => LowerChar(s[i]))
  }

  /** Upper-casing is idempotent and ignores the original case of letters. */
  lemma UpperIgnoresCase(s: string)
    ensures ToUpper(ToUpper(s)) == ToUpper(s)
    ensures ToUpper(ToLower(s)) == ToUpper(s)
  {
  }

  /** Decimal rendering of a natural number, as string interpolation prints it. */
  function NatToString(n: nat): (r: string)
    ensures |r| >= 1
    ensures forall i :: 0 <= i < |r| ==> IsDigit(r[i])
    decreases n
  {
    var d := ['0' + (n % 10) as char];
    if n < 10 then d else NatToString(n / 10) + d
  }

  /** Decimal rendering of an integer, with a leading minus sign when negative. */
  function IntToString(n: int): (r: string)
    ensures |r| >= 1
  {
    if n < 0 then "-" + NatToString(-n) else NatToString(n)
  }

  /** `s.indexOf(c, from)`: the first position at or after `from` holding `c`. */
  function IndexOf(s: string, c: char, from: nat): (r: Option<nat>)
    ensures r.Some? ==> from <= r.value < |s| && s[r.value] == c
    ensures r.Some? ==> forall m :: from <= m < r.value ==> s[m] != c
    ensures r.None? ==> forall m :: from <= m < |s| ==> s[m] != c
    decreases |s| - from
  {
    if from >= |s| then None
    else if s[from] == c then Some(from)
    else IndexOf(s, c, from + 1)
  }

  /** Whether `pat` occurs in `s` starting at position `i`. */
  predicate OccursAt(s: string, pat: string, i: nat)
  {
    i + |pat| <= |s| && s[i..i + |pat|] == pat
  }

  /** `s.indexOf(pat, from)` for a string pattern. */
  function IndexOfText(s: string, pat: string, from: nat): (r: Option<nat>)
    ensures r.Some? ==> from <= r.value && OccursAt(s, pat, r.value)
    ensures r.Some? ==> forall m :: from <= m < r.value ==> !OccursAt(s, pat, m)
    ensures r.None? ==> forall m :: from <= m ==> !OccursAt(s, pat, m)
    decreases |s| - from
  {
    if from + |pat| > |s| then None
    else if s[from..from + |pat|] == pat then Some(from)
    else IndexOfText(s, pat, from + 1)
  }

  /** `s.replace(pat, rep)` with a string pattern: only the first occurrence is
      replaced, wherever it is; without one the string is unchanged. */
  function ReplaceFirst(s: string, pat: string, rep: string): (r: string)
    ensures IndexOfText(s, pat, 0).None? ==> r == s
    ensures IndexOfText(s, pat, 0).Some? ==>
      var i := IndexOfText(s, pat, 0).value;
      r == s[..i] + rep + s[i + |pat|..]
  {
    match IndexOfText(s, pat, 0)
    case None => s
    case Some(i) => s[..i] + rep + s[i + |pat|..]
  }

  /** A pattern at the very start is the first occurrence, so replacing it by
      nothing strips exactly that prefix. */
  lemma StripLeadingPattern(pat: string, t: string)
    ensures ReplaceFirst(pat + t, pat, "") == t
  {
    assert OccursAt(pat + t, pat, 0) by {
      assert (pat + t)[0..|pat|] == pat;
    }
    assert (pat + t)[|pat|..] == t;
  }
}

=== FILE: use_form.dfy ===
/** The `useForm` hook: per-field validation with a fixed rule order, whole-form
    validation, and the state transitions of the form (change, blur, reset,
    submit). React's state setters become pure functions from state to state. */
module UseForm {

  import opened Common
  import opened Validation

  /** The rules one field may carry. `minLength`/`maxLength` of 0 stand for an
      absent (falsy) bound. */
  datatype Rules = Rules(
    required: bool, email: bool, phone: bool, minLength: int, maxLength: int,
    number: bool, date: bool, amount: bool, postcode: bool, password: bool,
    url: bool, iban: bool, vat: bool)

  /** The validators that rest on JavaScript number, date and URL parsing enter
      the model as given predicates. */
  datatype Parsers = Parsers(
    number: Value -> bool, date: Value -> bool, amount: Value -> bool, url: Value -> bool)

  /** One line of `validateField`: whether it runs, whether the value passes,
      and the message it contributes when it fails. */
  datatype Step = Step(runs: bool, passes: bool, message: string)

  predicate Fails(s: Step) { s.runs && !s.passes }

  /** `value && rules.x`: a step after `required` runs only for a truthy value. */
  function Gate(on: bool, xs: seq<Step>): (ys: seq<Step>)
    ensures |ys| == |xs|
    ensures forall i :: 0 <= i < |xs| ==> ys[i] == xs[i].(runs := on && xs[i].runs)
  {
    seq(|xs|, i requires 0 <= i < |xs| => xs[i].(runs := on && xs[i].runs))
  }

  /** The thirteen checks of `validateField`, in source order. */
  function Steps(r: Rules, p: Parsers, v: Value): (s: seq<Step>)
    ensures |s| == 13
    ensures s[0] == Step(r.required, ValidateRequired(v).isValid, RequiredMessage)
    ensures !Truthy(v) ==> forall i :: 1 <= i < |s| ==> !s[i].runs
  {
    var t := ToText(v);
    [Step(r.required, ValidateRequired(v).isValid, RequiredMessage)] + Gate(Truthy(v), [
      Step(r.email, ValidateEmail(t).isValid, EmailMessage),
      Step(r.phone, ValidatePhone(t).isValid, PhoneMessage),
      Step(r.minLength != 0, ValidateMinLength(v, r.minLength).isValid, ValidateMinLength(v, r.minLength).message),
      Step(r.maxLength != 0, ValidateMaxLength(v, r.maxLength).isValid, ValidateMaxLength(v, r.maxLength).message),
      Step(r.number, p.number(v), "Must be a valid number"),
      Step(r.date, p.date(v), "Must be a valid date"),
      Step(r.amount, p.amount(v), "Must be a valid positive amount"),
      Step(r.postcode, ValidatePostcode(t).isValid, PostcodeMessage),
      Step(r.password, ValidatePassword(t).isValid, ValidatePassword(t).message),
      Step(r.url, p.url(v), "Must be a valid URL"),
      Step(r.iban, ValidateIban(t).isValid, IbanMessage),
      Step(r.vat, ValidateVat(t).isValid, VatMessage)])
  }

  /** The messages of the failing steps, in order (the source's `fieldErrors`). */
  function FailedMessages(s: seq<Step>): (m: seq<string>)
    ensures |m| <= |s|
  {
    if s == [] then []
    else (if Fails(s[0]) then [s[0].message] else []) + FailedMessages(s[1..])
  }

  /** The first failing step's message: nothing exactly when no step fails, and
      otherwise the message of a failing step preceded only by passing ones. */
  lemma {:induction false} FirstFailed(s: seq<Step>)
    ensures FailedMessages(s) == [] <==> forall i :: 0 <= i < |s| ==> !Fails(s[i])
    ensures FailedMessages(s) != [] ==>
      exists k :: 0 <= k < |s| && Fails(s[k]) && FailedMessages(s)[0] == s[k].message &&
        forall j :: 0 <= j < k ==> !Fails(s[j])
  {
    if s != [] {
      FirstFailed(s[1..]);
      if !Fails(s[0]) && FailedMessages(s) != [] {
        var k :| 0 <= k < |s[1..]| && Fails(s[1..][k]) && FailedMessages(s[1..])[0] == s[1..][k].message &&
          forall j :: 0 <= j < k ==> !Fails(s[1..][j]);
        assert Fails(s[k + 1]);
        forall j | 0 <= j < k + 1 ensures !Fails(s[j])
        {
          if j > 0 { assert s[j] == s[1..][j - 1]; }
        }
      }
      if !Fails(s[0]) && FailedMessages(s[1..]) == [] {
        forall i | 0 <= i < |s| ensures !Fails(s[i])
        {
          if i > 0 { assert s[i] == s[1..][i - 1]; }
        }
      }
    }
  }

  /** `validateField`: `null` for a field without rules, otherwise the first
      failing message. */
  function ValidateField(rules: map<string, Rules>, p: Parsers, name: string, v: Value): (e: Option<string>)
    ensures name !in rules ==> e == None
  {
    if name !in rules then None
    else
      var m := FailedMessages(Steps(rules[name], p, v));
      FirstFailed(Steps(rules[name], p, v));
      if m == [] then None else Some(m[0])
  }

  /** The verdict on a ruled field: no error exactly when no check fails, and
      otherwise the message of the earliest failing check in source order. */
  lemma FieldErrorIsFirstFailure(rules: map<string, Rules>, p: Parsers, name: string, v: Value)
    requires name in rules
    ensures var s := Steps(rules[name], p, v);
      && (ValidateField(rules, p, name, v).None? <==> forall i :: 0 <= i < 13 ==> !Fails(s[i]))
      && (ValidateField(rules, p, name, v).Some? ==>
            exists k :: 0 <= k < 13 && Fails(s[k]) && ValidateField(rules, p, name, v).value == s[k].message &&
              forall j :: 0 <= j < k ==> !Fails(s[j]))
  {
    FirstFailed(Steps(rules[name], p, v));
  }

  /** A falsy value can only fail `required`: every other check is skipped. */
  lemma FalsyOnlyRequired(rules: map<string, Rules>, p: Parsers, name: string, v: Value)
    requires name in rules
    requires !Truthy(v)
    ensures ValidateField(rules, p, name, v) ==
      if rules[name].required && !ValidateRequired(v).isValid then Some(RequiredMessage) else None
  {
    OnlyHeadFails(Steps(rules[name], p, v));
  }

  /** When no step after the first one runs, only the first can contribute a
      message. */
  lemma OnlyHeadFails(s: seq<Step>)
    requires |s| >= 1
    requires forall i :: 1 <= i < |s| ==> !s[i].runs
    ensures FailedMessages(s) == if Fails(s[0]) then [s[0].message] else []
  {
    assert forall i :: 0 <= i < |s[1..]| ==> !Fails(s[1..][i]);
    FirstFailed(s[1..]);
  }

  /** The value stored under a field, `undefined` when absent. */
  function Lookup(values: map<string, Value>, name: string): Value
  {
    if name in values then values[name] else Undefined
  }

  /** `validateForm`: the error map and the verdict. */
  function ValidateForm(rules: map<string, Rules>, p: Parsers, values: map<string, Value>): (r: (bool, map<string, string>))
    ensures r.1.Keys <= rules.Keys
    ensures forall f :: f in r.1 <==> f in rules && ValidateField(rules, p, f, Lookup(values, f)).Some?
    ensures forall f :: f in r.1 ==> r.1[f] == ValidateField(rules, p, f, Lookup(values, f)).value
    ensures r.0 <==> forall f :: f in rules ==> ValidateField(rules, p, f, Lookup(values, f)).None?
  {
    var errors := ErrorMap(rules.Keys, f => ValidateField(rules, p, f, Lookup(values, f)));
    (|errors| == 0, errors)
  }

  /** The fields whose verdict is an error, each with its message. */
  function ErrorMap(fields: set<string>, verdict: string -> Option<string>): (m: map<string, string>)
    ensures forall f :: f in m <==> f in fields && verdict(f).Some?
    ensures forall f :: f in m ==> m[f] == verdict(f).value
    ensures |m| == 0 <==> forall f :: f in fields ==> verdict(f).None?
  {
    var m := map f | f in fields && verdict(f).Some? :: verdict(f).value;
    assert (exists f :: f in m) <==> m != map[];
    m
  }

  /** The hook's state. */
  datatype Form = Form(
    values: map<string, Value>,
    errors: map<string, Option<string>>,
    touched: map<string, bool>,
    isSubmitting: bool,
    isValid: bool)

  function Initial(initialValues: map<string, Value>): (f: Form)
    ensures f.values == initialValues && f.errors == map[] && f.touched == map[]
    ensures !f.isSubmitting && !f.isValid
  {
    Form(initialValues, map[], map[], false, false)
  }

  /** Re-validation (what the effect on `values` does): stores the error map and
      the verdict, leaves values and touched fields alone. */
  function Revalidate(f: Form, rules: map<string, Rules>, p: Parsers): (g: Form)
    ensures g.values == f.values && g.touched == f.touched && g.isSubmitting == f.isSubmitting
    ensures g.isValid <==> forall x :: x in rules ==> ValidateField(rules, p, x, Lookup(f.values, x)).None?
    ensures forall x :: x in g.errors <==> x in rules && ValidateField(rules, p, x, Lookup(f.values, x)).Some?
  {
    var (ok, errs) := ValidateForm(rules, p, f.values);
    f.(errors := AsSome(errs), isValid := ok)
  }

  /** The form keeps each field's error as an optional message. */
  function AsSome(m: map<string, string>): (w: map<string, Option<string>>)
    ensures w.Keys == m.Keys
    ensures forall x :: x in w ==> w[x] == Some(m[x])
  {
    map x | x in m :: Some(m[x])
  }

  /** A change event's target. */
  datatype Target = Target(name: string, value: string, kind: string, checked: bool)

  /** `handleChange`: checkboxes store `checked`, other inputs store `value`. */
  function HandleChange(f: Form, t: Target): (g: Form)
    ensures g.values.Keys == f.values.Keys + {t.name}
    ensures g.values[t.name] == if t.kind == "checkbox" then Flag(t.checked) else Text(t.value)
    ensures forall k :: k in f.values && k != t.name ==> g.values[k] == f.values[k]
    ensures g.errors == f.errors && g.touched == f.touched && g.isSubmitting == f.isSubmitting
  {
    f.(values := f.values[t.name := if t.kind == "checkbox" then Flag(t.checked) else Text(t.value)])
  }

  /** `handleBlur`: marks the field touched and stores its own error (or null). */
  function HandleBlur(f: Form, rules: map<string, Rules>, p: Parsers, name: string): (g: Form)
    ensures g.touched.Keys == f.touched.Keys + {name} && g.touched[name]
    ensures g.errors.Keys == f.errors.Keys + {name}
    ensures g.errors[name] == ValidateField(rules, p, name, Lookup(f.values, name))
    ensures forall k :: k in f.errors && k != name ==> g.errors[k] == f.errors[k]
    ensures g.values == f.values
  {
    f.(touched := f.touched[name := true],
       errors := f.errors[name := ValidateField(rules, p, name, Lookup(f.values, name))])
  }

  /** `reset`: back to the initial values with no errors, nothing touched and
      no submission in progress. */
  function Reset(f: Form, initialValues: map<string, Value>): (g: Form)
    ensures g == Initial(initialValues).(isValid := f.isValid)
  {
    f.(values := initialValues, errors := map[], touched := map[], isSubmitting := false)
  }

  /** `setFieldValue`: only the named value changes. */
  function SetFieldValue(f: Form, name: string, v: Value): (g: Form)
    ensures g.values.Keys == f.values.Keys + {name} && g.values[name] == v
    ensures forall k :: k in f.values && k != name ==> g.values[k] == f.values[k]
    ensures g.(values := f.values) == f
  {
    f.(values := f.values[name := v])
  }

  /** `setFieldError`: only the named error changes. */
  function SetFieldError(f: Form, name: string, e: Option<string>): (g: Form)
    ensures g.errors.Keys == f.errors.Keys + {name} && g.errors[name] == e
    ensures forall k :: k in f.errors && k != name ==> g.errors[k] == f.errors[k]
    ensures g.(errors := f.errors) == f
  {
    f.(errors := f.errors[name := e])
  }

  /** What a submit does: the state afterwards, and the values handed to
      `onSubmit` when it was called. */
  datatype Submission = Submission(form: Form, submitted: Option<map<string, Value>>)

  /** `handleSubmit`: validates, calls `onSubmit` with the current values only
      when the form is valid, and ends with no submission in progress. */
  function HandleSubmit(f: Form, rules: map<string, Rules>, p: Parsers): (s: Submission)
    ensures s.submitted.Some? <==> forall x :: x in rules ==> ValidateField(rules, p, x, Lookup(f.values, x)).None?
    ensures s.submitted.Some? ==> s.submitted.value == f.values
    ensures s.form.values == f.values && !s.form.isSubmitting
    ensures s.form.isValid == s.submitted.Some?
  {
    var g := Revalidate(f.(isSubmitting := true), rules, p);
    Submission(g.(isSubmitting := false), if g.isValid then Some(f.values) else None)
  }
}

=== FILE: user_model.dfy ===
/** The user document: its schema (required fields, the role enum and its
    default, the trimmed lower-case email), the pre-save hook that re-hashes a
    modified password, and the public profile that strips every secret. */
module UserModel {

  import opened Common
  import opened Text
  import opened Casts

  /** A stored user. `password` holds the plain text only between an assignment
      and the next save; after a save it holds the bcrypt hash. Dates are
      milliseconds since the epoch. */
  datatype User = User(
    id: Id,
    email: string,
    password: string,
    firstName: string,
    lastName: string,
    role: Role,
    phone: Option<string>,
    profileImage: Option<string>,
    properties: seq<Id>,
    isVerified: bool,
    verificationToken: Option<string>,
    resetPasswordToken: Option<string>,
    resetPasswordExpires: Option<int>,
    lastLogin: Option<int>,
    preferences: Json)

  /** Email and push notifications on, light theme. */
  function DefaultPreferences(): Json
  {
    JObj(map[
      "notifications" := JObj(map["email" := JBool(true), "push" := JBool(true)]),
      "theme" := JStr("light")])
  }

  const Themes: set<string> := {"light", "dark"}

  predicate ThemeOk(v: Json) { EnumOk(v, Themes) }

  /** The `notifications` object: two Boolean flags. */
  predicate NotificationsOk(v: Json)
  {
    && NestedOk(v)
    && (v.JObj? ==>
          FieldPasses(v.fields, "email", BooleanCastable) && FieldPasses(v.fields, "push", BooleanCastable))
  }

  /** What the `preferences` object of the schema accepts: Boolean-castable
      notification flags and a theme from the enum. */
  predicate PreferencesOk(v: Json)
  {
    && NestedOk(v)
    && (v.JObj? ==>
          FieldPasses(v.fields, "notifications", NotificationsOk) && FieldPasses(v.fields, "theme", ThemeOk))
  }

  /** The defaults a new user starts with pass the schema's own checks. */
  lemma DefaultPreferencesOk()
    ensures PreferencesOk(DefaultPreferences())
  {
  }

  /** The password schema's `minlength`. */
  const MinPasswordLength: nat := 6

  /** The email as the schema stores it (and as it casts a query value):
      trimmed and lower-cased. */
  function StoredEmail(e: string): (r: string)
    ensures |r| <= |e|
    ensures forall i :: 0 <= i < |r| ==> !IsUpper(r[i])
    ensures r == [] <==> AllWhitespace(e)
  {
    TrimEmptyIff(e);
    ToLower(Trim(e))
  }

  /** A trimmed string is its own trim. */
  lemma TrimmedIsFixed(s: string)
    requires s == [] || (!IsWhitespace(s[0]) && !IsWhitespace(s[|s| - 1]))
    ensures Trim(s) == s
  {
  }

  /** Lower-casing never turns a character into whitespace or out of it. */
  lemma LowerKeepsWhitespace(c: char)
    ensures IsWhitespace(LowerChar(c)) <==> IsWhitespace(c)
    ensures LowerChar(LowerChar(c)) == LowerChar(c)
  {
  }

  /** Storing an already stored email changes nothing, so a lookup with a stored
      email finds the document that holds it. */
  lemma {:induction false} StoredEmailIdempotent(e: string)
    ensures StoredEmail(StoredEmail(e)) == StoredEmail(e)
  {
    var t := Trim(e);
    var l := ToLower(t);
    assert StoredEmail(e) == l;
    LowerOfTrimmed(t);
    LowerIdempotent(t);
    assert StoredEmail(l) == ToLower(Trim(l));
  }

  /** Lower-casing a trimmed string leaves it trimmed. */
  lemma LowerOfTrimmed(t: string)
    requires t == [] || (!IsWhitespace(t[0]) && !IsWhitespace(t[|t| - 1]))
    ensures Trim(ToLower(t)) == ToLower(t)
  {
    var l := ToLower(t);
    if l != [] {
      LowerKeepsWhitespace(t[0]);
      LowerKeepsWhitespace(t[|t| - 1]);
    }
    TrimmedIsFixed(l);
  }

  lemma LowerIdempotent(t: string)
    ensures ToLower(ToLower(t)) == ToLower(t)
  {
    var l := ToLower(t);
    forall i | 0 <= i < |l|
      ensures ToLower(l)[i] == l[i]
    {
      LowerKeepsWhitespace(t[i]);
    }
  }

  /** The role stored for a request value: the default when absent, otherwise the
      enum member it names; `None` when the schema's enum rejects it. */
  function CastRole(role: Option<string>): (r: Option<Role>)
    ensures role.None? ==> r == Some(Tenant)
    ensures role.Some? ==> (r.Some? <==> role.value in {"landlord", "tenant", "admin"})
    ensures role.Some? && r.Some? ==> RoleName(r.value) == role.value
  {
    if role.None? then Some(Tenant) else ParseRole(role.value)
  }

  /** A new document: not verified, no tokens, default preferences. */
  function NewUser(id: Id, email: string, password: string, firstName: string,
                   lastName: string, role: Role): (u: User)
    ensures u.id == id && u.role == role && u.password == password
    ensures u.email == StoredEmail(email)
    ensures u.firstName == Trim(firstName) && u.lastName == Trim(lastName)
    ensures !u.isVerified && u.verificationToken.None?
    ensures u.resetPasswordToken.None? && u.resetPasswordExpires.None?
    ensures u.properties == [] && u.phone.None? && u.lastLogin.None?
    ensures u.preferences == DefaultPreferences()
  {
    User(id, StoredEmail(email), password, Trim(firstName), Trim(lastName), role,
         None, None, [], false, None, None, None, None, DefaultPreferences())
  }

  /** Schema validation at save time: the required strings are non-empty, and a
      modified password (still plain text here, since validation runs before the
      pre-save hook) has at least six characters, counted in UTF-16 code units
      as JavaScript counts them. An unmodified password is a stored hash and is
      not checked again. The preferences pass their theme enum and the Boolean
      casts of the notification flags. */
  predicate Valid(u: User, passwordModified: bool): (b: bool)
    ensures b && passwordModified ==> 2 * |u.password| >= MinPasswordLength
    ensures b ==> u.email != [] && PreferencesOk(u.preferences)
  {
    && u.email != [] && u.firstName != [] && u.lastName != []
    && (passwordModified ==> Utf16Length(u.password) >= MinPasswordLength)
    && PreferencesOk(u.preferences)
  }

  /** `save`: validation, then the pre-save hook, which hashes the password only
      when it was modified. `hash` stands for bcrypt with this call's salt. */
  function Save(u: User, passwordModified: bool, hash: string -> string): (r: Outcome<User>)
    ensures r.Ok? <==> Valid(u, passwordModified)
    ensures r.Ok? ==> r.value.(password := u.password) == u
    ensures r.Ok? ==> r.value.password == (if passwordModified then hash(u.password) else u.password)
    ensures r.Fail? ==> r.code == 500
  {
    if !Valid(u, passwordModified) then Fail(500, ServerError)
    else if passwordModified then Ok(u.(password := hash(u.password)))
    else Ok(u)
  }

  /** A saved password is hashed once: saving again without assigning a new
      password keeps the hash, whatever salt the second save would use. */
  lemma SaveHashesOnce(u: User, h1: string -> string, h2: string -> string)
    requires Save(u, true, h1).Ok?
    ensures Save(Save(u, true, h1).value, false, h2) == Save(u, true, h1)
  {
  }

  /** `getPublicProfile`: the document without its password, verification
      token, reset token and reset expiry. */
  datatype PublicProfile = PublicProfile(
    id: Id,
    email: string,
    firstName: string,
    lastName: string,
    role: Role,
    phone: Option<string>,
    profileImage: Option<string>,
    properties: seq<Id>,
    isVerified: bool,
    lastLogin: Option<int>,
    preferences: Json)

  function GetPublicProfile(u: User): (p: PublicProfile)
    ensures p.id == u.id && p.email == u.email && p.role == u.role
    ensures p.firstName == u.firstName && p.lastName == u.lastName
    ensures p.phone == u.phone && p.profileImage == u.profileImage
    ensures p.properties == u.properties && p.isVerified == u.isVerified
    ensures p.lastLogin == u.lastLogin && p.preferences == u.preferences
  {
    PublicProfile(u.id, u.email, u.firstName, u.lastName, u.role, u.phone,
                  u.profileImage, u.properties, u.isVerified, u.lastLogin, u.preferences)
  }

  /** The four stripped fields. */
  predicate SameSecrets(u: User, v: User)
  {
    u.password == v.password && u.verificationToken == v.verificationToken
    && u.resetPasswordToken == v.resetPasswordToken
    && u.resetPasswordExpires == v.resetPasswordExpires
  }

  /** The profile reveals nothing about the secrets: changing them never changes
      the profile. */
  lemma ProfileHidesSecrets(u: User, password: string, verificationToken: Option<string>,
                            resetToken: Option<string>, resetExpires: Option<int>)
    ensures GetPublicProfile(u.(password := password, verificationToken := verificationToken,
      resetPasswordToken := resetToken, resetPasswordExpires := resetExpires))
      == GetPublicProfile(u)
  {
  }

  /** The profile drops nothing else: profile and secrets together determine the
      document. */
  lemma ProfileKeepsTheRest(u: User, v: User)
    requires SameSecrets(u, v)
    ensures GetPublicProfile(u) == GetPublicProfile(v) <==> u == v
  {
  }
}

=== FILE: validation.dfy ===
/** The front-end field validators of `src/utils/validation.js`. Each returns a
    `Check` with the verdict and the message the form shows. */
module Validation {

  import opened Common
  import opened Text
  import opened Pattern

  datatype Check = Check(isValid: bool, message: string)

  /** A form value as the form hook stores it: text inputs give strings,
      checkboxes give booleans, and a field never set is `undefined`. */
  datatype Value = Undefined | Null | Text(s: string) | Flag(b: bool)

  /** JavaScript truthiness of a form value. */
  predicate Truthy(v: Value)
  {
    match v
    case Undefined => false
    case Null => false
    case Text(s) => s != ""
    case Flag(b) => b
  }

  /** `String(v)`, the text a regular expression test sees. */
  function ToText(v: Value): string
  {
    match v
    case Undefined => "undefined"
    case Null => "null"
    case Text(s) => s
    case Flag(b) => if b then "true" else "false"
  }

  // ---------------------------------------------------------------- required

  const RequiredMessage := "This field is required"

  /** `validateRequired`: `value.toString().trim() !== ''` for a present value. */
  function ValidateRequired(v: Value): (c: Check)
    ensures c.message == RequiredMessage
  {
    Check(!v.Undefined? && !v.Null? && Trim(ToText(v)) != "", RequiredMessage)
  }

  /** A value fails `required` exactly when it is null, undefined or a
      whitespace-only string. */
  lemma RequiredFailsIff(v: Value)
    ensures !ValidateRequired(v).isValid <==> v == Null || v == Undefined || (v.Text? && AllWhitespace(v.s))
  {
    TrimEmptyIff(ToText(v));
    if v.Flag? {
      assert !AllWhitespace(ToText(v)) by {
        assert !IsWhitespace(ToText(v)[0]);
      }
    }
  }

  // ---------------------------------------------------------------- lengths

  /** `validateMinLength`: `value && value.length >= min`, the length counted
      in UTF-16 code units as JavaScript does; a boolean has no length. Text of
      at least `min` characters always passes; text of fewer may pass when it
      holds characters that count twice. */
  function ValidateMinLength(v: Value, min: int): (c: Check)
    ensures c.isValid <==> v.Text? && v.s != "" && Utf16Length(v.s) >= min
    ensures v.Text? && v.s != "" && |v.s| >= min ==> c.isValid
    ensures c.isValid ==> 2 * |v.s| >= min
  {
    Check(Truthy(v) && v.Text? && Utf16Length(v.s) >= min,
          "Minimum length is " + IntToString(min) + " characters")
  }

  /** `validateMaxLength`: `value && value.length <= max`, in UTF-16 code
      units. Passing text never has more than `max` characters. */
  function ValidateMaxLength(v: Value, max: int): (c: Check)
    ensures c.isValid <==> v.Text? && v.s != "" && Utf16Length(v.s) <= max
    ensures c.isValid ==> |v.s| <= max
    ensures v.Text? && v.s != "" && 2 * |v.s| <= max ==> c.isValid
  {
    Check(Truthy(v) && v.Text? && Utf16Length(v.s) <= max,
          "Maximum length is " + IntToString(max) + " characters")
  }

  // ---------------------------------------------------------------- email

  predicate NotSpaceOrAt(c: char) { !IsWhitespace(c) && c != '@' }

  /** What `/^[^\s@]+@[^\s@]+\.[^\s@]+$/` accepts, stated by positions: one `@`
      at `i` with text before it, a `.` at `j` with text on both sides, and no
      whitespace or other `@` anywhere. */
  ghost predicate EmailShape(s: string)
  {
    exists i, j :: 0 < i && i + 1 < j && j + 1 < |s| && s[i] == '@' && s[j] == '.' &&
      forall k :: 0 <= k < |s| && k != i ==> NotSpaceOrAt(s[k])
  }

  /** The email test as a left-to-right scan: the first `@`, no second one, and
      a `.` at least two places after it that is not the last character. */
  predicate IsEmail(s: string)
  {
    && NoWhitespace(s)
    && match IndexOf(s, '@', 0)
       case None => false
       case Some(i) =>
         && i > 0
         && IndexOf(s, '@', i + 1).None?
         && match IndexOf(s, '.', i + 2)
            case None => false
            case Some(j) => j + 1 < |s|
  }

  /** The scan accepts exactly the strings the regular expression describes. */
  lemma IsEmailIff(s: string)
    ensures IsEmail(s) <==> EmailShape(s)
  {
    if IsEmail(s) {
      var i := IndexOf(s, '@', 0).value;
      var j := IndexOf(s, '.', i + 2).value;
      assert forall k :: 0 <= k < |s| && k != i ==> NotSpaceOrAt(s[k]);
      assert 0 < i && i + 1 < j && j + 1 < |s| && s[i] == '@' && s[j] == '.';
    }
    if EmailShape(s) {
      var i, j :| 0 < i && i + 1 < j && j + 1 < |s| && s[i] == '@' && s[j] == '.' &&
        forall k :: 0 <= k < |s| && k != i ==> NotSpaceOrAt(s[k]);
      assert !IsWhitespace(s[i]);
      assert NoWhitespace(s);
      assert IndexOf(s, '@', 0) == Some(i);
      assert IndexOf(s, '@', i + 1).None?;
      var d := IndexOf(s, '.', i + 2);
      assert d.Some? && d.value <= j;
    }
  }

  const EmailMessage := "Please enter a valid email address"

  function ValidateEmail(email: string): (c: Check)
    ensures c.isValid <==> EmailShape(email)
    ensures c.message == EmailMessage
  {
    IsEmailIff(email);
    Check(IsEmail(email), EmailMessage)
  }

  // ---------------------------------------------------------------- phone

  /** `[\d\s-+()]`: in a character class `\s-+` is `\s`, `-` and `+`. */
  predicate IsPhoneChar(c: char)
  {
    IsDigit(c) || IsWhitespace(c) || c == '-' || c == '+' || c == '(' || c == ')'
  }

  const PhoneMessage := "Please enter a valid phone number (minimum 10 digits)"

  /** `validatePhone`: ten or more characters, all digits, whitespace, `-`, `+`
      or parentheses. The count is of characters, not of digits. */
  function ValidatePhone(phone: string): (c: Check)
    ensures c.isValid ==> |phone| >= 10
    ensures c.isValid <==> |phone| >= 10 && forall i :: 0 <= i < |phone| ==> IsPhoneChar(phone[i])
    ensures c.message == PhoneMessage
  {
    Check(|phone| >= 10 && forall i :: 0 <= i < |phone| ==> IsPhoneChar(phone[i]), PhoneMessage)
  }

  /** Valid phone numbers stay valid when more phone characters are appended. */
  lemma PhoneExtends(a: string, b: string)
    requires ValidatePhone(a).isValid
    requires forall i :: 0 <= i < |b| ==> IsPhoneChar(b[i])
    ensures ValidatePhone(a + b).isValid
  {
    forall i | 0 <= i < |a + b| ensures IsPhoneChar((a + b)[i])
    {
      if i >= |a| { assert (a + b)[i] == b[i - |a|]; }
    }
  }

  // ---------------------------------------------------------------- postcode

  /** `^[A-Z0-9]{3}\s[A-Z0-9]{4}$`. */
  function PostcodePattern(): (p: seq<Class>)
    ensures |p| == 8
  {
    Repeat(UpperOrDigit, 3) + [Space] + Repeat(UpperOrDigit, 4)
  }

  const PostcodeMessage := "Must be a valid Irish postcode (e.g., D01 X4X0)"

  /** `validatePostcode`: the pattern matched against the upper-cased input. */
  function ValidatePostcode(postcode: string): (c: Check)
    ensures c.message == PostcodeMessage
  {
    Check(Matches(ToUpper(postcode), PostcodePattern()), PostcodeMessage)
  }

  predicate IsAlnumUpper(c: char) { IsUpper(c) || IsDigit(c) }

  /** A postcode is valid exactly when, upper-cased, it is three letters or
      digits, one whitespace character, then four letters or digits. */
  lemma PostcodeShape(postcode: string)
    ensures ValidatePostcode(postcode).isValid <==>
      var u := ToUpper(postcode);
      && |u| == 8
      && (forall i :: 0 <= i < 3 ==> IsAlnumUpper(u[i]))
      && IsWhitespace(u[3])
      && (forall i :: 4 <= i < 8 ==> IsAlnumUpper(u[i]))
  {
    var u := ToUpper(postcode);
    var p := PostcodePattern();
    MatchesIff(u, p);
    assert forall i :: 0 <= i < 3 ==> p[i] == UpperOrDigit;
    assert p[3] == Space;
    assert forall i :: 4 <= i < 8 ==> p[i] == UpperOrDigit;
  }

  /** The postcode check does not depend on the case of the letters. */
  lemma PostcodeIgnoresCase(postcode: string)
    ensures ValidatePostcode(ToLower(postcode)) == ValidatePostcode(postcode)
    ensures ValidatePostcode(ToUpper(postcode)) == ValidatePostcode(postcode)
  {
    UpperIgnoresCase(postcode);
  }

  // ---------------------------------------------------------------- IBAN and VAT

  /** `^IE\d{2}[A-Z]{4}\d{14}$`. */
  function IbanPattern(): (p: seq<Class>)
    ensures |p| == 22
  {
    [Lit('I'), Lit('E')] + Repeat(Digit, 2) + Repeat(Upper, 4) + Repeat(Digit, 14)
  }

  const IbanMessage := "Must be a valid Irish IBAN"

  /** `validateIBAN`: the pattern matched after removing all whitespace. */
  function ValidateIban(iban: string): (c: Check)
    ensures c.message == IbanMessage
  {
    Check(Matches(RemoveWhitespace(iban), IbanPattern()), IbanMessage)
  }

  /** An IBAN is valid exactly when, without whitespace, it is "IE", two digits,
      four upper-case letters and fourteen digits. */
  lemma IbanShape(iban: string)
    ensures ValidateIban(iban).isValid <==>
      var t := RemoveWhitespace(iban);
      && |t| == 22 && t[0] == 'I' && t[1] == 'E'
      && (forall i :: 2 <= i < 4 ==> IsDigit(t[i]))
      && (forall i :: 4 <= i < 8 ==> IsUpper(t[i]))
      && (forall i :: 8 <= i < 22 ==> IsDigit(t[i]))
  {
    var t := RemoveWhitespace(iban);
    var p := IbanPattern();
    MatchesIff(t, p);
    if |t| == 22 {
      forall i | 0 <= i < 22 ensures InClass(t[i], p[i]) <==> InClass(t[i], IbanClassAt(i))
      {
        IbanPatternAt(i);
      }
    }
  }

  /** The class at position `i` of the IBAN pattern. */
  function IbanClassAt(i: nat): Class
  {
    if i == 0 then Lit('I') else if i == 1 then Lit('E')
    else if i < 4 then Digit else if i < 8 then Upper else Digit
  }

  lemma IbanPatternAt(i: nat)
    requires i < 22
    ensures IbanPattern()[i] == IbanClassAt(i)
  {
    var a: seq<Class> := [Lit('I'), Lit('E')];
    var d2 := Repeat(Digit, 2);
    var u4 := Repeat(Upper, 4);
    var d14 := Repeat(Digit, 14);
    assert IbanPattern() == a + d2 + u4 + d14;
    if i < 2 {
    } else if i < 4 {
      assert (a + d2 + u4 + d14)[i] == d2[i - 2];
    } else if i < 8 {
      assert (a + d2 + u4 + d14)[i] == u4[i - 4];
    } else {
      assert (a + d2 + u4 + d14)[i] == d14[i - 8];
    }
  }

  /** Spacing an IBAN out (for example in groups of four) never changes the verdict. */
  lemma IbanIgnoresWhitespace(a: string, w: char, b: string)
    requires IsWhitespace(w)
    ensures ValidateIban(a + [w] + b) == ValidateIban(a + b)
  {
    InsertWhitespaceInvisible(a, w, b);
  }

  /** `^IE\d{7}[A-Z]$`. */
  function VatPattern(): (p: seq<Class>)
    ensures |p| == 10
  {
    [Lit('I'), Lit('E')] + Repeat(Digit, 7) + [Upper]
  }

  const VatMessage := "Must be a valid Irish VAT number"

  /** `validateVAT`: the pattern matched after removing all whitespace. */
  function ValidateVat(vat: string): (c: Check)
    ensures c.message == VatMessage
  {
    Check(Matches(RemoveWhitespace(vat), VatPattern()), VatMessage)
  }

  /** A VAT number is valid exactly when, without whitespace, it is "IE", seven
      digits and one upper-case letter. */
  lemma VatShape(vat: string)
    ensures ValidateVat(vat).isValid <==>
      var t := RemoveWhitespace(vat);
      && |t| == 10 && t[0] == 'I' && t[1] == 'E'
      && (forall i :: 2 <= i < 9 ==> IsDigit(t[i]))
      && IsUpper(t[9])
  {
    var t := RemoveWhitespace(vat);
    var p := VatPattern();
    MatchesIff(t, p);
    assert p[0] == Lit('I') && p[1] == Lit('E');
    assert forall i :: 2 <= i < 9 ==> p[i] == Digit;
    assert p[9] == Upper;
  }

  lemma VatIgnoresWhitespace(a: string, w: char, b: string)
    requires IsWhitespace(w)
    ensures ValidateVat(a + [w] + b) == ValidateVat(a + b)
  {
    InsertWhitespaceInvisible(a, w, b);
  }

  // ---------------------------------------------------------------- password

  predicate IsSpecial(c: char)
  {
    c in "!@#$%^&*(),.?\":{}|<>"
  }

  predicate HasUpper(s: string) { exists i :: 0 <= i < |s| && IsUpper(s[i]) }
  predicate HasLower(s: string) { exists i :: 0 <= i < |s| && IsLower(s[i]) }
  predicate HasDigit(s: string) { exists i :: 0 <= i < |s| && IsDigit(s[i]) }
  predicate HasSpecial(s: string) { exists i :: 0 <= i < |s| && IsSpecial(s[i]) }

  predicate StrongPassword(pw: string)
  {
    Utf16Length(pw) >= 8 && HasUpper(pw) && HasLower(pw) && HasDigit(pw) && HasSpecial(pw)
  }

  /** The unmet criteria, in the order the message lists them. */
  function MissingCriteria(pw: string): (r: seq<string>)
    ensures r == [] <==> StrongPassword(pw)
  {
    (if Utf16Length(pw) >= 8 then [] else [" at least 8 characters"])
    + (if HasUpper(pw) then [] else [" an uppercase letter"])
    + (if HasLower(pw) then [] else [" a lowercase letter"])
    + (if HasDigit(pw) then [] else [" a number"])
    + (if HasSpecial(pw) then [] else [" a special character"])
  }

  /** The items separated by commas. */
  function JoinCommas(xs: seq<string>): string
  {
    if xs == [] then ""
    else if |xs| == 1 then xs[0]
    else xs[0] + "," + JoinCommas(xs[1..])
  }

  /** Each item followed by a comma, as the source builds the message. */
  function WithTrailingCommas(xs: seq<string>): (r: string)
    ensures xs != [] ==> |r| > 0 && r[|r| - 1] == ','
  {
    if xs == [] then "" else xs[0] + "," + WithTrailingCommas(xs[1..])
  }

  /** Dropping the last comma of the comma-terminated list gives the joined list. */
  lemma {:induction false} DropLastComma(xs: seq<string>)
    requires xs != []
    ensures var w := WithTrailingCommas(xs); w[..|w| - 1] == JoinCommas(xs)
  {
    var w := WithTrailingCommas(xs);
    if |xs| == 1 {
      assert WithTrailingCommas(xs[1..]) == "";
    } else {
      DropLastComma(xs[1..]);
      var w' := WithTrailingCommas(xs[1..]);
      assert w == xs[0] + "," + w';
      assert w[..|w| - 1] == xs[0] + "," + w'[..|w'| - 1];
    }
  }

  const PasswordPrefix := "Password must contain:"

  /** `validatePassword`: the message is built by appending each unmet criterion
      with a comma and then dropping the last character. */
  function ValidatePassword(pw: string): (c: Check)
    ensures c.isValid <==> StrongPassword(pw)
    ensures c.isValid <==> c.message == ""
    ensures !c.isValid ==> c.message == PasswordPrefix + JoinCommas(MissingCriteria(pw))
  {
    var missing := MissingCriteria(pw);
    var message := PasswordPrefix + WithTrailingCommas(missing);
    if missing == [] then Check(true, "")
    else
      DropLastComma(missing);
      assert message[..|message| - 1] == PasswordPrefix + WithTrailingCommas(missing)[..|WithTrailingCommas(missing)| - 1];
      Check(false, message[..|message| - 1])
  }
}
